=== FILE: README.md ===
# MockPrep front-end logic, modelled in Dafny

MockPrep is a React front-end for mock-interview preparation. Its pages are
mostly presentational, but each carries a small piece of pure logic. This
project models that logic as immutable datatypes and pure functions, and
proves what the pages promise about it:

- the search and filter predicates of the practice, company-interview and
  student-dashboard pages;
- the progress arithmetic: solved and completed counts, rounded percentages,
  the category breakdown, the next-lesson search, the quiz average, hours in
  tenths;
- two wizards: the registration steps with the form schema, and the
  assessment flow;
- the subscription-tier gating of the real-time analysis panel and the
  personal-trainer chat;
- the trainer chat's message list;
- the trainer dashboard's improvement badges;
- the subscription page's plan table and plan selection.

One module per page, plus three shared modules:

- `Common`: Option, filter, count, sum, rounding, clamping, random index.
- `Text`: ASCII case folding, `includes`, JavaScript `trim`, decimal digits,
  `MM:SS`, code-unit string order.
- `Tiers`: the four plan ids.

`Math.round` is modelled exactly: on integers as `RoundDiv`, on reals as
`floor(x + 1/2)`. A percentage of zero items, which JavaScript prints as
`NaN`, is `None`. Every `Math.random()` draw is a parameter in [0, 1). A value
the browser or a library supplies is an input to the function that uses it:
the e-mail check, a locale-printed date.

The source cells below cite files of the repository's `frontend/src` tree by path and line.

## Model

| member | source | states |
|---|---|---|
| Practice.OnSelect | frontend/src/pages/dashboard/student/practice/page.tsx:220-253 | a select stores `null` only for the empty string; any other value, "all" included, is stored as given |
| Practice.FilteredQuestions | frontend/src/pages/dashboard/student/practice/page.tsx:143-164 | the result keeps list order, holds exactly the questions that pass all five filters, and keeps each passing question as many times as the bank holds it |
| Practice.TagFilterIsAny | frontend/src/pages/dashboard/student/practice/page.tsx:162 | a question passes the tag filter iff no tag is ticked or it carries at least one ticked tag |
| Practice.NoFiltersKeepAll | frontend/src/pages/dashboard/student/practice/page.tsx:136-164 | with every filter in its initial state the whole list is returned in its original order |
| Practice.SearchReadsOnlyText | frontend/src/pages/dashboard/student/practice/page.tsx:145-149 | the search result does not depend on a question's tags, company or difficulty |
| Practice.AllDifficultiesExcludesEverything | frontend/src/pages/dashboard/student/practice/page.tsx:220-225 | choosing "All Difficulties" stores "all", which none of Easy, Medium and Hard equals, so a list of such questions shows nothing |
| Practice.AllCategoriesExcludesEverything | frontend/src/pages/dashboard/student/practice/page.tsx:234-239 | the same for "All Categories" when no question is in a category named "all" |
| Practice.AllCompaniesExcludesEverything | frontend/src/pages/dashboard/student/practice/page.tsx:248-253 | the same for "All Companies" when no question names a company "all" |
| Practice.ToggleTag | frontend/src/pages/dashboard/student/practice/page.tsx:282-287 | ticking appends the tag; unticking removes every copy; no other tag's count changes |
| Practice.ToggleTagRoundTrip | frontend/src/pages/dashboard/student/practice/page.tsx:282-287 | ticking a new tag and then unticking it restores the selection exactly |
| Practice.ResetTags | frontend/src/pages/dashboard/student/practice/page.tsx:297 | the dialog's Reset empties the tag selection and changes no other filter |
| Practice.SolvedCount | frontend/src/pages/dashboard/student/practice/page.tsx:169 | the solved count never exceeds the total and equals it iff every question is solved |
| Practice.ProgressPercentage | frontend/src/pages/dashboard/student/practice/page.tsx:168-170 | the percentage is undefined for an empty list and otherwise the share of solved questions times 100 rounded to nearest, halves up, so it lies in 0..100; it is 100 when all are solved and 0 when none are |
| Practice.DifficultyCount | frontend/src/pages/dashboard/student/practice/page.tsx:173-175 | a difficulty count never exceeds the list and is zero iff no question has that difficulty |
| Practice.DifficultyCountsPartition | frontend/src/pages/dashboard/student/practice/page.tsx:173-175 | the Easy, Medium and Hard counts never add up to more than the total, and add up to it when each question has one of those difficulties |
| Practice.CategoryEntry | frontend/src/pages/dashboard/student/practice/page.tsx:179-187 | total and solved count the category's questions and its solved ones, solved <= total, the total is 0 iff no question is in it, and the percentage is 100·solved/total rounded to nearest, halves up, or 0 for an empty category |
| Practice.CategoryEntries | frontend/src/pages/dashboard/student/practice/page.tsx:178-188 | one entry per category, in the categories' order, each that category's figures |
| Practice.CategoryBreakdown | frontend/src/pages/dashboard/student/practice/page.tsx:178-189 | every card left has questions, solved <= total, a non-negative "remaining" figure and a 0..100 percentage |
| Practice.CategoryBreakdownCovers | frontend/src/pages/dashboard/student/practice/page.tsx:178-189 | a category gets a card iff it is listed and some question belongs to it |
| Practice.SortNewestFirst | frontend/src/pages/dashboard/student/practice/page.tsx:484 | the sort returns a permutation of its input with the latest date first |
| Practice.SortNewestFirstStable | frontend/src/pages/dashboard/student/practice/page.tsx:484 | the sort is stable: the questions of each date keep their original order |
| Practice.RecentActivity | frontend/src/pages/dashboard/student/practice/page.tsx:482-485 | at most three attempted questions, each taken from the list no more often than it occurs there, newest first; they are the head of the stable date sort, and no attempted question left out is more recent than one shown |
| Training.CompletedLessons | frontend/src/pages/dashboard/student/training/page.tsx:183-186 | the per-section sum equals the number of completed lessons in reading order |
| Training.TotalLessons | frontend/src/pages/dashboard/student/training/page.tsx:187 | the per-section sum equals the number of lessons in reading order |
| Training.CompletedAtMostTotal | frontend/src/pages/dashboard/student/training/page.tsx:183-187 | completed <= total, with equality iff every lesson is completed |
| Training.CompletionPercentage | frontend/src/pages/dashboard/student/training/page.tsx:188 | undefined exactly for a module without lessons; otherwise 100·completed/total rounded to nearest, halves up, which lies in 0..100 |
| Training.FindNextLesson | frontend/src/pages/dashboard/student/training/page.tsx:191-200 | finds nothing iff completed equals total; otherwise returns the first incomplete lesson in section-then-lesson order |
| Training.QuizAverage | frontend/src/pages/dashboard/student/training/page.tsx:326-328 | undefined exactly when there are no quiz scores; otherwise the sum over the count rounded to nearest, halves up |
| Training.QuizAverageBetween | frontend/src/pages/dashboard/student/training/page.tsx:326-328 | the rounded average lies between any lower and upper bound of the scores |
| Training.HoursTenths | frontend/src/pages/dashboard/student/training/page.tsx:346 | the tenths shown are the minutes divided by six, rounded to nearest with halves up |
| Training.HoursLabel | frontend/src/pages/dashboard/student/training/page.tsx:346-360 | the hours label reads back as the rounded number of tenths of an hour, and carries a decimal point exactly when that number is not a whole hour |
| Training.HoursLabelRoundTrip | frontend/src/pages/dashboard/student/training/page.tsx:346 | the printed hours read back as the rounded number of tenths |
| Training.QuizScoresAverage | frontend/src/pages/dashboard/student/training/page.tsx:158 | the page's scores 85, 92, 78 and 88 average to 86 |
| Training.TimeSpentLabels | frontend/src/pages/dashboard/student/training/page.tsx:164-171 | 420, 45, 210 and 165 minutes print as "7", "0.8", "3.5" and "2.8" hours |
| Assessment.Initial | frontend/src/pages/dashboard/student/assessment/page.tsx:73-76 | the assessment opens not started, on the first question, with no answers and 2700 seconds |
| Assessment.Start | frontend/src/pages/dashboard/student/assessment/page.tsx:89-92 | Start moves to in-progress and keeps cursor, answers and clock |
| Assessment.BackArrow | frontend/src/pages/dashboard/student/assessment/page.tsx:283 | the back arrow returns to the overview without resetting cursor or answers |
| Assessment.Answer | frontend/src/pages/dashboard/student/assessment/page.tsx:94-99 | the current question's answer is set and every other entry is unchanged |
| Assessment.Next | frontend/src/pages/dashboard/student/assessment/page.tsx:101-108 | Next advances the cursor, or completes the assessment on the last question; the cursor stays on a question |
| Assessment.Previous | frontend/src/pages/dashboard/student/assessment/page.tsx:110-114 | Previous moves back one question and does nothing on the first |
| Assessment.Dispatch | frontend/src/pages/dashboard/student/assessment/page.tsx:278-331 | every control keeps the cursor on a question and leaves the clock alone |
| Assessment.CompletedIsFinal | frontend/src/pages/dashboard/student/assessment/page.tsx:335-342 | no event leaves or changes the completed state |
| Assessment.CompletionOnlyBySubmit | frontend/src/pages/dashboard/student/assessment/page.tsx:101-108 | an event completes a running assessment only if it is Next on the last question |
| Assessment.PhaseMoves | frontend/src/pages/dashboard/student/assessment/page.tsx:283-284 | Start goes from the overview to in-progress; the back arrow returns, keeping everything else |
| Assessment.RunKeepsCursorAndClock | frontend/src/pages/dashboard/student/assessment/page.tsx:89-92 | after any series of events the cursor is on a question and the clock still reads the full limit |
| Assessment.RunFromCompleted | frontend/src/pages/dashboard/student/assessment/page.tsx:335-342 | no series of events changes a completed assessment |
| Assessment.Progress | frontend/src/pages/dashboard/student/assessment/page.tsx:80 | progress lies in (0, 100] and is 100 exactly on the last question |
| Assessment.ProgressLabel | frontend/src/pages/dashboard/student/assessment/page.tsx:299 | the label is the progress rounded to nearest, so within a half of it; it lies in 0..100, reads 100 on the last question and is positive for up to 200 questions |
| Assessment.NextButtonLabel | frontend/src/pages/dashboard/student/assessment/page.tsx:328-330 | the forward button reads "Submit" or "Next", and "Submit" exactly when the progress bar is full |
| Assessment.SubmitWhenFull | frontend/src/pages/dashboard/student/assessment/page.tsx:328-329 | the button reads "Submit" iff the bar is full iff Next completes the assessment |
| Assessment.PreviousDisabledOnFirst | frontend/src/pages/dashboard/student/assessment/page.tsx:325 | Previous is disabled exactly where it would change nothing |
| Assessment.FormatTime | frontend/src/pages/dashboard/student/assessment/page.tsx:83-87 | the clock text reads back as the seconds it shows; below 6000 seconds it has the form MM:SS with MM the whole minutes and SS the remaining seconds, both zero-padded |
| Assessment.InitialClock | frontend/src/pages/dashboard/student/assessment/page.tsx:75 | the 45-minute limit reads "45:00" |
| Register.ParseRole | frontend/src/pages/register/page.tsx:28-30 | only "student" and "interviewer" are roles, each read back to its own id |
| Register.ParamOr | frontend/src/pages/register/page.tsx:40-41 | an absent or empty query parameter yields the fallback, any other value itself |
| Register.DefaultForm | frontend/src/pages/register/page.tsx:46-55 | the role defaults to "student"; the plan defaults to "professional" for students and is undefined for anyone else |
| Register.ApplyQuery | frontend/src/pages/register/page.tsx:58-66 | a non-empty plan parameter sets the plan and jumps to details; a non-empty role sets the role; nothing else changes |
| Register.Opened | frontend/src/pages/register/page.tsx:40-66 | the role the wizard opens with is the role parameter, or "student" when it is absent or empty |
| Register.NextStep | frontend/src/pages/register/page.tsx:162-172 | from role: plan for a student, details otherwise; from plan: details; details stays |
| Register.PreviousStep | frontend/src/pages/register/page.tsx:174-180 | from details: plan; from plan: role; role stays |
| Register.StepsMonotone | frontend/src/pages/register/page.tsx:162-180 | Next never moves back and Previous never forward; each stays put only at its end |
| Register.InterviewerBackToPlan | frontend/src/pages/register/page.tsx:162-180 | an interviewer skips the plan step going forward, but Previous from details leads to it |
| Register.StudentStepsUndo | frontend/src/pages/register/page.tsx:162-180 | for a student, Previous undoes each Next taken before the last step |
| Register.Errors | frontend/src/pages/register/page.tsx:18-34 | each field is rejected exactly when it breaks its schema rule |
| Register.Validate | frontend/src/pages/register/page.tsx:18-34 | a form is accepted iff no field is rejected, and then yields the typed role and plan |
| Register.InterviewerWithoutPlanRejected | frontend/src/pages/register/page.tsx:46-55 | an interviewer who arrives without a plan parameter is always rejected on the plan field |
| Register.EnterpriseInterviewerLink | frontend/src/pages/register/page.tsx:58-66 | the enterprise-interviewer link opens on details with both values set, and a proper form is accepted |
| Register.PlainLink | frontend/src/pages/register/page.tsx:40-44 | with no query the wizard opens on the role step, as a student on the professional plan |
| CompanyInterviews.FilteredCompanies | frontend/src/pages/dashboard/student/company-interviews/page.tsx:148-150 | the companies listed, in order, are those whose name contains the search ignoring case, each as many times as the source list holds it |
| CompanyInterviews.EmptySearchAllCompanies | frontend/src/pages/dashboard/student/company-interviews/page.tsx:148-150 | an empty search lists every company in order |
| CompanyInterviews.FilteredInterviewers | frontend/src/pages/dashboard/student/company-interviews/page.tsx:153-163 | an interviewer is listed iff the search matches, the company equals a chosen one and the role contains a chosen role; a listed interviewer keeps its multiplicity |
| CompanyInterviews.ClearFilters | frontend/src/pages/dashboard/student/company-interviews/page.tsx:413-417 | Clear Filters empties the search and unsets the company and role choices |
| CompanyInterviews.ClearedShowsAll | frontend/src/pages/dashboard/student/company-interviews/page.tsx:413-417 | after Clear Filters every interviewer is listed in order |
| CompanyInterviews.RoleIsSubstringMatch | frontend/src/pages/dashboard/student/company-interviews/page.tsx:160 | choosing "Software Engineer" also keeps a "Senior Software Engineer" |
| CompanyInterviews.RoleIsCaseSensitive | frontend/src/pages/dashboard/student/company-interviews/page.tsx:160 | the role match, unlike the search box, is case-sensitive |
| CompanyInterviews.AllRoles | frontend/src/pages/dashboard/student/company-interviews/page.tsx:166 | the role list is strictly ascending, so duplicate-free, and holds exactly the roles some company offers |
| CompanyInterviews.AscendingUnique | frontend/src/pages/dashboard/student/company-interviews/page.tsx:166 | two strictly ascending lists with the same elements are equal, so the role list is determined by its elements |
| StudentDashboard.FilteredInterviewers | frontend/src/pages/dashboard/student/page.tsx:18-24 | the interviewers listed, in order, are those matching the search on name, company, role or specialization, each as many times as the source list holds it |
| StudentDashboard.EmptySearchAll | frontend/src/pages/dashboard/student/page.tsx:18-24 | an empty search lists every interviewer in order |
| StudentDashboard.EmptyStateIff | frontend/src/pages/dashboard/student/page.tsx:159 | "No interviewers found" shows iff no interviewer matches |
| StudentDashboard.SearchFindsRole | frontend/src/pages/dashboard/student/page.tsx:22 | searching for an interviewer's role finds them |
| StudentDashboard.StatusBadge | frontend/src/pages/dashboard/student/page.tsx:76-77 | "Confirmed" iff the status is "confirmed", "Pending" for every other status |
| StudentDashboard.FilledStars | frontend/src/pages/dashboard/student/page.tsx:492-495 | at most five stars are filled |
| StudentDashboard.FilledStarsIsFloor | frontend/src/pages/dashboard/student/page.tsx:492-495 | the filled stars are the whole part of the score, kept within 0..5 |
| StudentDashboard.PastInterviewStars | frontend/src/data/studentMockData.ts:86-98 | scores 4 and 4.8 both fill four stars |
| StudentDashboard.DayLabel | frontend/src/pages/dashboard/student/page.tsx:218 | bar 0 reads "7d", bar 6 "Today", every other bar nothing |
| AnalysisPanel.InitialPanel | frontend/src/components/interview-analysis-panel.tsx:46-88 | the panel opens with every score and gauge on the 0..100 scale |
| AnalysisPanel.Drift | frontend/src/components/interview-analysis-panel.tsx:105 | a drifted value is on the scale, and a value on the scale moves by at most 3 |
| AnalysisPanel.MetricTick | frontend/src/components/interview-analysis-panel.tsx:101-107 | a tick keeps the metric's name, remembers the old value, stays on the scale and moves a value on the scale by at most 3 |
| AnalysisPanel.ToneTick | frontend/src/components/interview-analysis-panel.tsx:164-170 | every tone gauge stays on the 0..100 scale and moves by at most 3 from a reading that was on the scale |
| AnalysisPanel.NewMoment | frontend/src/components/interview-analysis-panel.tsx:111-139 | a new moment's description belongs to its kind; its timestamp reads back as the current time and, below 6000 seconds, shows the whole minutes and remaining seconds as zero-padded fields |
| AnalysisPanel.Bump | frontend/src/components/interview-analysis-panel.tsx:153-159 | exactly one filler word's count rises by one; the others are unchanged |
| AnalysisPanel.BumpTotal | frontend/src/components/interview-analysis-panel.tsx:157-160 | a filler bump raises the total count by exactly one |
| AnalysisPanel.Tick | frontend/src/components/interview-analysis-panel.tsx:93-174 | nothing changes while not recording or on free; otherwise the metrics keep their names, a moment is prepended to the unchanged list or none, and one filler count rises or none |
| AnalysisPanel.TickKeepsRange | frontend/src/components/interview-analysis-panel.tsx:101-107 | a tick keeps every score and gauge on the scale and moves a score by at most 3 |
| AnalysisPanel.TierGating | frontend/src/components/interview-analysis-panel.tsx:110-163 | moments are logged only off basic, filler words move only on professional and enterprise, and the tone only on enterprise |
| AnalysisPanel.TicksKeepRange | frontend/src/components/interview-analysis-panel.tsx:99-107 | any number of ticks keeps every value on the scale |
| AnalysisPanel.TicksKeepHistory | frontend/src/components/interview-analysis-panel.tsx:141-148 | after any number of ticks the earlier moments are still the tail of the list |
| AnalysisPanel.BasicTierFreezes | frontend/src/components/interview-analysis-panel.tsx:110 | on basic no tick ever adds a moment or moves a filler count |
| AnalysisPanel.RatingChange | frontend/src/components/interview-analysis-panel.tsx:176-180 | only the chosen metric changes: it takes the new value and remembers the old one |
| AnalysisPanel.RatingKeepsRange | frontend/src/components/interview-analysis-panel.tsx:177-181 | a slider value on the scale keeps the whole panel on the scale |
| AnalysisPanel.RatingShowsTrend | frontend/src/components/interview-analysis-panel.tsx:225-233 | after a slider move the badge shows a rise iff the value went up and a fall iff it went down |
| AnalysisPanel.TrendOf | frontend/src/components/interview-analysis-panel.tsx:225-233 | a rising badge iff the value went up, a falling one iff it went down, none iff unchanged; a shown badge holds the change in tenths rounded half up, as `Math.round` does |
| AnalysisPanel.TickTrendBounded | frontend/src/components/interview-analysis-panel.tsx:226-231 | after a tick every badge reads between -3.0 and +3.0 |
| AnalysisPanel.TinyRiseReadsZero | frontend/src/components/interview-analysis-panel.tsx:226-227 | a rise of 0.04 shows the green badge reading "+0" |
| AnalysisPanel.ShownMoments | frontend/src/components/interview-analysis-panel.tsx:185-462 | the moments listed are a prefix: none on free, the two newest on basic, all on professional and enterprise, no panel for another tier |
| AnalysisPanel.NewMomentListedFirst | frontend/src/components/interview-analysis-panel.tsx:141-148 | a moment a tick logs is the first one the panel lists |
| AnalysisPanel.ShippedPanelShowsTwo | frontend/src/components/interview-analysis-panel.tsx:18-22 | the panel as shipped runs as basic, so it lists the first two initial moments whatever the ticks draw |
| AnalysisPanel.TierBadge | frontend/src/components/interview-analysis-panel.tsx:472-483 | no badge on free; otherwise the tier's name with its first letter upper-cased and the rest kept, filled for enterprise and secondary for professional |
| AnalysisPanel.PaidTierBadges | frontend/src/components/interview-analysis-panel.tsx:472-483 | the three paid tiers show "Basic" outlined, "Professional" secondary and "Enterprise" filled |
| AnalysisPanel.FooterNote | frontend/src/components/interview-analysis-panel.tsx:490-505 | the footer adds the insights note on every tier but free |
| AnalysisPanel.FreeTierIsInert | frontend/src/components/interview-analysis-panel.tsx:94-97 | on free no tick changes anything, and there is no badge, moment or note |
| TrainerChat.Responses | frontend/src/pages/dashboard/student/personal-trainer/page.tsx:73 | a known tier gets its own reply list, any other string the basic list |
| TrainerChat.PageRepliesValid | frontend/src/pages/dashboard/student/personal-trainer/page.tsx:50-71 | the page's four reply lists each hold three replies, so a draw always finds one |
| TrainerChat.MockReply | frontend/src/pages/dashboard/student/personal-trainer/page.tsx:73-74 | the reply is an entry of the tier's list |
| TrainerChat.UnknownTierRepliesLikeBasic | frontend/src/pages/dashboard/student/personal-trainer/page.tsx:73 | an unknown tier is answered exactly as "basic", draw for draw |
| TrainerChat.EveryReplyReachable | frontend/src/pages/dashboard/student/personal-trainer/page.tsx:74 | every entry of the list has a draw that picks it |
| TrainerChat.JoinLength | frontend/src/pages/dashboard/student/personal-trainer/page.tsx:102 | the joined weak areas are as long as the parts together plus one separator between each two |
| TrainerChat.Greeting | frontend/src/pages/dashboard/student/personal-trainer/page.tsx:94-111 | the greeting is the common opening by name followed by the tier's sentence |
| TrainerChat.GreetingSuffix | frontend/src/pages/dashboard/student/personal-trainer/page.tsx:96-111 | an unknown tier gets the generic sentence and free the fixed upgrade hint; basic and professional quote the joined weak areas; professional and enterprise name the target role and company; enterprise names the first weak area |
| TrainerChat.SuffixOpening | frontend/src/pages/dashboard/student/personal-trainer/page.tsx:96-111 | each tier's sentence begins with that tier's opening words, whatever the profile |
| TrainerChat.SuffixSeparatesTiers | frontend/src/pages/dashboard/student/personal-trainer/page.tsx:96-111 | two tiers the switch treats differently never get the same sentence, for any profile |
| TrainerChat.GreetingIdentifiesTier | frontend/src/pages/dashboard/student/personal-trainer/page.tsx:94-111 | equal greetings for one profile come from the same tier, or from two tiers the switch does not know |
| TrainerChat.Opened | frontend/src/pages/dashboard/student/personal-trainer/page.tsx:92-115 | the chat opens with exactly one assistant message, the greeting |
| TrainerChat.Submit | frontend/src/pages/dashboard/student/personal-trainer/page.tsx:117-123 | a blank box changes nothing; otherwise the user's text is listed, the box cleared and waiting begins |
| TrainerChat.Settle | frontend/src/pages/dashboard/student/personal-trainer/page.tsx:125-137 | exactly one assistant message is added, the reply or the apology, and waiting ends |
| TrainerChat.ReplyText | frontend/src/pages/dashboard/student/personal-trainer/page.tsx:125-133 | a settled reply is an entry of the tier's list; a failed one is the fixed apology |
| TrainerChat.Send | frontend/src/pages/dashboard/student/personal-trainer/page.tsx:117-138 | a blank send changes nothing; any other appends the user's text and exactly one reply, clears the box and ends waiting |
| TrainerChat.ConversationAlternates | frontend/src/pages/dashboard/student/personal-trainer/page.tsx:117-138 | after any turns the list alternates assistant and user and holds two messages per non-blank send |
| TrainerChat.RepliesFromList | frontend/src/pages/dashboard/student/personal-trainer/page.tsx:125-134 | every assistant message after the greeting is from the reply list or the apology |
| TrainerChat.TierBanner | frontend/src/pages/dashboard/student/personal-trainer/page.tsx:141-191 | no banner for an unknown tier; the upgrade alert iff free; the upgrade-for-trainer link only for basic; the dashboard link for professional and enterprise; the trainer request only for enterprise |
| TrainerChat.UpgradeLinkBelowProfessional | frontend/src/pages/dashboard/student/personal-trainer/page.tsx:141-191 | the banner links to the subscription page exactly on free and basic, and to the trainer dashboard exactly on professional and enterprise |
| TrainerChat.TopicsUpgradeMatchesAlert | frontend/src/pages/dashboard/student/personal-trainer/page.tsx:333-339 | the topics upgrade footer shows iff the banner is the free plan's alert |
| TrainerDashboard.CalculateImprovement | frontend/src/pages/dashboard/student/personal-trainer/dashboard.tsx:112-115 | the label ends in a percent sign |
| TrainerDashboard.ImprovementRoundTrip | frontend/src/pages/dashboard/student/personal-trainer/dashboard.tsx:112-115 | the label reads back as exactly current minus previous |
| TrainerDashboard.ImprovementSign | frontend/src/pages/dashboard/student/personal-trainer/dashboard.tsx:112-115 | a plus sign iff the score rose, a minus sign iff it fell, and "0%" when unchanged |
| TrainerDashboard.ImprovementTint | frontend/src/pages/dashboard/student/personal-trainer/dashboard.tsx:355-357 | the badge is green iff the score rose |
| TrainerDashboard.TintMatchesLabel | frontend/src/pages/dashboard/student/personal-trainer/dashboard.tsx:355-360 | green badges are exactly those with a plus sign; an unchanged score reads "0%" on red |
| TrainerDashboard.PageSkillsAllRose | frontend/src/pages/dashboard/student/personal-trainer/dashboard.tsx:40-46 | every skill on the page rose, so every badge is green and reads its rise |
| TrainerDashboard.ActionBadge | frontend/src/pages/dashboard/student/personal-trainer/dashboard.tsx:289 | "Completed" iff the item is completed; otherwise the badge starts with "Due: " |
| TrainerDashboard.BadgeShowsDueDate | frontend/src/pages/dashboard/student/personal-trainer/dashboard.tsx:289 | a pending item's badge shows its printed due date and nothing else |
| TrainerDashboard.ResourceIcons | frontend/src/pages/dashboard/student/personal-trainer/dashboard.tsx:450-452 | one icon iff the type is PDF, Video Course or Document, none otherwise |
| TrainerDashboard.KnownResourceIcons | frontend/src/pages/dashboard/student/personal-trainer/dashboard.tsx:450-452 | PDF, Video Course and Document each get their own icon; the match is case-sensitive |
| Subscription.FormatRupees | frontend/src/pages/subscription/page.tsx:37-135 | a price prints as the rupee sign followed by grouped digits that, without their commas, are the amount's decimal digits, so it reads back as the amount |
| Subscription.PriceRoundTrip | frontend/src/pages/subscription/page.tsx:37-135 | every printed price reads back as its amount |
| Subscription.PrintedBasicPrices | frontend/src/pages/subscription/page.tsx:64-75 | the formatter prints the free and basic prices as the cards do: "₹0", "₹500", "₹1,350" |
| Subscription.PrintedProfessionalPrices | frontend/src/pages/subscription/page.tsx:93-104 | "₹2,000" and "₹5,000" |
| Subscription.PrintedEnterprisePrice | frontend/src/pages/subscription/page.tsx:130-135 | "₹12,000" |
| Subscription.SavingsRoundTrip | frontend/src/pages/subscription/page.tsx:69-74 | a savings line names an amount iff it is a saving, and then that amount |
| Subscription.InterviewsRoundTrip | frontend/src/pages/subscription/page.tsx:67-72 | an interviews line starts with the offer's count |
| Subscription.QuarterlyOffersAddUp | frontend/src/pages/subscription/page.tsx:60-135 | for each paid plan, the quarterly offer runs 3 months, holds 3 times the interviews and saves 3 monthly prices less the quarterly one; free has one offer |
| Subscription.BannerSaving | frontend/src/pages/subscription/page.tsx:219-222 | the saving read from a paid card's banner is 3 monthly prices less the quarterly price |
| Subscription.SaveUpToTwentyPercent | frontend/src/pages/subscription/page.tsx:178 | no plan saves more than a fifth of three monthly prices, and only enterprise saves exactly that |
| Subscription.OneRecommended | frontend/src/pages/subscription/page.tsx:199-203 | exactly one card, professional, carries the "Recommended" ribbon |
| Subscription.NotIncludedHiddenOnlyForEnterprise | frontend/src/pages/subscription/page.tsx:234 | the "Not included" list is hidden only on the enterprise card |
| Subscription.Initial | frontend/src/pages/subscription/page.tsx:27-28 | the page opens on monthly with professional chosen |
| Subscription.SelectPlan | frontend/src/pages/subscription/page.tsx:252 | a card's button makes its plan the chosen one and keeps the cycle |
| Subscription.SetCycle | frontend/src/pages/subscription/page.tsx:171 | the tabs change the cycle and keep the chosen plan |
| Subscription.ButtonLabel | frontend/src/pages/subscription/page.tsx:254 | a card's button reads "Selected" iff its plan is the chosen one |
| Subscription.ExactlyOneSelected | frontend/src/pages/subscription/page.tsx:251-254 | in every state exactly one card reads "Selected", the chosen one |
| Subscription.SelectLastWins | frontend/src/pages/subscription/page.tsx:252 | selecting is idempotent and the last selection wins |
| Subscription.ButtonStyle | frontend/src/pages/subscription/page.tsx:251 | the chosen card's button is filled; every other card keeps its plan's variant |
| Subscription.InitialButtons | frontend/src/pages/subscription/page.tsx:251 | on opening only the professional card's button is filled |
| Subscription.SavingsBanner | frontend/src/pages/subscription/page.tsx:219-223 | a card shows its quarterly savings line exactly on the quarterly tab when that line is non-empty |
| Subscription.BannerExactlyOnQuarterly | frontend/src/pages/subscription/page.tsx:219 | a savings banner shows on every card on the quarterly tab and on none on the monthly tab; the free card's reads "Always Free" |
| Subscription.Checkout | frontend/src/pages/subscription/page.tsx:265-266 | the summary names the chosen plan and the chosen cycle, and prints that plan's price for the cycle |
| Subscription.CheckoutQuotesChosenCard | frontend/src/pages/subscription/page.tsx:265-266 | after choosing a card and a tab, in either order, the summary quotes that card's price on that tab |
| Subscription.InitialCheckout | frontend/src/pages/subscription/page.tsx:265-266 | on opening the summary reads professional, monthly, "₹2,000" |
| Tiers.ParsePlanIff | frontend/src/pages/register/page.tsx:31 | a string is a plan exactly when it is one of the four ids |
| Tiers.ParsePlanId | frontend/src/pages/register/page.tsx:31 | each plan's id reads back as that plan |
| Text.TrimEmptyIff | frontend/src/pages/dashboard/student/personal-trainer/page.tsx:118 | `trim()` gives "" iff every character is JavaScript whitespace |
| Text.FormatMinSecRoundTrip | frontend/src/components/interview-analysis-panel.tsx:137-139 | a padded MM:SS stamp reads back as the seconds it was made from |
| Text.ClockFields | frontend/src/components/interview-analysis-panel.tsx:137-139 | below 6000 seconds the stamp is two digits, a colon and two digits, holding the whole minutes and the remaining seconds |
| Common.PickIndex | frontend/src/pages/dashboard/student/personal-trainer/page.tsx:74 | `Math.floor(Math.random() * n)` is an index below n |
| Common.PickIndexHits | frontend/src/pages/dashboard/student/personal-trainer/page.tsx:74 | every index below n is picked by some draw in [0, 1) |

## Left out

- Rendering, styling, icons, routing, toasts, `setInterval` and the cleanup of
  timers are not modelled. A tick, a send and a reply are single function
  calls that take their random draws as parameters.
- The `async` delay of `mockAIResponse` is not modelled. A send is split into
  its synchronous half (`TrainerChat.Submit`) and the settling of the reply
  (`TrainerChat.Settle`). Typing while the reply is pending is kept by `Settle`
  but not explored further.
- `TrainerChat.MockReply`: the reply lists are a parameter (`ReplyTable`); the
  page's own lists are the constant `PageReplies`. A JavaScript object also
  answers keys such as "constructor" through its prototype; the model gives
  every unknown tier the basic list.
- Floating point is not modelled. Percentages and averages are exact
  rationals rounded as `Math.round` would round them, and analysis-panel
  values are reals, so a result that binary rounding would push across a
  half is not modelled.
- `toLowerCase` and `toUpperCase` are modelled on ASCII letters only, so
  `AnalysisPanel.TierBadge` upper-cases no other first letter. Strings are sequences of
  characters, not UTF-16 code units.
- The e-mail rule of the form schema belongs to the validation library; it
  enters `Register.Errors` as the boolean `emailOk`.
- `new Date(...)`, `getTime()` and `toLocaleDateString()` are not modelled.
  Dates are "YYYY-MM-DD" strings ordered by code units, and a locale-printed
  date is a parameter of `TrainerDashboard.ActionBadge`.
- `Subscription.PlanCard`: the feature lists, icons, colours and
  descriptions of the plans are left out. The "Not included" list is kept
  only as its length, the only thing the page's logic reads.
- Subscription prices are stored as amounts and printed by
  `Subscription.FormatRupees`. Its grouping by thousands matches the page's
  literals, all of which are below 1,00,000, where Indian and Western
  grouping agree.
- The assessment clock never counts down, since the page starts no timer. The
  answer widgets are reduced to the string value they report.
- `AnalysisPanel.ShownMoments`: the basic tier's "Upgrade" card and the pro
  tier's tabs are left out; only which moments are listed is modelled.
- The interviewer dashboard, the landing and marketing pages, the navigation
  bar, the footer, the route table and the database type declarations are not
  part of this model. They hold rendering only, or a library-validated form
  whose submit shows a toast.
- The mock-data modules are used only as fixtures: the star rows of the
  student's past interviews, the skill scores and the page's reply lists.

=== FILE: analysis_panel.dfy ===
/**
 * The real-time interview analysis panel: four performance metrics, the
 * key-moment log, the filler-word counts and the emotional-tone gauges; the
 * three-second tick that moves them, gated by the subscription tier; the
 * manual rating slider; and what each tier is shown.
 *
 * The tier is the plain string the panel receives (the page hard-codes
 * "basic"), so unknown strings are modelled too. Every `Math.random()` draw
 * of a tick is a parameter in [0, 1).
 */
module AnalysisPanel {
  import opened Common
  import opened Text
  import opened Tiers

  /** A metric's score and its score before the last change, on a 0..100 scale. */
  datatype Metric = Metric(name: string, value: real, previousValue: real)

  datatype MomentKind = Positive | Negative | Neutral

  /** An entry of the key-moment log; the newest entry comes first. */
  datatype KeyMoment = KeyMoment(timestamp: string, kind: MomentKind, description: string)

  datatype FillerWord = Um | Like | Actually | Basically

  datatype FillerCounts = FillerCounts(um: nat, like: nat, actually: nat, basically: nat)

  datatype Tone = Tone(confident: real, nervous: real, enthusiastic: real, uncertain: real)

  datatype Panel = Panel(metrics: seq<Metric>, moments: seq<KeyMoment>, fillers: FillerCounts, tone: Tone)

  /** The tier the page passes to the panel. */
  const PanelTier: string := "basic"

  predicate InScale(x: real) {
    0.0 <= x <= 100.0
  }

  /** Every metric score and every tone gauge lies on the 0..100 scale. */
  predicate InRange(p: Panel) {
    (forall i :: 0 <= i < |p.metrics| ==> InScale(p.metrics[i].value))
    && InScale(p.tone.confident) && InScale(p.tone.nervous)
    && InScale(p.tone.enthusiastic) && InScale(p.tone.uncertain)
  }

  const InitialMoments: seq<KeyMoment> := [
    KeyMoment("02:15", Positive, "Excellent explanation of system design principles"),
    KeyMoment("05:30", Negative, "Struggled with concurrency concepts"),
    KeyMoment("08:45", Positive, "Strong problem decomposition approach"),
    KeyMoment("12:20", Neutral, "Could improve code optimization explanation")
  ]

  /** The panel as it mounts. */
  function InitialPanel(): (p: Panel)
    ensures InRange(p) && |p.metrics| == 4 && |p.moments| == 4
  {
    Panel(
      [ Metric("Confidence", 75.0, 70.0), Metric("Technical Knowledge", 82.0, 80.0),
        Metric("Communication", 68.0, 65.0), Metric("Problem Solving", 79.0, 75.0) ],
      InitialMoments,
      FillerCounts(5, 8, 3, 4),
      Tone(65.0, 15.0, 45.0, 20.0))
  }

  // ---------------------------------------------------------------------
  // The tick
  // ---------------------------------------------------------------------

  predicate IsRoll(x: real) {
    0.0 <= x < 1.0
  }

  /**
   * The random draws of one tick: one per metric, then the key-moment chance,
   * kind and description, the filler-word chance and word, and one per tone gauge.
   */
  datatype Draws = Draws(
    metricRolls: seq<real>,
    momentRoll: real, kindRoll: real, descriptionRoll: real,
    fillerRoll: real, wordRoll: real,
    toneRolls: Tone)

  predicate ValidDraws(d: Draws, metricCount: nat) {
    |d.metricRolls| == metricCount
    && (forall i :: 0 <= i < |d.metricRolls| ==> IsRoll(d.metricRolls[i]))
    && IsRoll(d.momentRoll) && IsRoll(d.kindRoll) && IsRoll(d.descriptionRoll)
    && IsRoll(d.fillerRoll) && IsRoll(d.wordRoll)
    && IsRoll(d.toneRolls.confident) && IsRoll(d.toneRolls.nervous)
    && IsRoll(d.toneRolls.enthusiastic) && IsRoll(d.toneRolls.uncertain)
  }

  /** `Math.random() * 6 - 3`. */
  function Noise(roll: real): (d: real)
    requires IsRoll(roll)
    ensures -3.0 <= d < 3.0
  {
    roll * 6.0 - 3.0
  }

  /** One gauge moved by noise and clamped to the scale; from the scale it moves at most 3. */
  function Drift(v: real, roll: real): (r: real)
    requires IsRoll(roll)
    ensures InScale(r)
    ensures InScale(v) ==> -3.0 <= r - v <= 3.0
  {
    DriftStep(v, roll);
    Clamp(v + Noise(roll), 0.0, 100.0)
  }

  lemma DriftStep(v: real, roll: real)
    requires IsRoll(roll)
    ensures InScale(v) ==> -3.0 <= Clamp(v + Noise(roll), 0.0, 100.0) - v <= 3.0
  {
    if InScale(v) {
      ClampStep(v, Noise(roll), 0.0, 100.0);
    }
  }

  /** A metric after a tick: the old score becomes the previous one. */
  function MetricTick(m: Metric, roll: real): (r: Metric)
    requires IsRoll(roll)
    ensures r.name == m.name && r.previousValue == m.value
    ensures InScale(r.value)
    ensures InScale(m.value) ==> -3.0 <= r.value - r.previousValue <= 3.0
  {
    Metric(m.name, Drift(m.value, roll), m.value)
  }

  function MetricsTick(ms: seq<Metric>, rolls: seq<real>): (r: seq<Metric>)
    requires |rolls| == |ms| && forall i :: 0 <= i < |rolls| ==> IsRoll(rolls[i])
    ensures |r| == |ms|
    ensures forall i :: 0 <= i < |ms| ==> r[i] == MetricTick(ms[i], rolls[i])
  {
    seq(|ms|, i requires 0 <= i < |ms| => MetricTick(ms[i], rolls[i]))
  }

  const Kinds: seq<MomentKind> := [Positive, Negative, Neutral]

  function Descriptions(k: MomentKind): (r: seq<string>)
    ensures |r| == 4
  {
    match k
    case Positive => [
      "Good articulation of concepts",
      "Demonstrated strong problem-solving approach",
      "Excellent technical explanation",
      "Clear and concise communication"]
    case Negative => [
      "Hesitation when discussing algorithms",
      "Unclear explanation of time complexity",
      "Missed edge case in solution",
      "Too many filler words used"]
    case Neutral => [
      "Average response to system design question",
      "Could elaborate more on the solution",
      "Acceptable but not exceptional explanation",
      "Moderate understanding demonstrated"]
  }

  /**
   * The key moment a tick logs at `currentTime` seconds: a drawn kind, one of
   * that kind's descriptions, and the time as a zero-padded MM:SS stamp.
   */
  function NewMoment(currentTime: nat, d: Draws): (m: KeyMoment)
    requires IsRoll(d.kindRoll) && IsRoll(d.descriptionRoll)
    ensures m.description in Descriptions(m.kind)
    ensures ParseMinSec(m.timestamp) == Some(currentTime)
    ensures currentTime < 6000 ==> |m.timestamp| == 5 && m.timestamp[2] == ':'
    ensures currentTime < 6000 ==>
              AllDigits(m.timestamp[..2]) && AllDigits(m.timestamp[3..])
              && ParseDigits(m.timestamp[..2]) == currentTime / 60
              && ParseDigits(m.timestamp[3..]) == currentTime % 60
  {
    var kind := Kinds[PickIndex(d.kindRoll, |Kinds|)];
    FormatMinSecRoundTrip(currentTime);
    StampShape(currentTime);
    KeyMoment(FormatMinSec(currentTime), kind, Descriptions(kind)[PickIndex(d.descriptionRoll, 4)])
  }

  lemma StampShape(t: nat)
    ensures t < 6000 ==> var r := FormatMinSec(t);
      |r| == 5 && r[2] == ':' && AllDigits(r[..2]) && AllDigits(r[3..])
      && ParseDigits(r[..2]) == t / 60 && ParseDigits(r[3..]) == t % 60
  {
    if t < 6000 {
      ClockFields(t);
    }
  }

  const Words: seq<FillerWord> := [Um, Like, Actually, Basically]

  function CountOf(f: FillerCounts, w: FillerWord): nat {
    match w
    case Um => f.um
    case Like => f.like
    case Actually => f.actually
    case Basically => f.basically
  }

  function TotalFillers(f: FillerCounts): nat {
    f.um + f.like + f.actually + f.basically
  }

  /** One more occurrence of `w`, every other count kept. */
  function Bump(f: FillerCounts, w: FillerWord): (r: FillerCounts)
    ensures CountOf(r, w) == CountOf(f, w) + 1
    ensures forall v :: v != w ==> CountOf(r, v) == CountOf(f, v)
  {
    match w
    case Um => f.(um := f.um + 1)
    case Like => f.(like := f.like + 1)
    case Actually => f.(actually := f.actually + 1)
    case Basically => f.(basically := f.basically + 1)
  }

  /** A bump adds exactly one to the total of all filler words. */
  lemma BumpTotal(f: FillerCounts, w: FillerWord)
    ensures TotalFillers(Bump(f, w)) == TotalFillers(f) + 1
  {
  }

  function ToneTick(t: Tone, rolls: Tone): (r: Tone)
    requires IsRoll(rolls.confident) && IsRoll(rolls.nervous)
    requires IsRoll(rolls.enthusiastic) && IsRoll(rolls.uncertain)
    ensures InScale(r.confident) && InScale(r.nervous) && InScale(r.enthusiastic) && InScale(r.uncertain)
    ensures InScale(t.confident) ==> -3.0 <= r.confident - t.confident <= 3.0
    ensures InScale(t.nervous) ==> -3.0 <= r.nervous - t.nervous <= 3.0
    ensures InScale(t.enthusiastic) ==> -3.0 <= r.enthusiastic - t.enthusiastic <= 3.0
    ensures InScale(t.uncertain) ==> -3.0 <= r.uncertain - t.uncertain <= 3.0
  {
    Tone(
      Drift(t.confident, rolls.confident), Drift(t.nervous, rolls.nervous),
      Drift(t.enthusiastic, rolls.enthusiastic), Drift(t.uncertain, rolls.uncertain))
  }

  /** Whether the tick logs a key moment: any tier but "basic", with a roll above 0.9. */
  predicate LogsMoment(tier: string, d: Draws) {
    tier != "basic" && d.momentRoll > 0.9
  }

  /** Whether the tick counts a filler word: professional and enterprise only, roll above 0.8. */
  predicate CountsFiller(tier: string, d: Draws) {
    (tier == "professional" || tier == "enterprise") && d.fillerRoll > 0.8
  }

  /**
   * One interval tick. Nothing happens while not recording or on the free
   * tier; otherwise every metric drifts, and the key moments, filler words
   * and tone move as the tier allows.
   */
  function Tick(p: Panel, tier: string, recording: bool, currentTime: nat, d: Draws): (r: Panel)
    requires ValidDraws(d, |p.metrics|)
    ensures !recording || tier == "free" ==> r == p
    ensures |r.metrics| == |p.metrics|
    ensures forall i :: 0 <= i < |p.metrics| ==> r.metrics[i].name == p.metrics[i].name
    ensures r.moments == p.moments
            || (|r.moments| == |p.moments| + 1 && r.moments[1..] == p.moments
                && r.moments[0].description in Descriptions(r.moments[0].kind)
                && ParseMinSec(r.moments[0].timestamp) == Some(currentTime))
    ensures r.fillers == p.fillers || exists w :: r.fillers == Bump(p.fillers, w)
  {
    if !recording || tier == "free" then p
    else
      var moments :=
        if LogsMoment(tier, d) then [NewMoment(currentTime, d)] + p.moments else p.moments;
      var fillers :=
        if CountsFiller(tier, d) then Bump(p.fillers, Words[PickIndex(d.wordRoll, |Words|)]) else p.fillers;
      var tone := if tier == "enterprise" then ToneTick(p.tone, d.toneRolls) else p.tone;
      Panel(MetricsTick(p.metrics, d.metricRolls), moments, fillers, tone)
  }

  /** A tick keeps every score and gauge on the 0..100 scale, and moves a score by at most 3. */
  lemma TickKeepsRange(p: Panel, tier: string, recording: bool, currentTime: nat, d: Draws)
    requires ValidDraws(d, |p.metrics|) && InRange(p)
    ensures var r := Tick(p, tier, recording, currentTime, d);
      InRange(r)
      && forall i :: 0 <= i < |p.metrics| ==> -3.0 <= r.metrics[i].value - p.metrics[i].value <= 3.0
  {
    var r := Tick(p, tier, recording, currentTime, d);
    if recording && tier != "free" {
      assert r.metrics == MetricsTick(p.metrics, d.metricRolls);
      assert r.tone == if tier == "enterprise" then ToneTick(p.tone, d.toneRolls) else p.tone;
    }
  }

  /**
   * What each tier's tick may change: key moments are never logged on
   * "basic", filler words move only on professional and enterprise, the
   * tone only on enterprise.
   */
  lemma TierGating(p: Panel, tier: string, recording: bool, currentTime: nat, d: Draws)
    requires ValidDraws(d, |p.metrics|)
    ensures var r := Tick(p, tier, recording, currentTime, d);
      (|r.moments| > |p.moments| <==> recording && tier != "free" && LogsMoment(tier, d))
      && (TotalFillers(r.fillers) == TotalFillers(p.fillers) + 1
          <==> recording && CountsFiller(tier, d))
      && (TotalFillers(r.fillers) != TotalFillers(p.fillers) + 1 ==> r.fillers == p.fillers)
      && (tier != "enterprise" ==> r.tone == p.tone)
  {
    var r := Tick(p, tier, recording, currentTime, d);
    if recording && CountsFiller(tier, d) {
      BumpTotal(p.fillers, Words[PickIndex(d.wordRoll, |Words|)]);
    }
  }

  // ---------------------------------------------------------------------
  // Runs of ticks
  // ---------------------------------------------------------------------

  datatype TickInput = TickInput(currentTime: nat, draws: Draws)

  predicate ValidInputs(inputs: seq<TickInput>, metricCount: nat) {
    forall i :: 0 <= i < |inputs| ==> ValidDraws(inputs[i].draws, metricCount)
  }

  lemma ValidTail(inputs: seq<TickInput>, n: nat)
    requires |inputs| > 0 && ValidInputs(inputs, n)
    ensures ValidInputs(inputs[1..], n)
  {
    forall i | 0 <= i < |inputs[1..]|
      ensures ValidDraws(inputs[1..][i].draws, n)
    {
      assert inputs[1..][i] == inputs[i + 1];
    }
  }

  /** The panel after a run of ticks while the tier and the recording flag stay put. */
  function Ticks(p: Panel, tier: string, recording: bool, inputs: seq<TickInput>): (r: Panel)
    requires ValidInputs(inputs, |p.metrics|)
    ensures |r.metrics| == |p.metrics|
    decreases |inputs|
  {
    if |inputs| == 0 then p
    else
      var q := Tick(p, tier, recording, inputs[0].currentTime, inputs[0].draws);
      ValidTail(inputs, |p.metrics|);
      Ticks(q, tier, recording, inputs[1..])
  }

  /** Scores and gauges stay on the scale however long the interview runs. */
  lemma {:induction false} TicksKeepRange(p: Panel, tier: string, recording: bool, inputs: seq<TickInput>)
    requires ValidInputs(inputs, |p.metrics|) && InRange(p)
    ensures InRange(Ticks(p, tier, recording, inputs))
    decreases |inputs|
  {
    if |inputs| > 0 {
      var q := Tick(p, tier, recording, inputs[0].currentTime, inputs[0].draws);
      TickKeepsRange(p, tier, recording, inputs[0].currentTime, inputs[0].draws);
      ValidTail(inputs, |p.metrics|);
      TicksKeepRange(q, tier, recording, inputs[1..]);
    }
  }

  /** The log only grows at the front: the moments there before stay, in order, as its tail. */
  lemma {:induction false} TicksKeepHistory(p: Panel, tier: string, recording: bool, inputs: seq<TickInput>)
    requires ValidInputs(inputs, |p.metrics|)
    ensures EndsWith(Ticks(p, tier, recording, inputs).moments, p.moments)
    decreases |inputs|
  {
    if |inputs| == 0 {
      assert p.moments[0..] == p.moments;
    } else {
      var q := Tick(p, tier, recording, inputs[0].currentTime, inputs[0].draws);
      ValidTail(inputs, |p.metrics|);
      TicksKeepHistory(q, tier, recording, inputs[1..]);
      var r := Ticks(q, tier, recording, inputs[1..]);
      assert r == Ticks(p, tier, recording, inputs);
      StepSuffix(q.moments, p.moments);
      SuffixOfSuffix(r.moments, q.moments, p.moments);
    }
  }

  /** `b` is a suffix of `a`. */
  predicate EndsWith<T(==)>(a: seq<T>, b: seq<T>) {
    |b| <= |a| && a[|a| - |b|..] == b
  }

  lemma StepSuffix<T>(b: seq<T>, c: seq<T>)
    requires b == c || (|b| == |c| + 1 && b[1..] == c)
    ensures EndsWith(b, c)
  {
  }

  lemma SuffixOfSuffix<T>(a: seq<T>, b: seq<T>, c: seq<T>)
    requires EndsWith(a, b) && EndsWith(b, c)
    ensures EndsWith(a, c)
  {
    assert a[|a| - |c|..] == a[|a| - |b|..][|b| - |c|..];
  }

  /** On the basic tier no run of ticks touches the key moments, filler words or tone. */
  lemma {:induction false} BasicTierFreezes(p: Panel, recording: bool, inputs: seq<TickInput>)
    requires ValidInputs(inputs, |p.metrics|)
    ensures var r := Ticks(p, "basic", recording, inputs);
      r.moments == p.moments && r.fillers == p.fillers && r.tone == p.tone
    decreases |inputs|
  {
    if |inputs| > 0 {
      var q := Tick(p, "basic", recording, inputs[0].currentTime, inputs[0].draws);
      TierGating(p, "basic", recording, inputs[0].currentTime, inputs[0].draws);
      ValidTail(inputs, |p.metrics|);
      BasicTierFreezes(q, recording, inputs[1..]);
    }
  }

  // ---------------------------------------------------------------------
  // The rating slider and the trend badge
  // ---------------------------------------------------------------------

  /** `handleRatingChange`: only metric `index` changes; its old score becomes the previous one. */
  function RatingChange(ms: seq<Metric>, index: int, v: real): (r: seq<Metric>)
    ensures |r| == |ms|
    ensures forall i :: 0 <= i < |ms| && i != index ==> r[i] == ms[i]
    ensures 0 <= index < |ms| ==> r[index] == Metric(ms[index].name, v, ms[index].value)
  {
    seq(|ms|, i requires 0 <= i < |ms| => if i == index then Metric(ms[i].name, v, ms[i].value) else ms[i])
  }

  /** `Math.round` on a real: the nearest integer, halves rounded up. */
  function RoundReal(x: real): (r: int)
    ensures x - 0.5 < r as real <= x + 0.5
  {
    (x + 0.5).Floor
  }

  /** The badge beside a metric: the change in tenths, shown only when the score moved. */
  datatype Trend = Rising(tenths: int) | Falling(tenths: int) | Steady

  function TrendOf(m: Metric): (t: Trend)
    ensures t.Rising? <==> m.value > m.previousValue
    ensures t.Falling? <==> m.value < m.previousValue
    ensures t.Steady? <==> m.value == m.previousValue
    ensures t.Rising? ==> t.tenths >= 0
    ensures t.Falling? ==> t.tenths <= 0
    ensures !t.Steady? ==>
      (m.value - m.previousValue) * 10.0 - 0.5 < t.tenths as real <= (m.value - m.previousValue) * 10.0 + 0.5
  {
    var tenths := RoundReal((m.value - m.previousValue) * 10.0);
    if m.value > m.previousValue then Rising(tenths)
    else if m.value < m.previousValue then Falling(tenths)
    else Steady
  }

  /** Moving a score with the slider shows the direction of the move beside it. */
  lemma RatingShowsTrend(ms: seq<Metric>, index: int, v: real)
    requires 0 <= index < |ms|
    ensures var t := TrendOf(RatingChange(ms, index, v)[index]);
      (t.Rising? <==> v > ms[index].value) && (t.Falling? <==> v < ms[index].value)
  {
  }

  /** A slider value on the scale keeps every score on the scale. */
  lemma RatingKeepsRange(p: Panel, index: int, v: real)
    requires InRange(p) && InScale(v)
    ensures InRange(p.(metrics := RatingChange(p.metrics, index, v)))
  {
  }

  /** After a tick every badge reads between -3 and +3. */
  lemma TickTrendBounded(p: Panel, tier: string, recording: bool, currentTime: nat, d: Draws, i: nat)
    requires ValidDraws(d, |p.metrics|) && InRange(p) && i < |p.metrics|
    requires recording && tier != "free"
    ensures var t := TrendOf(Tick(p, tier, recording, currentTime, d).metrics[i]);
      !t.Steady? ==> -30 <= t.tenths <= 30
  {
  }

  /** A rise smaller than 0.05 still gets the rising badge, which then reads "+0". */
  lemma TinyRiseReadsZero()
    ensures TrendOf(Metric("Confidence", 75.04, 75.0)) == Rising(0)
  {
  }

  // ---------------------------------------------------------------------
  // What each tier sees
  // ---------------------------------------------------------------------

  /**
   * The key moments the panel lists: none on free (the upgrade card), the
   * two newest on basic, all of them on professional and enterprise, and no
   * panel content at all (`None`) for a tier string it does not know.
   */
  function ShownMoments(tier: string, moments: seq<KeyMoment>): (r: Option<seq<KeyMoment>>)
    ensures r.None? <==> ParsePlan(tier).None?
    ensures r.Some? ==> |r.value| <= |moments| && r.value == moments[..|r.value|]
    ensures tier == "free" ==> r == Some([])
    ensures tier == "basic" ==> r.Some? && |r.value| == (if |moments| < 2 then |moments| else 2)
    ensures tier == "professional" || tier == "enterprise" ==> r == Some(moments)
  {
    match ParsePlan(tier)
    case None => None
    case Some(Free) => Some([])
    case Some(Basic) => Some(if |moments| < 2 then moments else moments[..2])
    case Some(_) => Some(moments)
  }

  /** On professional and enterprise a moment the tick logs is listed first. */
  lemma NewMomentListedFirst(p: Panel, tier: string, currentTime: nat, d: Draws)
    requires ValidDraws(d, |p.metrics|)
    requires tier == "professional" || tier == "enterprise"
    requires LogsMoment(tier, d)
    ensures var r := Tick(p, tier, true, currentTime, d);
      ShownMoments(tier, r.moments).value[0] == NewMoment(currentTime, d)
  {
  }

  /** As the page ships (basic), the list shows the first two moments of the mount state for good. */
  lemma ShippedPanelShowsTwo(recording: bool, inputs: seq<TickInput>)
    requires ValidInputs(inputs, 4)
    ensures ShownMoments(PanelTier, Ticks(InitialPanel(), PanelTier, recording, inputs).moments)
            == Some(InitialMoments[..2])
  {
    BasicTierFreezes(InitialPanel(), recording, inputs);
  }

  /** An ASCII letter `a`..`z` in upper case; any other character unchanged. */
  function UpperChar(c: char): (d: char)
    ensures LowerChar(d) == LowerChar(c)
    ensures 'a' <= c <= 'z' ==> IsUpperAscii(d)
  {
    if 'a' <= c <= 'z' then (c as int - 32) as char else c
  }

  /** `s.charAt(0).toUpperCase() + s.slice(1)`. */
  function Capitalize(s: string): (r: string)
    ensures |r| == |s|
    ensures |s| > 0 ==> r[0] == UpperChar(s[0]) && r[1..] == s[1..]
  {
    if |s| == 0 then s else [UpperChar(s[0])] + s[1..]
  }

  /** Capitalizing changes case only: ignoring case the label is the tier itself. */
  lemma CapitalizeIgnoringCase(s: string)
    ensures ToLower(Capitalize(s)) == ToLower(s)
  {
    var a, b := ToLower(Capitalize(s)), ToLower(s);
    assert forall i :: 0 <= i < |s| ==> a[i] == b[i] by {
      forall i | 0 <= i < |s|
        ensures a[i] == b[i]
      {
        if i > 0 {
          assert Capitalize(s)[i] == Capitalize(s)[1..][i - 1] == s[i];
        }
      }
    }
  }

  datatype BadgeVariant = DefaultVariant | SecondaryVariant | OutlineVariant

  /** The tier badge in the header: absent on free, styled per tier, naming the tier capitalized. */
  function TierBadge(tier: string): (r: Option<(string, BadgeVariant)>)
    ensures r.None? <==> tier == "free"
    ensures r.Some? ==> ToLower(r.value.0) == ToLower(tier)
    ensures r.Some? ==> |r.value.0| == |tier|
    ensures r.Some? && |tier| > 0 ==> r.value.0[0] == UpperChar(tier[0]) && r.value.0[1..] == tier[1..]
    ensures r.Some? ==> (r.value.1 == DefaultVariant <==> tier == "enterprise")
    ensures r.Some? ==> (r.value.1 == SecondaryVariant <==> tier == "professional")
  {
    CapitalizeIgnoringCase(tier);
    if tier == "free" then None
    else
      var variant :=
        if tier == "enterprise" then DefaultVariant
        else if tier == "professional" then SecondaryVariant
        else OutlineVariant;
      Some((Capitalize(tier), variant))
  }

  /** The badges of the three paid plans. */
  lemma PaidTierBadges()
    ensures TierBadge("basic") == Some(("Basic", OutlineVariant))
    ensures TierBadge("professional") == Some(("Professional", SecondaryVariant))
    ensures TierBadge("enterprise") == Some(("Enterprise", DefaultVariant))
  {
    CapitalizeLiteral("basic", "Basic");
    CapitalizeLiteral("professional", "Professional");
    CapitalizeLiteral("enterprise", "Enterprise");
  }

  lemma CapitalizeLiteral(s: string, t: string)
    requires |s| > 0 && |t| == |s| && t[0] == UpperChar(s[0]) && t[1..] == s[1..]
    ensures Capitalize(s) == t
  {
  }

  const InsightsNote: string := "AI suggests focusing on concurrency concepts and reducing filler words."

  /** The note the footer button adds; on free the footer is an upgrade link instead. */
  function FooterNote(tier: string): (r: Option<string>)
    ensures r.None? <==> tier == "free"
    ensures r.Some? ==> r.value == InsightsNote
  {
    if tier == "free" then None else Some(InsightsNote)
  }

  /** The free tier gets an inert panel: no updates, no badge, no moments, no notes. */
  lemma FreeTierIsInert(p: Panel, recording: bool, currentTime: nat, d: Draws)
    requires ValidDraws(d, |p.metrics|)
    ensures Tick(p, "free", recording, currentTime, d) == p
    ensures TierBadge("free").None? && FooterNote("free").None?
    ensures ShownMoments("free", p.moments) == Some([])
  {
  }
}

=== FILE: assessment.dfy ===
/**
 * The readiness-assessment page: a three-phase flow (not started, in
 * progress, completed) over a fixed list of questions, with a question
 * cursor, an answer map, the progress bar and the MM:SS countdown label.
 */
module Assessment {
  import opened Common
  import opened Text

  datatype Phase = NotStarted | InProgress | Completed

  /**
   * The page state. `answers` maps a question id to the answer given; the
   * value is whatever the answer widget produced, here a string.
   */
  datatype State = State(phase: Phase, index: nat, answers: map<string, string>, timeRemaining: nat)

  /** The ids of the page's questions, in order. */
  const QuestionIds: seq<string> := ["q1", "q2", "q3", "q4"]

  /** The page's time limit, in minutes. */
  const TimeLimit: nat := 45

  /** The cursor always points at an existing question. */
  predicate Valid(s: State, ids: seq<string>) {
    s.index < |ids|
  }

  function Initial(): (s: State)
    ensures s.phase == NotStarted && s.index == 0 && s.answers == map[]
    ensures s.timeRemaining == 2700
  {
    State(NotStarted, 0, map[], TimeLimit * 60)
  }

  // ---------------------------------------------------------------------
  // Handlers
  // ---------------------------------------------------------------------

  /** `handleStartAssessment`. */
  function Start(s: State): (t: State)
    ensures t.phase == InProgress
    ensures t.index == s.index && t.answers == s.answers && t.timeRemaining == s.timeRemaining
  {
    s.(phase := InProgress)
  }

  /** The back arrow of the in-progress view: returns to the overview, keeping cursor and answers. */
  function BackArrow(s: State): (t: State)
    ensures t.phase == NotStarted
    ensures t.index == s.index && t.answers == s.answers && t.timeRemaining == s.timeRemaining
  {
    s.(phase := NotStarted)
  }

  /** `handleAnswerChange`: records `value` for the current question and for no other. */
  function Answer(s: State, ids: seq<string>, value: string): (t: State)
    requires Valid(s, ids)
    ensures ids[s.index] in t.answers && t.answers[ids[s.index]] == value
    ensures forall k :: k != ids[s.index] ==> (k in t.answers <==> k in s.answers)
    ensures forall k :: k != ids[s.index] && k in s.answers ==> t.answers[k] == s.answers[k]
    ensures t.phase == s.phase && t.index == s.index && t.timeRemaining == s.timeRemaining
  {
    s.(answers := s.answers[ids[s.index] := value])
  }

  /** `handleNextQuestion`: advances the cursor, or submits at the last question. */
  function Next(s: State, ids: seq<string>): (t: State)
    requires Valid(s, ids)
    ensures Valid(t, ids)
    ensures s.index < |ids| - 1 ==> t.index == s.index + 1 && t.phase == s.phase
    ensures s.index == |ids| - 1 ==> t.index == s.index && t.phase == Completed
    ensures t.answers == s.answers && t.timeRemaining == s.timeRemaining
  {
    if s.index < |ids| - 1 then s.(index := s.index + 1) else s.(phase := Completed)
  }

  /** `handlePreviousQuestion`: moves the cursor back, never below the first question. */
  function Previous(s: State): (t: State)
    ensures s.index > 0 ==> t.index == s.index - 1
    ensures s.index == 0 ==> t == s
    ensures t.phase == s.phase && t.answers == s.answers && t.timeRemaining == s.timeRemaining
  {
    if s.index > 0 then s.(index := s.index - 1) else s
  }

  // ---------------------------------------------------------------------
  // What the user can click
  // ---------------------------------------------------------------------

  datatype Event =
    | StartClicked           // "Start Assessment", overview only
    | BackClicked            // the back arrow, in-progress view only
    | AnswerChanged(value: string)
    | NextClicked            // "Next" / "Submit"
    | PreviousClicked        // "Previous", disabled on the first question

  /**
   * The effect of a user event: each control acts only in the phase whose
   * view renders it. The results view has links only, so no event changes it.
   */
  function Dispatch(s: State, ids: seq<string>, e: Event): (t: State)
    requires Valid(s, ids)
    ensures Valid(t, ids)
    ensures t.timeRemaining == s.timeRemaining
  {
    match e
    case StartClicked => if s.phase == NotStarted then Start(s) else s
    case BackClicked => if s.phase == InProgress then BackArrow(s) else s
    case AnswerChanged(v) => if s.phase == InProgress then Answer(s, ids, v) else s
    case NextClicked => if s.phase == InProgress then Next(s, ids) else s
    case PreviousClicked => if s.phase == InProgress && s.index != 0 then Previous(s) else s
  }

  /** The completed phase is final: no event leaves it or changes anything. */
  lemma CompletedIsFinal(s: State, ids: seq<string>, e: Event)
    requires Valid(s, ids) && s.phase == Completed
    ensures Dispatch(s, ids, e) == s
  {
  }

  /** Only "Submit" on the last question completes the assessment. */
  lemma CompletionOnlyBySubmit(s: State, ids: seq<string>, e: Event)
    requires Valid(s, ids) && s.phase != Completed
    ensures Dispatch(s, ids, e).phase == Completed
        <==> e == NextClicked && s.phase == InProgress && s.index == |ids| - 1
  {
  }

  /** Phase moves: Start goes forward from the overview, the back arrow returns to it. */
  lemma PhaseMoves(s: State, ids: seq<string>)
    requires Valid(s, ids)
    ensures s.phase == NotStarted ==> Dispatch(s, ids, StartClicked).phase == InProgress
    ensures s.phase == InProgress ==> Dispatch(s, ids, BackClicked) == s.(phase := NotStarted)
    ensures s.phase == InProgress ==> Dispatch(s, ids, StartClicked) == s
  {
  }

  /** The state after a sequence of events. */
  function Run(s: State, ids: seq<string>, events: seq<Event>): (t: State)
    requires Valid(s, ids)
    ensures Valid(t, ids)
    decreases |events|
  {
    if |events| == 0 then s else Run(Dispatch(s, ids, events[0]), ids, events[1..])
  }

  /** However the user clicks, the cursor stays on a question and the clock label is untouched. */
  lemma {:induction false} RunKeepsCursorAndClock(ids: seq<string>, events: seq<Event>)
    requires |ids| > 0
    ensures Run(Initial(), ids, events).index < |ids|
    ensures Run(Initial(), ids, events).timeRemaining == TimeLimit * 60
  {
    RunKeepsClock(Initial(), ids, events);
  }

  lemma {:induction false} RunKeepsClock(s: State, ids: seq<string>, events: seq<Event>)
    requires Valid(s, ids)
    ensures Run(s, ids, events).timeRemaining == s.timeRemaining
    decreases |events|
  {
    if |events| > 0 {
      RunKeepsClock(Dispatch(s, ids, events[0]), ids, events[1..]);
    }
  }

  /** Once completed, no later events change the state. */
  lemma {:induction false} RunFromCompleted(s: State, ids: seq<string>, events: seq<Event>)
    requires Valid(s, ids) && s.phase == Completed
    ensures Run(s, ids, events) == s
    decreases |events|
  {
    if |events| > 0 {
      CompletedIsFinal(s, ids, events[0]);
      RunFromCompleted(s, ids, events[1..]);
    }
  }

  // ---------------------------------------------------------------------
  // Display
  // ---------------------------------------------------------------------

  /** `progress`: the share of questions reached, as a percentage. */
  function Progress(index: nat, n: nat): (p: real)
    requires index < n
    ensures 0.0 < p <= 100.0
    ensures p == 100.0 <==> index == n - 1
  {
    ProgressFacts(index, n);
    ((index + 1) as real / n as real) * 100.0
  }

  lemma ProgressFacts(index: nat, n: nat)
    requires index < n
    ensures var p := ((index + 1) as real / n as real) * 100.0;
      0.0 < p <= 100.0 && (p == 100.0 <==> index == n - 1)
  {
    var q := (index + 1) as real / n as real;
    assert q * n as real == (index + 1) as real;
    if q >= 1.0 {
      assert q * n as real >= n as real;
    }
    if index < n - 1 {
      assert q < 1.0;
    }
  }

  /**
   * The percentage printed above the bar: `Math.round(progress)`. It can be
   * 0 only with more than 200 questions, and reads 100 on the last one.
   */
  function ProgressLabel(index: nat, n: nat): (r: int)
    requires index < n
    ensures 0 <= r <= 100
    ensures index == n - 1 ==> r == 100
    ensures n <= 200 ==> r > 0
    ensures r as real - 0.5 <= Progress(index, n) < r as real + 0.5
  {
    var p := Progress(index, n);
    assert p * n as real == (100 * (index + 1)) as real;
    RoundedReal(p, n, 100 * (index + 1), RoundDiv(100 * (index + 1), n));
    RoundDivBetween(100 * (index + 1), n, 0, 100);
    if index == n - 1 then
      RoundDivBetween(100 * (index + 1), n, 100, 100);
      RoundDiv(100 * (index + 1), n)
    else
      var r := RoundDiv(100 * (index + 1), n);
      PositiveRound(index + 1, n, r);
      r
  }

  /** An integer rounding of `k / n` is within a half of the real quotient `p`. */
  lemma RoundedReal(p: real, n: nat, k: int, r: int)
    requires n > 0 && p * n as real == k as real
    requires 2 * n * r <= 2 * k + n < 2 * n * (r + 1)
    ensures r as real - 0.5 <= p < r as real + 0.5
  {
    var x := n as real;
    var lhs := 2.0 * p * x + x;
    assert (2 * k + n) as real == lhs;
    assert 2.0 * x * r as real <= lhs;
    assert lhs < 2.0 * x * (r as real + 1.0);
    var lo := 2.0 * r as real - 2.0 * p - 1.0;
    var hi := 2.0 * p + 1.0 - 2.0 * r as real - 2.0;
    assert x * lo <= 0.0;
    assert x * hi < 0.0;
  }

  lemma PositiveRound(k: nat, n: nat, r: int)
    requires 0 < k && 0 < n
    requires 200 * k + n < 2 * n * (r + 1)
    ensures n <= 200 ==> r > 0
  {
    if r <= 0 {
      assert 2 * n * (r + 1) <= 2 * n;
    }
  }

  /** The caption of the forward button. */
  function NextButtonLabel(s: State, ids: seq<string>): (r: string)
    requires Valid(s, ids)
    ensures r == "Submit" || r == "Next"
    ensures r == "Submit" <==> Progress(s.index, |ids|) == 100.0
  {
    if s.index == |ids| - 1 then "Submit" else "Next"
  }

  /** The button reads "Submit" exactly where the progress bar is full, and there Next completes. */
  lemma SubmitWhenFull(s: State, ids: seq<string>)
    requires Valid(s, ids) && s.phase == InProgress
    ensures NextButtonLabel(s, ids) == "Submit" <==> Progress(s.index, |ids|) == 100.0
    ensures NextButtonLabel(s, ids) == "Submit" <==> Dispatch(s, ids, NextClicked).phase == Completed
  {
  }

  /** "Previous" is disabled exactly on the first question, where it would do nothing. */
  lemma PreviousDisabledOnFirst(s: State, ids: seq<string>)
    requires Valid(s, ids) && s.phase == InProgress
    ensures s.index == 0 <==> Dispatch(s, ids, PreviousClicked) == s
  {
  }

  /** `formatTime`: minutes and seconds, each zero-padded to two digits. */
  function FormatTime(seconds: nat): (r: string)
    ensures ParseMinSec(r) == Some(seconds)
    ensures seconds < 6000 ==> |r| == 5 && r[2] == ':'
    ensures seconds < 6000 ==> AllDigits(r[..2]) && AllDigits(r[3..])
                               && ParseDigits(r[..2]) == seconds / 60 && ParseDigits(r[3..]) == seconds % 60
  {
    FormatMinSecRoundTrip(seconds);
    ClockShape(seconds);
    FormatMinSec(seconds)
  }

  lemma ClockShape(seconds: nat)
    ensures seconds < 6000 ==> var r := FormatMinSec(seconds);
      |r| == 5 && r[2] == ':' && AllDigits(r[..2]) && AllDigits(r[3..])
      && ParseDigits(r[..2]) == seconds / 60 && ParseDigits(r[3..]) == seconds % 60
  {
    if seconds < 6000 {
      ClockFields(seconds);
    }
  }

  /** The full 45-minute limit reads "45:00". */
  lemma InitialClock()
    ensures FormatTime(Initial().timeRemaining) == "45:00"
  {
    assert NatToString(45) == "45";
    assert NatToString(0) == "0";
  }
}

=== FILE: common.dfy ===
/**
 * Shared building blocks for the page models: an optional value (standing
 * in for JavaScript's `null`, `undefined` and `NaN`), order-preserving
 * filtering as done by `Array.prototype.filter`, counting and summing folds,
 * and the exact rational behaviour of `Math.round` and `Math.max/Math.min`
 * clamping.
 */
module Common {

  /** `None` plays JavaScript's `null`/`undefined`, or `NaN` for a numeric result. */
  datatype Option<+T> = None | Some(value: T)

  /** `a` can be obtained from `b` by deleting elements, keeping the order of the rest. */
  predicate SubseqOf<T(==)>(a: seq<T>, b: seq<T>)
    decreases |b|
  {
    if |a| == 0 then true
    else if |b| == 0 then false
    else (a[0] == b[0] && SubseqOf(a[1..], b[1..])) || SubseqOf(a, b[1..])
  }

  /** Every sequence is a subsequence of itself. */
  lemma {:induction false} SubseqOfRefl<T>(s: seq<T>)
    ensures SubseqOf(s, s)
    decreases |s|
  {
    if |s| > 0 {
      SubseqOfRefl(s[1..]);
    }
  }

  /**
   * `Array.prototype.filter`: the elements of `s` that satisfy `p`, in their
   * original order: an ordered selection from `s` in which everything passes.
   * FilterMultiset adds that every passing element of `s` is kept as often as
   * it occurs, which together determine the result uniquely.
   */
  function Filter<T(==,!new)>(s: seq<T>, p: T -> bool): (r: seq<T>)
    ensures |r| <= |s|
    ensures SubseqOf(r, s)
    ensures forall i :: 0 <= i < |r| ==> p(r[i])
    decreases |s|
  {
    if |s| == 0 then []
    else
      var rest := Filter(s[1..], p);
      assert s == [s[0]] + s[1..];
      if p(s[0]) then [s[0]] + rest else rest
  }

  /** Filter keeps each passing element exactly as often as it occurs, and drops the rest. */
  lemma {:induction false} FilterMultiset<T(!new)>(s: seq<T>, p: T -> bool, x: T)
    ensures multiset(Filter(s, p))[x] == if p(x) then multiset(s)[x] else 0
    decreases |s|
  {
    if |s| > 0 {
      var rest := Filter(s[1..], p);
      FilterMultiset(s[1..], p, x);
      assert s == [s[0]] + s[1..];
      assert multiset(s) == multiset([s[0]]) + multiset(s[1..]);
      if p(s[0]) {
        assert Filter(s, p) == [s[0]] + rest;
        assert multiset(Filter(s, p)) == multiset([s[0]]) + multiset(rest);
      } else {
        assert Filter(s, p) == rest;
      }
    }
  }

  /** Membership form of FilterMultiset. */
  lemma FilterMembership<T(!new)>(s: seq<T>, p: T -> bool, x: T)
    ensures x in Filter(s, p) <==> x in s && p(x)
  {
    var r := Filter(s, p);
    FilterMultiset(s, p, x);
    assert x in r <==> multiset(r)[x] > 0;
    assert x in s <==> multiset(s)[x] > 0;
  }

  /** A filter whose predicate holds everywhere returns the input unchanged. */
  lemma {:induction false} FilterAll<T(!new)>(s: seq<T>, p: T -> bool)
    requires forall i :: 0 <= i < |s| ==> p(s[i])
    ensures Filter(s, p) == s
    decreases |s|
  {
    if |s| > 0 {
      FilterAll(s[1..], p);
      assert s == [s[0]] + s[1..];
    }
  }

  /** A filter whose predicate fails everywhere returns nothing. */
  lemma {:induction false} FilterNone<T(!new)>(s: seq<T>, p: T -> bool)
    requires forall i :: 0 <= i < |s| ==> !p(s[i])
    ensures Filter(s, p) == []
    decreases |s|
  {
    if |s| > 0 {
      FilterNone(s[1..], p);
    }
  }

  /** The result is empty exactly when no element passes. */
  lemma FilterEmptyIff<T(!new)>(s: seq<T>, p: T -> bool)
    ensures Filter(s, p) == [] <==> forall i :: 0 <= i < |s| ==> !p(s[i])
  {
    if Filter(s, p) == [] {
      forall i | 0 <= i < |s|
        ensures !p(s[i])
      {
        FilterMembership(s, p, s[i]);
      }
    } else {
      var r := Filter(s, p);
      FilterMembership(s, p, r[0]);
    }
  }

  /** Number of elements satisfying `p`: `s.filter(p).length`. */
  function Count<T(==,!new)>(s: seq<T>, p: T -> bool): (n: nat)
    ensures n <= |s|
    ensures n == |s| <==> forall i :: 0 <= i < |s| ==> p(s[i])
    ensures n == 0 <==> forall i :: 0 <= i < |s| ==> !p(s[i])
  {
    var r := Filter(s, p);
    CountAllIff(s, p);
    FilterEmptyIff(s, p);
    |r|
  }

  lemma {:induction false} CountAllIff<T(!new)>(s: seq<T>, p: T -> bool)
    ensures |Filter(s, p)| == |s| <==> forall i :: 0 <= i < |s| ==> p(s[i])
    decreases |s|
  {
    if |s| > 0 {
      var t := s[1..];
      CountAllIff(t, p);
      assert (forall i :: 0 <= i < |s| ==> p(s[i])) <==> p(s[0]) && (forall j :: 0 <= j < |t| ==> p(t[j])) by {
        assert forall j :: 0 <= j < |t| ==> t[j] == s[j + 1];
      }
    }
  }

  /** Filtering distributes over concatenation. */
  lemma {:induction false} FilterConcat<T(!new)>(a: seq<T>, b: seq<T>, p: T -> bool)
    ensures Filter(a + b, p) == Filter(a, p) + Filter(b, p)
    decreases |a|
  {
    if |a| > 0 {
      var ab := a + b;
      FilterConcat(a[1..], b, p);
      assert ab[0] == a[0];
      assert ab[1..] == a[1..] + b;
      var h: seq<T> := if p(a[0]) then [a[0]] else [];
      var fa1, fb := Filter(a[1..], p), Filter(b, p);
      assert Filter(a, p) == h + fa1;
      assert Filter(ab, p) == h + (fa1 + fb);
      assert h + (fa1 + fb) == (h + fa1) + fb;
    } else {
      assert a + b == b;
    }
  }

  /** Counting distributes over concatenation. */
  lemma CountConcat<T(!new)>(a: seq<T>, b: seq<T>, p: T -> bool)
    ensures Count(a + b, p) == Count(a, p) + Count(b, p)
  {
    FilterConcat(a, b, p);
  }

  /** One step of the count: the head contributes one exactly when it passes. */
  lemma CountCons<T(!new)>(s: seq<T>, p: T -> bool)
    requires |s| > 0
    ensures Count(s, p) == (if p(s[0]) then 1 else 0) + Count(s[1..], p)
  {
  }

  /** A weaker predicate counts at least as many elements. */
  lemma {:induction false} CountMonotone<T(!new)>(s: seq<T>, p: T -> bool, q: T -> bool)
    requires forall x :: p(x) ==> q(x)
    ensures Count(s, p) <= Count(s, q)
    decreases |s|
  {
    if |s| > 0 {
      CountMonotone(s[1..], p, q);
      CountCons(s, p);
      CountCons(s, q);
    }
  }

  /** Counts of two predicates that never hold together add up to the count of their disjunction. */
  lemma {:induction false} CountDisjointSum<T(!new)>(s: seq<T>, p: T -> bool, q: T -> bool, pq: T -> bool)
    requires forall x :: !(p(x) && q(x))
    requires forall x :: pq(x) == (p(x) || q(x))
    ensures Count(s, p) + Count(s, q) == Count(s, pq)
    decreases |s|
  {
    if |s| > 0 {
      CountDisjointSum(s[1..], p, q, pq);
      CountCons(s, p);
      CountCons(s, q);
      CountCons(s, pq);
    }
  }

  /** `Array.prototype.some`: whether some element satisfies `p`, scanning left to right. */
  function AnyOf<T(!new)>(s: seq<T>, p: T -> bool): (b: bool)
    ensures b <==> exists i :: 0 <= i < |s| && p(s[i])
    decreases |s|
  {
    if |s| == 0 then false
    else
      var rest := AnyOf(s[1..], p);
      assert rest <==> exists j :: 1 <= j < |s| && p(s[j]) by {
        if rest {
          var k :| 0 <= k < |s[1..]| && p(s[1..][k]);
          assert p(s[k + 1]);
        }
      }
      p(s[0]) || rest
  }

  /** Sum of a sequence of integers, `reduce((a, b) => a + b, 0)`. */
  function Sum(s: seq<int>): int
    decreases |s|
  {
    if |s| == 0 then 0 else s[0] + Sum(s[1..])
  }

  /** Every summand within [lo, hi] puts the sum within [|s|·lo, |s|·hi]. */
  lemma {:induction false} SumBounds(s: seq<int>, lo: int, hi: int)
    requires forall i :: 0 <= i < |s| ==> lo <= s[i] <= hi
    ensures |s| * lo <= Sum(s) <= |s| * hi
    decreases |s|
  {
    if |s| > 0 {
      SumBounds(s[1..], lo, hi);
    }
  }

  /**
   * `Math.round(n / d)` for a positive divisor: the nearest integer, ties
   * rounded up (towards +∞), exactly as JavaScript does.
   */
  function RoundDiv(n: int, d: int): (r: int)
    requires d > 0
    ensures 2 * d * r <= 2 * n + d < 2 * d * (r + 1)
  {
    (2 * n + d) / (2 * d)
  }

  /** Cancelling a positive factor from a strict inequality. */
  lemma CancelLt(a: int, x: int, y: int)
    requires a > 0
    requires a * x < a * y
    ensures x < y
  {
    assert a * (y - x) > 0;
  }

  /** Rounding a quotient that lies in [lo, hi] stays in [lo, hi]. */
  lemma RoundDivBetween(n: int, d: int, lo: int, hi: int)
    requires d > 0
    requires d * lo <= n <= d * hi
    ensures lo <= RoundDiv(n, d) <= hi
  {
    var r := RoundDiv(n, d);
    assert 2 * d * lo < 2 * d * (r + 1);
    CancelLt(2 * d, lo, r + 1);
    assert 2 * d * r < 2 * d * (hi + 1);
    CancelLt(2 * d, r, hi + 1);
  }

  /**
   * `Math.round((part / whole) * 100)`; a zero `whole` gives JavaScript's
   * `NaN`, modelled as `None`.
   */
  function RoundedPercent(part: nat, whole: nat): (r: Option<int>)
    ensures whole == 0 <==> r.None?
    ensures whole > 0 && part <= whole ==> 0 <= r.value <= 100
    ensures whole > 0 && part == whole ==> r == Some(100)
    ensures whole > 0 && part == 0 ==> r == Some(0)
    ensures r.Some? ==> 2 * whole * r.value <= 200 * part + whole < 2 * whole * (r.value + 1)
  {
    if whole == 0 then None
    else
      PercentFacts(part, whole);
      Some(RoundDiv(100 * part, whole))
  }

  lemma PercentFacts(part: nat, whole: nat)
    requires whole > 0
    ensures part <= whole ==> 0 <= RoundDiv(100 * part, whole) <= 100
    ensures part == whole ==> RoundDiv(100 * part, whole) == 100
    ensures part == 0 ==> RoundDiv(100 * part, whole) == 0
  {
    if part <= whole {
      RoundDivBetween(100 * part, whole, 0, 100);
    }
    if part == whole {
      RoundDivBetween(100 * part, whole, 100, 100);
    }
    if part == 0 {
      RoundDivBetween(100 * part, whole, 0, 0);
    }
  }

  /** `Math.max(lo, Math.min(hi, x))`. */
  function Clamp(x: real, lo: real, hi: real): (r: real)
    requires lo <= hi
    ensures lo <= r <= hi
    ensures lo <= x <= hi ==> r == x
    ensures x < lo ==> r == lo
    ensures x > hi ==> r == hi
  {
    if x < lo then lo else if x > hi then hi else x
  }

  /** Clamping never moves a value that started inside the range further than the raw step. */
  lemma ClampStep(v: real, d: real, lo: real, hi: real)
    requires lo <= v <= hi
    ensures -(if d < 0.0 then -d else d) <= Clamp(v + d, lo, hi) - v <= (if d < 0.0 then -d else d)
  {
  }

  /** The index `Math.floor(roll * n)` a `Math.random()` draw in [0, 1) selects. */
  function PickIndex(roll: real, n: nat): (i: nat)
    requires 0.0 <= roll < 1.0
    requires n > 0
    ensures i < n
    ensures i as real <= roll * n as real < i as real + 1.0
  {
    var x := roll * n as real;
    assert 0.0 <= x < n as real by {
      assert (1.0 - roll) * n as real > 0.0;
    }
    x.Floor as nat
  }

  /** The draw `k / n` picks index `k`: every index is reachable. */
  lemma PickIndexHits(k: nat, n: nat)
    requires k < n
    ensures 0.0 <= k as real / n as real < 1.0
    ensures PickIndex(k as real / n as real, n) == k
  {
    var x := n as real;
    var roll := k as real / x;
    assert roll * x == k as real;
  }
}

=== FILE: company_interviews.dfy ===
/**
 * The company-specific interviews page: the company search, the interviewer
 * search with its company and role selects, the role list offered by the
 * role select, and the "Clear Filters" reset.
 */
module CompanyInterviews {
  import opened Common
  import opened Text

  datatype Company = Company(id: nat, name: string, roles: seq<string>)

  datatype Interviewer = Interviewer(name: string, company: string, role: string, specialization: string)

  /** The search box and the two selects; a select holds `null` (`None`) or a string. */
  datatype Filters = Filters(search: string, company: Option<string>, role: Option<string>)

  /** `!selected`: nothing chosen, or the empty string chosen by an "All" item. */
  predicate Unset(selected: Option<string>) {
    selected.None? || selected.value == ""
  }

  // ---------------------------------------------------------------------
  // Companies tab
  // ---------------------------------------------------------------------

  predicate CompanyMatches(c: Company, search: string) {
    MatchesIgnoringCase(c.name, search)
  }

  /** `filteredCompanies`: a case-insensitive substring search on the company name only. */
  function FilteredCompanies(companies: seq<Company>, search: string): (r: seq<Company>)
    ensures SubseqOf(r, companies)
    ensures forall c :: c in r <==> c in companies && MatchesIgnoringCase(c.name, search)
    ensures forall c :: multiset(r)[c] == if MatchesIgnoringCase(c.name, search) then multiset(companies)[c] else 0
  {
    var p := (c: Company) => CompanyMatches(c, search);
    var r := Filter(companies, p);
    assert forall c :: c in r <==> c in companies && MatchesIgnoringCase(c.name, search) by {
      forall c: Company {
        FilterMembership(companies, p, c);
      }
    }
    assert forall c :: multiset(r)[c] == if MatchesIgnoringCase(c.name, search) then multiset(companies)[c] else 0 by {
      forall c: Company {
        FilterMultiset(companies, p, c);
      }
    }
    r
  }

  /** An empty search (the initial state, and after "Clear Search") lists every company in order. */
  lemma EmptySearchAllCompanies(companies: seq<Company>)
    ensures FilteredCompanies(companies, "") == companies
  {
    forall i | 0 <= i < |companies|
      ensures CompanyMatches(companies[i], "")
    {
      IncludesEmpty(ToLower(companies[i].name));
    }
    FilterAll(companies, (c: Company) => CompanyMatches(c, ""));
  }

  // ---------------------------------------------------------------------
  // Interviewers tab
  // ---------------------------------------------------------------------

  predicate SearchMatches(iv: Interviewer, search: string) {
    MatchesIgnoringCase(iv.name, search)
    || MatchesIgnoringCase(iv.company, search)
    || MatchesIgnoringCase(iv.specialization, search)
  }

  /**
   * An interviewer is listed when the search matches name, company or
   * specialization, the company equals the chosen one, and the role contains
   * the chosen role as a case-sensitive substring.
   */
  predicate InterviewerPasses(iv: Interviewer, f: Filters) {
    SearchMatches(iv, f.search)
    && (Unset(f.company) || iv.company == f.company.value)
    && (Unset(f.role) || Includes(iv.role, f.role.value))
  }

  /** `filteredInterviewers`. */
  function FilteredInterviewers(ivs: seq<Interviewer>, f: Filters): (r: seq<Interviewer>)
    ensures SubseqOf(r, ivs)
    ensures forall iv :: iv in r <==> iv in ivs && InterviewerPasses(iv, f)
    ensures forall iv :: multiset(r)[iv] == if InterviewerPasses(iv, f) then multiset(ivs)[iv] else 0
  {
    var p := (iv: Interviewer) => InterviewerPasses(iv, f);
    var r := Filter(ivs, p);
    assert forall iv :: iv in r <==> iv in ivs && InterviewerPasses(iv, f) by {
      forall iv: Interviewer {
        FilterMembership(ivs, p, iv);
      }
    }
    assert forall iv :: multiset(r)[iv] == if InterviewerPasses(iv, f) then multiset(ivs)[iv] else 0 by {
      forall iv: Interviewer {
        FilterMultiset(ivs, p, iv);
      }
    }
    r
  }

  /** "Clear Filters": empty search and both selects back to `null`. */
  function ClearFilters(f: Filters): (g: Filters)
    ensures g.search == "" && Unset(g.company) && Unset(g.role)
  {
    Filters("", None, None)
  }

  /** After "Clear Filters" every interviewer is listed, in order. */
  lemma ClearedShowsAll(ivs: seq<Interviewer>, f: Filters)
    ensures FilteredInterviewers(ivs, ClearFilters(f)) == ivs
  {
    var g := ClearFilters(f);
    forall i | 0 <= i < |ivs|
      ensures InterviewerPasses(ivs[i], g)
    {
      IncludesEmpty(ToLower(ivs[i].name));
    }
    FilterAll(ivs, (iv: Interviewer) => InterviewerPasses(iv, g));
  }

  /** Choosing a role keeps interviewers whose role merely contains it: a senior title matches the plain one. */
  lemma RoleIsSubstringMatch()
    ensures Includes("Senior Software Engineer", "Software Engineer")
  {
    assert OccursAt("Senior Software Engineer", "Software Engineer", 7);
  }

  /** The role select compares case-sensitively, unlike the search box. */
  lemma RoleIsCaseSensitive()
    ensures !Includes("engineer", "Engineer")
  {
    var s, sub := "engineer", "Engineer";
    forall i | 0 <= i <= |s| - |sub|
      ensures !OccursAt(s, sub, i)
    {
      assert i == 0;
      assert s[0] != sub[0];
    }
  }

  // ---------------------------------------------------------------------
  // Role list
  // ---------------------------------------------------------------------

  /** `companies.flatMap(c => c.roles)`. */
  function AllCompanyRoles(companies: seq<Company>): seq<string>
    decreases |companies|
  {
    if |companies| == 0 then [] else companies[0].roles + AllCompanyRoles(companies[1..])
  }

  lemma {:induction false} AllCompanyRolesMembership(companies: seq<Company>, x: string)
    ensures x in AllCompanyRoles(companies) <==> exists i :: 0 <= i < |companies| && x in companies[i].roles
    decreases |companies|
  {
    if |companies| > 0 {
      AllCompanyRolesMembership(companies[1..], x);
      if x in AllCompanyRoles(companies[1..]) {
        var i :| 0 <= i < |companies[1..]| && x in companies[1..][i].roles;
        assert companies[i + 1] == companies[1..][i];
      }
      if exists i :: 1 <= i < |companies| && x in companies[i].roles {
        var i :| 1 <= i < |companies| && x in companies[i].roles;
        assert companies[1..][i - 1] == companies[i];
      }
    }
  }

  /** Strictly ascending in code-unit order, hence also free of duplicates. */
  predicate StrictlyAscending(s: seq<string>) {
    forall i, j :: 0 <= i < j < |s| ==> LexLess(s[i], s[j])
  }

  /** Adds `x` to a strictly ascending list unless it is already there. */
  function InsertUnique(x: string, s: seq<string>): (r: seq<string>)
    requires StrictlyAscending(s)
    ensures StrictlyAscending(r)
    ensures forall y :: y in r <==> y == x || y in s
    decreases |s|
  {
    if |s| == 0 then [x]
    else if x == s[0] then s
    else if LexLess(x, s[0]) then
      PrependSmaller(x, s);
      [x] + s
    else
      var rest := InsertUnique(x, s[1..]);
      LexLessTrichotomy(x, s[0]);
      assert forall y :: y in s <==> y == s[0] || y in s[1..] by {
        assert s == [s[0]] + s[1..];
      }
      AppendAfterHead(x, s, rest);
      [s[0]] + rest
  }

  lemma PrependSmaller(x: string, s: seq<string>)
    requires StrictlyAscending(s) && |s| > 0 && LexLess(x, s[0])
    ensures StrictlyAscending([x] + s)
  {
    forall j | 1 <= j < |s|
      ensures LexLess(x, s[j])
    {
      LexLessTransitive(x, s[0], s[j]);
    }
  }

  lemma AppendAfterHead(x: string, s: seq<string>, rest: seq<string>)
    requires StrictlyAscending(s) && |s| > 0 && LexLess(s[0], x)
    requires StrictlyAscending(rest)
    requires forall y :: y in rest <==> y == x || y in s[1..]
    ensures StrictlyAscending([s[0]] + rest)
  {
    var r := [s[0]] + rest;
    forall j | 1 <= j < |r|
      ensures LexLess(s[0], r[j])
    {
      assert r[j] == rest[j - 1];
      assert r[j] in rest;
      if r[j] != x {
        var k :| 0 <= k < |s[1..]| && s[1..][k] == r[j];
        assert s[k + 1] == r[j];
      }
    }
  }

  /** Builds the ascending duplicate-free list of the given strings. */
  function SortedUnique(s: seq<string>): (r: seq<string>)
    ensures StrictlyAscending(r)
    ensures forall y :: y in r <==> y in s
    decreases |s|
  {
    if |s| == 0 then []
    else
      assert forall y :: y in s <==> y == s[0] || y in s[1..] by {
        assert s == [s[0]] + s[1..];
      }
      InsertUnique(s[0], SortedUnique(s[1..]))
  }

  /**
   * `allRoles`: every role offered by some company, each once, in ascending
   * order. Strict ascent means no role is listed twice.
   */
  function AllRoles(companies: seq<Company>): (r: seq<string>)
    ensures StrictlyAscending(r)
    ensures forall x :: x in r <==> exists i :: 0 <= i < |companies| && x in companies[i].roles
  {
    var r := SortedUnique(AllCompanyRoles(companies));
    assert forall x :: x in r <==> exists i :: 0 <= i < |companies| && x in companies[i].roles by {
      forall x: string {
        AllCompanyRolesMembership(companies, x);
      }
    }
    r
  }

  /** A strictly ascending list is determined by its elements: `allRoles` has one possible value. */
  lemma {:induction false} AscendingUnique(a: seq<string>, b: seq<string>)
    requires StrictlyAscending(a) && StrictlyAscending(b)
    requires forall x :: x in a <==> x in b
    ensures a == b
    decreases |a|
  {
    EmptyTogether(a, b);
    if |a| > 0 {
      SameHead(a, b);
      forall x
        ensures x in a[1..] <==> x in b[1..]
      {
        TailMembership(a, x);
        TailMembership(b, x);
      }
      AscendingUnique(a[1..], b[1..]);
      assert a == [a[0]] + a[1..] && b == [b[0]] + b[1..];
    }
  }

  lemma EmptyTogether(a: seq<string>, b: seq<string>)
    requires forall x :: x in a <==> x in b
    ensures |a| == 0 <==> |b| == 0
  {
    if |a| > 0 {
      assert a[0] in b;
    }
    if |b| > 0 {
      assert b[0] in a;
    }
  }

  /** The head of a strictly ascending list precedes every other element. */
  lemma HeadIsLeast(a: seq<string>, x: string)
    requires StrictlyAscending(a) && x in a
    ensures x == a[0] || LexLess(a[0], x)
  {
    var k :| 0 <= k < |a| && a[k] == x;
    if k > 0 {
      assert LexLess(a[0], a[k]);
    }
  }

  lemma SameHead(a: seq<string>, b: seq<string>)
    requires StrictlyAscending(a) && StrictlyAscending(b) && |a| > 0 && |b| > 0
    requires forall x :: x in a <==> x in b
    ensures a[0] == b[0]
  {
    HeadIsLeast(a, b[0]);
    HeadIsLeast(b, a[0]);
    if LexLess(a[0], b[0]) {
      LexLessAsymmetric(a[0], b[0]);
    }
  }

  /** In a strictly ascending list, the tail holds exactly the elements other than the head. */
  lemma TailMembership(a: seq<string>, x: string)
    requires StrictlyAscending(a) && |a| > 0
    ensures x in a[1..] <==> x in a && x != a[0]
  {
    if x in a[1..] {
      var k :| 0 <= k < |a[1..]| && a[1..][k] == x;
      assert a[k + 1] == x;
      LexLessIrreflexive(a[0]);
    }
    if x in a && x != a[0] {
      var k :| 0 <= k < |a| && a[k] == x;
      assert a[1..][k - 1] == x;
    }
  }
}

=== FILE: practice.dfy ===
/**
 * The practice-questions page of the student dashboard: the five-part
 * question filter, the progress statistics, the per-category breakdown, the
 * "Recent Activity" list and the tag checkboxes of the advanced-filter dialog.
 */
module Practice {
  import opened Common
  import opened Text

  datatype Question = Question(
    id: nat,
    question: string,
    description: string,
    difficulty: string,
    category: string,
    tags: seq<string>,
    company: string,
    attempts: nat,
    lastAttempted: Option<string>,   // a "YYYY-MM-DD" date, or null
    score: nat,
    solved: bool)

  /**
   * The filter state: the search box and the three select boxes (`null` when
   * nothing is chosen) plus the tags ticked in the advanced-filter dialog.
   */
  datatype Filters = Filters(
    search: string,
    category: Option<string>,
    difficulty: Option<string>,
    company: Option<string>,
    tags: seq<string>)

  /** The initial state, and the state the "Reset Filters" button restores. */
  const NoFilters := Filters("", None, None, None, [])

  /** The difficulty values the question data uses. */
  const Difficulties: seq<string> := ["Easy", "Medium", "Hard"]

  // ---------------------------------------------------------------------
  // The question filter
  // ---------------------------------------------------------------------

  /** What a select box stores for a chosen value: `value || null`. */
  function OnSelect(value: string): (r: Option<string>)
    ensures r.None? <==> value == ""
    ensures r.Some? ==> r.value == value
  {
    if value == "" then None else Some(value)
  }

  /** Free-text search over the question text, its description and its category only. */
  predicate MatchesSearch(q: Question, search: string) {
    search == ""
    || MatchesIgnoringCase(q.question, search)
    || MatchesIgnoringCase(q.description, search)
    || MatchesIgnoringCase(q.category, search)
  }

  /** A select box filters by equality once something is chosen. */
  predicate MatchesSelection(value: string, selected: Option<string>) {
    selected.None? || value == selected.value
  }

  /** A question passes the tag filter when no tag is ticked or it carries some ticked tag. */
  predicate MatchesTags(q: Question, selected: seq<string>) {
    |selected| == 0 || AnyOf(selected, (t: string) => t in q.tags)
  }

  predicate Passes(q: Question, f: Filters) {
    MatchesSearch(q, f.search)
    && MatchesSelection(q.category, f.category)
    && MatchesSelection(q.difficulty, f.difficulty)
    && MatchesSelection(q.company, f.company)
    && MatchesTags(q, f.tags)
  }

  /** `filteredQuestions`: the questions that pass all five filters, in list order. */
  function FilteredQuestions(qs: seq<Question>, f: Filters): (r: seq<Question>)
    ensures SubseqOf(r, qs)
    ensures forall i :: 0 <= i < |r| ==> Passes(r[i], f)
    ensures forall q :: q in r <==> q in qs && Passes(q, f)
    ensures forall q :: multiset(r)[q] == if Passes(q, f) then multiset(qs)[q] else 0
  {
    var r := Filter(qs, (q: Question) => Passes(q, f));
    assert forall q :: q in r <==> q in qs && Passes(q, f) by {
      forall q: Question {
        FilterMembership(qs, (q: Question) => Passes(q, f), q);
      }
    }
    assert forall q :: multiset(r)[q] == if Passes(q, f) then multiset(qs)[q] else 0 by {
      forall q: Question {
        FilterMultiset(qs, (q: Question) => Passes(q, f), q);
      }
    }
    r
  }

  /** The tag filter has "any" semantics. */
  lemma TagFilterIsAny(q: Question, selected: seq<string>)
    ensures MatchesTags(q, selected) <==> |selected| == 0 || exists t :: t in selected && t in q.tags
  {
    if |selected| > 0 && AnyOf(selected, (t: string) => t in q.tags) {
      var i :| 0 <= i < |selected| && selected[i] in q.tags;
      assert selected[i] in selected;
    }
  }

  /** With every filter cleared, all questions are listed in their original order. */
  lemma {:induction false} NoFiltersKeepAll(qs: seq<Question>)
    ensures FilteredQuestions(qs, NoFilters) == qs
  {
    FilterAll(qs, (q: Question) => Passes(q, NoFilters));
  }

  /**
   * Searching never looks at a question's tags, company or difficulty: two
   * questions with the same text, description and category match alike.
   */
  lemma SearchReadsOnlyText(q: Question, tags: seq<string>, company: string, difficulty: string, search: string)
    ensures MatchesSearch(q.(tags := tags, company := company, difficulty := difficulty), search)
         == MatchesSearch(q, search)
  {
  }

  /**
   * A select box's "All" item has the value "all", which `value || null`
   * keeps as the string "all"; no question has that difficulty, so picking
   * "All Difficulties" empties the list instead of clearing the filter.
   */
  lemma {:induction false} AllDifficultiesExcludesEverything(qs: seq<Question>, f: Filters)
    requires forall i :: 0 <= i < |qs| ==> qs[i].difficulty in Difficulties
    ensures FilteredQuestions(qs, f.(difficulty := OnSelect("all"))) == []
  {
    var g := f.(difficulty := OnSelect("all"));
    assert forall i :: 0 <= i < |qs| ==> !Passes(qs[i], g) by {
      forall i | 0 <= i < |qs|
        ensures !Passes(qs[i], g)
      {
        assert qs[i].difficulty != "all";
      }
    }
    FilterNone(qs, (q: Question) => Passes(q, g));
  }

  /** The same holds for "All Categories" when no question is in a category called "all". */
  lemma {:induction false} AllCategoriesExcludesEverything(qs: seq<Question>, f: Filters)
    requires forall i :: 0 <= i < |qs| ==> qs[i].category != "all"
    ensures FilteredQuestions(qs, f.(category := OnSelect("all"))) == []
  {
    var g := f.(category := OnSelect("all"));
    FilterNone(qs, (q: Question) => Passes(q, g));
  }

  /** And for "All Companies" when no question comes from a company called "all". */
  lemma {:induction false} AllCompaniesExcludesEverything(qs: seq<Question>, f: Filters)
    requires forall i :: 0 <= i < |qs| ==> qs[i].company != "all"
    ensures FilteredQuestions(qs, f.(company := OnSelect("all"))) == []
  {
    var g := f.(company := OnSelect("all"));
    FilterNone(qs, (q: Question) => Passes(q, g));
  }

  // ---------------------------------------------------------------------
  // Tag checkboxes
  // ---------------------------------------------------------------------

  /** Ticking appends the tag; unticking removes every copy of it. */
  function ToggleTag(selected: seq<string>, tag: string, checked: bool): (r: seq<string>)
    ensures checked ==> tag in r && |r| == |selected| + 1 && r[..|selected|] == selected
    ensures !checked ==> tag !in r && SubseqOf(r, selected)
    ensures forall t :: t != tag ==> multiset(r)[t] == multiset(selected)[t]
  {
    if checked then selected + [tag]
    else
      var r := Filter(selected, (t: string) => t != tag);
      FilterMembership(selected, (t: string) => t != tag, tag);
      assert forall t :: t != tag ==> multiset(r)[t] == multiset(selected)[t] by {
        forall t: string {
          FilterMultiset(selected, (t: string) => t != tag, t);
        }
      }
      r
  }

  /** Ticking a tag that was not selected and unticking it again restores the selection. */
  lemma {:induction false} ToggleTagRoundTrip(selected: seq<string>, tag: string)
    requires tag !in selected
    ensures ToggleTag(ToggleTag(selected, tag, true), tag, false) == selected
  {
    var p := (t: string) => t != tag;
    FilterConcat(selected, [tag], p);
    FilterAll(selected, p);
    assert Filter([tag], p) == [];
  }

  /** The dialog's "Reset" button. */
  function ResetTags(f: Filters): (g: Filters)
    ensures g.tags == [] && forall q :: MatchesTags(q, g.tags)
    ensures g.(tags := f.tags) == f
  {
    f.(tags := [])
  }

  // ---------------------------------------------------------------------
  // Progress statistics
  // ---------------------------------------------------------------------

  function SolvedCount(qs: seq<Question>): (n: nat)
    ensures n <= |qs|
    ensures n == |qs| <==> forall i :: 0 <= i < |qs| ==> qs[i].solved
  {
    Count(qs, (q: Question) => q.solved)
  }

  /** `Math.round(solved / total * 100)`; NaN (`None`) when there are no questions. */
  function ProgressPercentage(qs: seq<Question>): (r: Option<int>)
    ensures |qs| == 0 <==> r.None?
    ensures r.Some? ==> 0 <= r.value <= 100
    ensures |qs| > 0 && (forall i :: 0 <= i < |qs| ==> qs[i].solved) ==> r == Some(100)
    ensures |qs| > 0 && (forall i :: 0 <= i < |qs| ==> !qs[i].solved) ==> r == Some(0)
    ensures r.Some? ==> 2 * |qs| * r.value <= 200 * SolvedCount(qs) + |qs| < 2 * |qs| * (r.value + 1)
  {
    RoundedPercent(SolvedCount(qs), |qs|)
  }

  /** Number of questions of one difficulty. */
  function DifficultyCount(qs: seq<Question>, difficulty: string): (n: nat)
    ensures n <= |qs|
    ensures n == 0 <==> forall i :: 0 <= i < |qs| ==> qs[i].difficulty != difficulty
  {
    Count(qs, (q: Question) => q.difficulty == difficulty)
  }

  /**
   * The Easy, Medium and Hard counts never exceed the number of questions,
   * and add up to it exactly when every question has one of those difficulties.
   */
  lemma DifficultyCountsPartition(qs: seq<Question>)
    ensures DifficultyCount(qs, "Easy") + DifficultyCount(qs, "Medium") + DifficultyCount(qs, "Hard") <= |qs|
    ensures DifficultyCount(qs, "Easy") + DifficultyCount(qs, "Medium") + DifficultyCount(qs, "Hard") == |qs|
        <==> forall i :: 0 <= i < |qs| ==> qs[i].difficulty in Difficulties
  {
    var e := (q: Question) => q.difficulty == "Easy";
    var m := (q: Question) => q.difficulty == "Medium";
    var h := (q: Question) => q.difficulty == "Hard";
    var em := (q: Question) => q.difficulty == "Easy" || q.difficulty == "Medium";
    var emh := (q: Question) => q.difficulty in Difficulties;
    CountDisjointSum(qs, e, m, em);
    CountDisjointSum(qs, em, h, emh);
  }

  // ---------------------------------------------------------------------
  // Progress by category
  // ---------------------------------------------------------------------

  datatype CategoryProgress = CategoryProgress(category: string, total: nat, solved: nat, percentage: int)

  predicate InCategory(q: Question, category: string) {
    q.category == category
  }

  predicate SolvedInCategory(q: Question, category: string) {
    q.category == category && q.solved
  }

  /** The card for one category, before empty categories are dropped. */
  function CategoryEntry(qs: seq<Question>, category: string): (e: CategoryProgress)
    ensures e.category == category
    ensures e.total == Count(qs, (q: Question) => InCategory(q, category))
    ensures e.solved == Count(qs, (q: Question) => SolvedInCategory(q, category))
    ensures e.solved <= e.total
    ensures e.total == 0 <==> forall i :: 0 <= i < |qs| ==> qs[i].category != category
    ensures 0 <= e.percentage <= 100
    ensures e.total == 0 ==> e.percentage == 0
    ensures e.total > 0 ==>
              2 * e.total * e.percentage <= 200 * e.solved + e.total < 2 * e.total * (e.percentage + 1)
  {
    var total := Count(qs, (q: Question) => InCategory(q, category));
    var solved := Count(qs, (q: Question) => SolvedInCategory(q, category));
    CountMonotone(qs, (q: Question) => SolvedInCategory(q, category), (q: Question) => InCategory(q, category));
    CategoryProgress(category, total, solved,
                     if total > 0 then RoundedPercent(solved, total).value else 0)
  }

  /** Every listed category's card, empty categories included, in list order. */
  function CategoryEntries(categories: seq<string>, qs: seq<Question>): (r: seq<CategoryProgress>)
    ensures |r| == |categories|
    ensures forall i :: 0 <= i < |r| ==> r[i] == CategoryEntry(qs, categories[i])
  {
    seq(|categories|, i requires 0 <= i < |categories| => CategoryEntry(qs, categories[i]))
  }

  predicate HasQuestions(e: CategoryProgress) {
    e.total > 0
  }

  /**
   * `categoryBreakdown`: the cards of the listed categories that have
   * questions, in the order of the category list. The "remaining" figure of
   * a card, `total - solved`, is never negative.
   */
  function CategoryBreakdown(categories: seq<string>, qs: seq<Question>): (r: seq<CategoryProgress>)
    ensures |r| <= |categories|
    ensures forall i :: 0 <= i < |r| ==> r[i].total > 0 && r[i].solved <= r[i].total
    ensures forall i :: 0 <= i < |r| ==> 0 <= r[i].percentage <= 100 && r[i].total - r[i].solved >= 0
    ensures forall i :: 0 <= i < |r| ==> r[i] == CategoryEntry(qs, r[i].category)
  {
    var all := CategoryEntries(categories, qs);
    var r := Filter(all, HasQuestions);
    forall i | 0 <= i < |r|
      ensures r[i] == CategoryEntry(qs, r[i].category)
    {
      FilterMembership(all, HasQuestions, r[i]);
    }
    r
  }

  /** A category gets a card exactly when it is listed and some question belongs to it. */
  lemma CategoryBreakdownCovers(categories: seq<string>, qs: seq<Question>, c: string)
    ensures (c in categories && exists j :: 0 <= j < |qs| && qs[j].category == c)
            <==> exists i :: 0 <= i < |CategoryBreakdown(categories, qs)| && CategoryBreakdown(categories, qs)[i].category == c
  {
    var all := CategoryEntries(categories, qs);
    var r := CategoryBreakdown(categories, qs);
    if c in categories && exists j :: 0 <= j < |qs| && qs[j].category == c {
      var k :| 0 <= k < |categories| && categories[k] == c;
      FilterMembership(all, HasQuestions, all[k]);
      var i :| 0 <= i < |r| && r[i] == all[k];
    }
    if exists i :: 0 <= i < |r| && r[i].category == c {
      var i :| 0 <= i < |r| && r[i].category == c;
      FilterMembership(all, HasQuestions, r[i]);
      var k :| 0 <= k < |all| && all[k] == r[i];
    }
  }

  // ---------------------------------------------------------------------
  // Recent activity
  // ---------------------------------------------------------------------

  /** `q.lastAttempted` is truthy: present and not the empty string. */
  predicate Attempted(q: Question) {
    q.lastAttempted.Some? && q.lastAttempted.value != ""
  }

  function DateOf(q: Question): string {
    if q.lastAttempted.Some? then q.lastAttempted.value else ""
  }

  /** Latest date first: no later entry is strictly more recent than an earlier one. */
  predicate NewestFirst(s: seq<Question>) {
    forall i, j :: 0 <= i < j < |s| ==> LexLessEq(DateOf(s[j]), DateOf(s[i]))
  }

  /** The entries of `s` dated `d`, in list order. */
  function OnDate(s: seq<Question>, d: string): seq<Question>
    decreases |s|
  {
    if |s| == 0 then [] else (if DateOf(s[0]) == d then [s[0]] else []) + OnDate(s[1..], d)
  }

  /** Unfolds `OnDate` on a list with a given head. */
  lemma OnDateCons(x: Question, s: seq<Question>, d: string)
    ensures OnDate([x] + s, d) == (if DateOf(x) == d then [x] else []) + OnDate(s, d)
  {
    assert ([x] + s)[1..] == s;
  }

  /** Inserts `x` before the first entry that is not more recent than it. */
  function InsertByDate(x: Question, s: seq<Question>): (r: seq<Question>)
    requires NewestFirst(s)
    ensures multiset(r) == multiset(s) + multiset{x}
    ensures |r| == |s| + 1
    ensures NewestFirst(r)
    decreases |s|
  {
    if |s| == 0 then [x]
    else if LexLess(DateOf(x), DateOf(s[0])) then
      var rest := InsertByDate(x, s[1..]);
      assert s == [s[0]] + s[1..];
      InsertAfterHead(x, s, rest);
      [s[0]] + rest
    else
      NotLexLess(DateOf(x), DateOf(s[0]));
      PrependNewest(x, s);
      [x] + s
  }

  /** `x` goes in front of every entry of its own date, and the others keep their order. */
  lemma {:induction false} InsertByDateOnDate(x: Question, s: seq<Question>, d: string)
    requires NewestFirst(s)
    ensures OnDate(InsertByDate(x, s), d) == if DateOf(x) == d then [x] + OnDate(s, d) else OnDate(s, d)
    decreases |s|
  {
    if |s| == 0 {
      OnDateCons(x, [], d);
    } else if LexLess(DateOf(x), DateOf(s[0])) {
      var rest := InsertByDate(x, s[1..]);
      assert s == [s[0]] + s[1..];
      assert InsertByDate(x, s) == [s[0]] + rest;
      InsertByDateOnDate(x, s[1..], d);
      LexLessIrreflexive(DateOf(x));
      OnDateCons(s[0], rest, d);
      OnDateCons(s[0], s[1..], d);
    } else {
      OnDateCons(x, s, d);
    }
  }

  /** The head of a newest-first list is at least as recent as everything after it. */
  lemma PrependNewest(x: Question, s: seq<Question>)
    requires NewestFirst(s) && |s| > 0
    requires LexLessEq(DateOf(s[0]), DateOf(x))
    ensures NewestFirst([x] + s)
  {
    var r := [x] + s;
    forall i, j | 0 <= i < j < |r|
      ensures LexLessEq(DateOf(r[j]), DateOf(r[i]))
    {
      if i == 0 {
        if j > 1 {
          LexLessEqTransitive(DateOf(s[j - 1]), DateOf(s[0]), DateOf(x));
        }
      }
    }
  }

  lemma InsertAfterHead(x: Question, s: seq<Question>, rest: seq<Question>)
    requires NewestFirst(s) && |s| > 0
    requires LexLess(DateOf(x), DateOf(s[0]))
    requires multiset(rest) == multiset(s[1..]) + multiset{x}
    requires NewestFirst(rest)
    ensures NewestFirst([s[0]] + rest)
  {
    var r := [s[0]] + rest;
    forall i, j | 0 <= i < j < |r|
      ensures LexLessEq(DateOf(r[j]), DateOf(r[i]))
    {
      if i == 0 {
        var y := rest[j - 1];
        assert y in multiset(rest);
        if y == x {
        } else {
          assert y in multiset(s[1..]);
          var k :| 0 <= k < |s[1..]| && s[1..][k] == y;
          assert s[k + 1] == y;
        }
      }
    }
  }

  /** A stable sort on `lastAttempted`, most recent first. */
  function SortNewestFirst(s: seq<Question>): (r: seq<Question>)
    ensures multiset(r) == multiset(s)
    ensures |r| == |s|
    ensures NewestFirst(r)
    decreases |s|
  {
    if |s| == 0 then []
    else
      assert s == [s[0]] + s[1..];
      InsertByDate(s[0], SortNewestFirst(s[1..]))
  }

  /** The sort is stable: the entries of each date keep their original order. */
  lemma {:induction false} SortNewestFirstStable(s: seq<Question>, d: string)
    ensures OnDate(SortNewestFirst(s), d) == OnDate(s, d)
    decreases |s|
  {
    if |s| > 0 {
      assert s == [s[0]] + s[1..];
      SortNewestFirstStable(s[1..], d);
      InsertByDateOnDate(s[0], SortNewestFirst(s[1..]), d);
      OnDateCons(s[0], s[1..], d);
    }
  }

  /** Whatever a newest-first list holds beyond its first `n` entries is no more recent than they are. */
  lemma BeyondPrefix(sorted: seq<Question>, n: nat, q: Question)
    requires NewestFirst(sorted) && n <= |sorted|
    requires q in sorted && q !in sorted[..n]
    ensures forall i :: 0 <= i < n ==> LexLessEq(DateOf(q), DateOf(sorted[i]))
  {
    assert sorted == sorted[..n] + sorted[n..];
    assert q in sorted[n..];
    var j :| 0 <= j < |sorted[n..]| && sorted[n..][j] == q;
    assert sorted[n + j] == q;
  }

  /**
   * The "Recent Activity" card: attempted questions, most recent first, at
   * most three. Every attempted question left out is no more recent than any
   * question shown.
   */
  function RecentActivity(qs: seq<Question>): (r: seq<Question>)
    ensures |r| == if Count(qs, Attempted) < 3 then Count(qs, Attempted) else 3
    ensures forall i :: 0 <= i < |r| ==> Attempted(r[i]) && r[i] in qs
    ensures NewestFirst(r)
    ensures forall i, q :: 0 <= i < |r| && q in qs && Attempted(q) && q !in r
                           ==> LexLessEq(DateOf(q), DateOf(r[i]))
    ensures multiset(r) <= multiset(Filter(qs, Attempted))
    ensures r == SortNewestFirst(Filter(qs, Attempted))[..|r|]
  {
    var sorted := SortNewestFirst(Filter(qs, Attempted));
    var n := if |sorted| < 3 then |sorted| else 3;
    RecentPrefix(qs, sorted, n);
    PrefixKeepsOrder(sorted, n);
    PrefixMultiset(sorted, n);
    sorted[..n]
  }

  /** A prefix of a newest-first list is newest first. */
  lemma PrefixKeepsOrder(sorted: seq<Question>, n: nat)
    requires NewestFirst(sorted) && n <= |sorted|
    ensures NewestFirst(sorted[..n])
  {
    assert forall i :: 0 <= i < n ==> sorted[..n][i] == sorted[i];
  }

  /** A prefix holds no entry more often than the whole list. */
  lemma PrefixMultiset(s: seq<Question>, n: nat)
    requires n <= |s|
    ensures multiset(s[..n]) <= multiset(s)
  {
    assert s == s[..n] + s[n..];
  }

  lemma RecentPrefix(qs: seq<Question>, sorted: seq<Question>, n: nat)
    requires multiset(sorted) == multiset(Filter(qs, Attempted)) && NewestFirst(sorted)
    requires n <= |sorted|
    ensures forall i :: 0 <= i < n ==> Attempted(sorted[..n][i]) && sorted[..n][i] in qs
    ensures forall i, q :: 0 <= i < n && q in qs && Attempted(q) && q !in sorted[..n]
                           ==> LexLessEq(DateOf(q), DateOf(sorted[..n][i]))
  {
    var r := sorted[..n];
    forall i | 0 <= i < n
      ensures Attempted(r[i]) && r[i] in qs
    {
      assert r[i] == sorted[i];
      assert sorted[i] in multiset(sorted);
      FilterMembership(qs, Attempted, r[i]);
    }
    forall q | q in qs && Attempted(q) && q !in r
      ensures forall i :: 0 <= i < n ==> LexLessEq(DateOf(q), DateOf(r[i]))
    {
      FilterMembership(qs, Attempted, q);
      assert q in multiset(sorted);
      BeyondPrefix(sorted, n, q);
    }
  }
}

=== FILE: register.dfy ===
/**
 * The registration wizard: a three-step machine (role, plan, details) in
 * which interviewers skip the plan step, the form defaults taken from the
 * URL query, the effect that applies `?plan=` and `?role=`, and the form
 * schema checked on submit.
 */
module Register {
  import opened Common
  import opened Tiers

  datatype Step = RoleStep | PlanStep | DetailsStep

  datatype Role = Student | Interviewer

  function RoleId(r: Role): string {
    match r
    case Student => "student"
    case Interviewer => "interviewer"
  }

  function ParseRole(s: string): (r: Option<Role>)
    ensures r.Some? <==> s == "student" || s == "interviewer"
    ensures r.Some? ==> RoleId(r.value) == s
  {
    if s == "student" then Some(Student)
    else if s == "interviewer" then Some(Interviewer)
    else None
  }

  /**
   * The form values. `role` and `plan` hold whatever string the URL supplied
   * (the page only casts them); `plan` is `undefined` (`None`) when unset.
   */
  datatype Form = Form(name: string, email: string, password: string, role: string, plan: Option<string>)

  /** `URLSearchParams.get`: `None` when the parameter is absent. */
  datatype Query = Query(role: Option<string>, plan: Option<string>)

  /** `params.get(key) || fallback`: an absent or empty parameter gives the fallback. */
  function ParamOr(v: Option<string>, fallback: string): (r: string)
    ensures v.Some? && v.value != "" ==> r == v.value
    ensures v.None? || v.value == "" ==> r == fallback
  {
    if v.Some? && v.value != "" then v.value else fallback
  }

  /** The form's `defaultValues`: the plan default applies to students only. */
  function DefaultForm(q: Query): (f: Form)
    ensures f.name == "" && f.email == "" && f.password == ""
    ensures f.role == ParamOr(q.role, "student")
    ensures f.role == "student" ==> f.plan == Some(ParamOr(q.plan, "professional"))
    ensures f.role != "student" ==> f.plan.None?
  {
    var role := ParamOr(q.role, "student");
    Form("", "", "", role, if role == "student" then Some(ParamOr(q.plan, "professional")) else None)
  }

  /** The URL effect: a non-empty `plan` sets the plan and jumps to details; a non-empty `role` sets the role. */
  function ApplyQuery(f: Form, step: Step, q: Query): (r: (Form, Step))
    ensures q.plan.Some? && q.plan.value != "" ==> r.0.plan == q.plan && r.1 == DetailsStep
    ensures !(q.plan.Some? && q.plan.value != "") ==> r.0.plan == f.plan && r.1 == step
    ensures q.role.Some? && q.role.value != "" ==> r.0.role == q.role.value
    ensures !(q.role.Some? && q.role.value != "") ==> r.0.role == f.role
    ensures r.0.name == f.name && r.0.email == f.email && r.0.password == f.password
  {
    var (f1, s1) := if q.plan.Some? && q.plan.value != "" then (f.(plan := q.plan), DetailsStep) else (f, step);
    var f2 := if q.role.Some? && q.role.value != "" then f1.(role := q.role.value) else f1;
    (f2, s1)
  }

  /** The wizard as first shown: defaults from the query, then the effect. */
  function Opened(q: Query): (r: (Form, Step))
    ensures r.0.role == ParamOr(q.role, "student")
  {
    ApplyQuery(DefaultForm(q), RoleStep, q)
  }

  // ---------------------------------------------------------------------
  // Steps
  // ---------------------------------------------------------------------

  /** `handleNextStep`, given the role the form currently holds. */
  function NextStep(step: Step, role: string): (r: Step)
    ensures step == RoleStep ==> r == (if role == "student" then PlanStep else DetailsStep)
    ensures step != RoleStep ==> r == DetailsStep
  {
    match step
    case RoleStep => if role == "student" then PlanStep else DetailsStep
    case PlanStep => DetailsStep
    case DetailsStep => step
  }

  /** `handlePreviousStep`. */
  function PreviousStep(step: Step): (r: Step)
    ensures step == DetailsStep ==> r == PlanStep
    ensures step != DetailsStep ==> r == RoleStep
  {
    match step
    case DetailsStep => PlanStep
    case PlanStep => RoleStep
    case RoleStep => step
  }

  /** Position of a step in the wizard. */
  function Rank(s: Step): nat {
    match s
    case RoleStep => 0
    case PlanStep => 1
    case DetailsStep => 2
  }

  /** Next never moves back and Previous never moves forward; each stays put only at its end. */
  lemma StepsMonotone(s: Step, role: string)
    ensures Rank(NextStep(s, role)) >= Rank(s)
    ensures Rank(NextStep(s, role)) == Rank(s) <==> s == DetailsStep
    ensures Rank(PreviousStep(s)) <= Rank(s)
    ensures Rank(PreviousStep(s)) == Rank(s) <==> s == RoleStep
  {
  }

  /**
   * An interviewer goes from role straight to details, but Previous from
   * details leads to the plan step the interviewer never saw.
   */
  lemma InterviewerBackToPlan()
    ensures NextStep(RoleStep, "interviewer") == DetailsStep
    ensures PreviousStep(NextStep(RoleStep, "interviewer")) == PlanStep
  {
  }

  /** For a student, Previous undoes each Next taken before the last step. */
  lemma StudentStepsUndo(s: Step)
    requires s != DetailsStep
    ensures PreviousStep(NextStep(s, "student")) == s
  {
  }

  // ---------------------------------------------------------------------
  // Schema
  // ---------------------------------------------------------------------

  datatype Field = NameField | EmailField | PasswordField | RoleField | PlanField

  /** A form that passed the schema. */
  datatype Registration = Registration(name: string, email: string, password: string, role: Role, plan: Plan)

  datatype Outcome = Accepted(reg: Registration) | Rejected(errors: set<Field>)

  /** The fields the schema rejects; the email check is the validation library's and enters as `emailOk`. */
  function Errors(f: Form, emailOk: bool): (e: set<Field>)
    ensures NameField in e <==> |f.name| < 2
    ensures EmailField in e <==> !emailOk
    ensures PasswordField in e <==> |f.password| < 8
    ensures RoleField in e <==> ParseRole(f.role).None?
    ensures PlanField in e <==> f.plan.None? || ParsePlan(f.plan.value).None?
  {
    (if |f.name| < 2 then {NameField} else {})
    + (if !emailOk then {EmailField} else {})
    + (if |f.password| < 8 then {PasswordField} else {})
    + (if ParseRole(f.role).None? then {RoleField} else {})
    + (if f.plan.None? || ParsePlan(f.plan.value).None? then {PlanField} else {})
  }

  /** Submitting: the typed registration when no field is rejected, the rejected fields otherwise. */
  function Validate(f: Form, emailOk: bool): (r: Outcome)
    ensures r.Accepted? <==>
              |f.name| >= 2 && emailOk && |f.password| >= 8
              && (f.role == "student" || f.role == "interviewer")
              && f.plan.Some? && f.plan.value in ["free", "basic", "professional", "enterprise"]
    ensures r.Accepted? ==>
              r.reg.name == f.name && r.reg.email == f.email && r.reg.password == f.password
              && RoleId(r.reg.role) == f.role && Some(PlanId(r.reg.plan)) == f.plan
    ensures r.Rejected? ==> r.errors == Errors(f, emailOk) && r.errors != {}
  {
    var e := Errors(f, emailOk);
    ParsePlanIff(if f.plan.Some? then f.plan.value else "");
    if e == {} then
      Accepted(Registration(f.name, f.email, f.password, ParseRole(f.role).value, ParsePlan(f.plan.value).value))
    else
      assert NameField in e || EmailField in e || PasswordField in e || RoleField in e || PlanField in e by {
        var x :| x in e;
      }
      Rejected(e)
  }

  /**
   * An interviewer arriving without a `plan` parameter has no plan, and the
   * schema requires one: whatever else is typed in, submitting is rejected
   * on the plan field.
   */
  lemma InterviewerWithoutPlanRejected(name: string, email: string, password: string, emailOk: bool)
    ensures var q := Query(Some("interviewer"), None);
      var f := Opened(q).0.(name := name, email := email, password := password);
      Validate(f, emailOk).Rejected? && PlanField in Validate(f, emailOk).errors
  {
  }

  /** `?plan=enterprise&role=interviewer` opens on details with both values set, and a proper form is accepted. */
  lemma EnterpriseInterviewerLink(name: string, email: string, password: string)
    requires |name| >= 2 && |password| >= 8
    ensures var q := Query(Some("interviewer"), Some("enterprise"));
      var (f, step) := Opened(q);
      step == DetailsStep && f.role == "interviewer" && f.plan == Some("enterprise")
      && Validate(f.(name := name, email := email, password := password), true)
         == Accepted(Registration(name, email, password, Interviewer, Enterprise))
  {
  }

  /** With no query at all the wizard opens on the role step, as a student on the professional plan. */
  lemma PlainLink()
    ensures Opened(Query(None, None)) == (Form("", "", "", "student", Some("professional")), RoleStep)
  {
  }
}

=== FILE: student_dashboard.dfy ===
/**
 * The student dashboard: the interviewer search with its empty state, the
 * status badge of an upcoming interview, the star row of a past interview's
 * overall score and the day labels of the seven-day progress chart.
 */
module StudentDashboard {
  import opened Common
  import opened Text
  import CompanyInterviews

  type Interviewer = CompanyInterviews.Interviewer

  /** The dashboard's search looks at name, company, role and specialization, ignoring case. */
  predicate Matches(iv: Interviewer, search: string) {
    MatchesIgnoringCase(iv.name, search)
    || MatchesIgnoringCase(iv.company, search)
    || MatchesIgnoringCase(iv.role, search)
    || MatchesIgnoringCase(iv.specialization, search)
  }

  /** `filteredInterviewers`. */
  function FilteredInterviewers(ivs: seq<Interviewer>, search: string): (r: seq<Interviewer>)
    ensures SubseqOf(r, ivs)
    ensures forall iv :: iv in r <==> iv in ivs && Matches(iv, search)
    ensures forall iv :: multiset(r)[iv] == if Matches(iv, search) then multiset(ivs)[iv] else 0
  {
    var p := (iv: Interviewer) => Matches(iv, search);
    var r := Filter(ivs, p);
    assert forall iv :: iv in r <==> iv in ivs && Matches(iv, search) by {
      forall iv: Interviewer {
        FilterMembership(ivs, p, iv);
      }
    }
    assert forall iv :: multiset(r)[iv] == if Matches(iv, search) then multiset(ivs)[iv] else 0 by {
      forall iv: Interviewer {
        FilterMultiset(ivs, p, iv);
      }
    }
    r
  }

  /** An empty search lists every interviewer in order. */
  lemma EmptySearchAll(ivs: seq<Interviewer>)
    ensures FilteredInterviewers(ivs, "") == ivs
  {
    forall i | 0 <= i < |ivs|
      ensures Matches(ivs[i], "")
    {
      IncludesEmpty(ToLower(ivs[i].name));
    }
    FilterAll(ivs, (iv: Interviewer) => Matches(iv, ""));
  }

  /** Whether "No interviewers found" is shown. */
  predicate ShowsEmptyState(ivs: seq<Interviewer>, search: string) {
    |FilteredInterviewers(ivs, search)| == 0
  }

  /** The empty state appears exactly when no interviewer matches the search. */
  lemma EmptyStateIff(ivs: seq<Interviewer>, search: string)
    ensures ShowsEmptyState(ivs, search) <==> forall i :: 0 <= i < |ivs| ==> !Matches(ivs[i], search)
  {
    FilterEmptyIff(ivs, (iv: Interviewer) => Matches(iv, search));
  }

  /** Unlike the company-interviews page, a search here also finds interviewers by role. */
  lemma SearchFindsRole(iv: Interviewer)
    ensures Matches(iv, iv.role)
  {
    IncludesSelf(ToLower(iv.role));
  }

  // ---------------------------------------------------------------------
  // Badges and charts
  // ---------------------------------------------------------------------

  /** The status badge of an upcoming interview. */
  function StatusBadge(status: string): (text: string)
    ensures text == "Confirmed" <==> status == "confirmed"
    ensures text == "Pending" <==> status != "confirmed"
  {
    if status == "confirmed" then "Confirmed" else "Pending"
  }

  /** Star `k` of the five-star row is filled when `k <= overallScore`. */
  predicate StarFilled(k: nat, score: real) {
    k as real <= score
  }

  const StarNumbers: seq<nat> := [1, 2, 3, 4, 5]

  /** How many of the five stars are filled. */
  function FilledStars(score: real): (n: nat)
    ensures n <= 5
  {
    Count(StarNumbers, (k: nat) => StarFilled(k, score))
  }

  /** The filled stars are the whole part of the score, kept within 0 to 5: 4.8 fills four. */
  lemma FilledStarsIsFloor(score: real)
    ensures FilledStars(score) == if score < 1.0 then 0 else if score >= 5.0 then 5 else score.Floor
  {
    var p := (k: nat) => StarFilled(k, score);
    var s := StarNumbers;
    CountCons(s, p);
    CountCons(s[1..], p);
    CountCons(s[2..], p);
    CountCons(s[3..], p);
    CountCons(s[4..], p);
    assert s[1..][1..] == s[2..] && s[2..][1..] == s[3..] && s[3..][1..] == s[4..];
    assert s[4..][1..] == [];
  }

  /** The star rows of the two past interviews on the page. */
  lemma PastInterviewStars()
    ensures FilledStars(4.0) == 4 && FilledStars(4.8) == 4
  {
    FilledStarsIsFloor(4.0);
    FilledStarsIsFloor(4.8);
  }

  /** The label under bar `index` of the "Recent Progress" chart. */
  function DayLabel(index: nat): (text: string)
    ensures index == 0 <==> text == "7d"
    ensures index == 6 <==> text == "Today"
    ensures index != 0 && index != 6 <==> text == ""
  {
    if index == 0 then "7d" else if index == 6 then "Today" else ""
  }
}

=== FILE: subscription.dfy ===
/**
 * The subscription page: the plan table with a monthly and a quarterly
 * offer per plan, the billing-cycle tabs, plan selection, the savings
 * banner, the "Not included" list and the checkout summary.
 *
 * The table keeps its figures as numbers; `FormatRupees` prints a price the
 * way the cards do ("₹1,350") and `ParseRupees` reads it back.
 */
module Subscription {
  import opened Common
  import opened Text
  import opened Tiers

  datatype Cycle = Monthly | Quarterly

  function CycleId(c: Cycle): (r: string)
    ensures r == "monthly" <==> c == Monthly
  {
    match c
    case Monthly => "monthly"
    case Quarterly => "quarterly"
  }

  /** What the savings line of an offer says. */
  datatype Savings = AlwaysFree | NoSavings | Save(amount: nat)

  /**
   * One billing option of a plan: its price in rupees, how many months it
   * runs (0 for the free plan's "Unlimited"), how many interviews it holds
   * and of which kind, and its savings line.
   */
  datatype Offer = Offer(price: nat, months: nat, interviews: nat, kind: string, savings: Savings)

  datatype ButtonVariant = DefaultButton | OutlineButton

  /** A plan's card: its name, both offers, how many "Not included" entries it lists, its button style and ribbon. */
  datatype PlanCard = PlanCard(
    name: string, monthly: Offer, quarterly: Offer,
    notIncluded: nat, buttonVariant: ButtonVariant, recommended: bool)

  const MockInterviews: string := "mock interviews"
  const CompanyInterviews: string := "company-specific interviews"
  const FreeInterviews: string := "AI mock interview per month"

  const FreeCard: PlanCard := PlanCard(
    "Free Plan",
    Offer(0, 0, 1, FreeInterviews, AlwaysFree),
    Offer(0, 0, 1, FreeInterviews, AlwaysFree),
    3, OutlineButton, false)

  const BasicCard: PlanCard := PlanCard(
    "Basic Plan",
    Offer(500, 1, 2, MockInterviews, NoSavings),
    Offer(1350, 3, 6, MockInterviews, Save(150)),
    3, OutlineButton, false)

  const ProfessionalCard: PlanCard := PlanCard(
    "Professional Plan",
    Offer(2000, 1, 5, MockInterviews, NoSavings),
    Offer(5000, 3, 15, MockInterviews, Save(1000)),
    2, DefaultButton, true)

  const EnterpriseCard: PlanCard := PlanCard(
    "Enterprise Plan",
    Offer(5000, 1, 5, CompanyInterviews, NoSavings),
    Offer(12000, 3, 15, CompanyInterviews, Save(3000)),
    0, OutlineButton, false)

  /** `plans[planKey]`. */
  function Card(p: Plan): PlanCard {
    match p
    case Free => FreeCard
    case Basic => BasicCard
    case Professional => ProfessionalCard
    case Enterprise => EnterpriseCard
  }

  /** The cards in the order `Object.keys(plans)` lists them. */
  const CardOrder: seq<Plan> := [Free, Basic, Professional, Enterprise]

  function OfferFor(p: Plan, c: Cycle): Offer {
    match c
    case Monthly => Card(p).monthly
    case Quarterly => Card(p).quarterly
  }

  // ---------------------------------------------------------------------
  // Printed prices
  // ---------------------------------------------------------------------

  /** Digits with a comma before every complete group of three from the right. */
  function GroupThousands(d: string): (r: string)
    ensures |r| >= |d|
    decreases |d|
  {
    if |d| <= 3 then d else GroupThousands(d[..|d| - 3]) + "," + d[|d| - 3..]
  }

  /** A price as the cards print it: `₹` and the grouped digits. */
  function FormatRupees(n: nat): (r: string)
    ensures |r| >= 2 && r[0] == '₹'
    ensures DropCommas(r[1..]) == NatToString(n)
    ensures ParseRupees(r) == Some(n)
  {
    GroupedReadsBack(n);
    "₹" + GroupThousands(NatToString(n))
  }

  /** The printed text without its thousands separators. */
  function DropCommas(s: string): (r: string)
    ensures |r| <= |s|
    decreases |s|
  {
    if |s| == 0 then "" else (if s[0] == ',' then "" else [s[0]]) + DropCommas(s[1..])
  }

  /** A rupee amount: `₹`, then digits with optional commas. */
  function ParseRupees(s: string): Option<nat> {
    if |s| < 2 || s[0] != '₹' then None
    else
      var digits := DropCommas(s[1..]);
      if |digits| > 0 && AllDigits(digits) then Some(ParseDigits(digits)) else None
  }

  lemma {:induction false} DropCommasConcat(a: string, b: string)
    ensures DropCommas(a + b) == DropCommas(a) + DropCommas(b)
    decreases |a|
  {
    if |a| == 0 {
      assert a + b == b;
    } else {
      assert (a + b)[1..] == a[1..] + b;
      DropCommasConcat(a[1..], b);
    }
  }

  lemma {:induction false} DropCommasNone(s: string)
    requires AllDigits(s)
    ensures DropCommas(s) == s
    decreases |s|
  {
    if |s| > 0 {
      DropCommasNone(s[1..]);
      assert s == [s[0]] + s[1..];
    }
  }

  /** Grouping only inserts separators: dropping them gives the digits back. */
  lemma {:induction false} UngroupThousands(d: string)
    requires AllDigits(d)
    ensures DropCommas(GroupThousands(d)) == d
    decreases |d|
  {
    if |d| <= 3 {
      DropCommasNone(d);
    } else {
      var hi, lo := d[..|d| - 3], d[|d| - 3..];
      var g := GroupThousands(hi);
      assert GroupThousands(d) == (g + ",") + lo;
      UngroupThousands(hi);
      DropCommasConcat(g + ",", lo);
      DropCommasConcat(g, ",");
      assert DropCommas(",") == "";
      DropCommasNone(lo);
      assert DropCommas(g + ",") == hi;
      assert hi + lo == d;
    }
  }

  /** The rupee sign and the grouped digits of `n` read back as `n`. */
  lemma GroupedReadsBack(n: nat)
    ensures var s := "₹" + GroupThousands(NatToString(n));
      |s| >= 2 && s[0] == '₹' && DropCommas(s[1..]) == NatToString(n) && ParseRupees(s) == Some(n)
  {
    var d := NatToString(n);
    var s := "₹" + GroupThousands(d);
    assert s[1..] == GroupThousands(d);
    UngroupThousands(d);
    ParseNatToString(n);
  }

  /** Every printed price reads back as the amount it was printed from. */
  lemma PriceRoundTrip(n: nat)
    ensures ParseRupees(FormatRupees(n)) == Some(n)
  {
  }

  /** An amount whose decimal digits group to the given text prints as that text. */
  lemma PrintsAs(n: nat, digits: string, text: string)
    requires NatToString(n) == digits && "₹" + GroupThousands(digits) == text
    ensures FormatRupees(n) == text
  {
  }

  /** The basic plan's printed prices and the free plan's. */
  lemma PrintedBasicPrices()
    ensures FormatRupees(0) == "₹0" && FormatRupees(500) == "₹500"
    ensures FormatRupees(1350) == "₹1,350"
  {
    FreeAndBasicMonthlyPrinted();
    BasicQuarterlyPrinted();
  }

  lemma FreeAndBasicMonthlyPrinted()
    ensures FormatRupees(0) == "₹0" && FormatRupees(500) == "₹500"
  {
    PrintsAs(0, "0", "₹0");
    PrintsAs(500, "500", "₹500");
  }

  lemma BasicQuarterlyPrinted()
    ensures FormatRupees(1350) == "₹1,350"
  {
    PrintsAs(1350, "1350", "₹1,350");
  }

  /** The professional plan's printed prices; ₹5,000 is also the enterprise monthly price. */
  lemma PrintedProfessionalPrices()
    ensures FormatRupees(2000) == "₹2,000" && FormatRupees(5000) == "₹5,000"
  {
    ProfessionalMonthlyPrinted();
    ProfessionalQuarterlyPrinted();
  }

  lemma ProfessionalMonthlyPrinted()
    ensures FormatRupees(2000) == "₹2,000"
  {
    PrintsAs(2000, "2000", "₹2,000");
  }

  lemma ProfessionalQuarterlyPrinted()
    ensures FormatRupees(5000) == "₹5,000"
  {
    PrintsAs(5000, "5000", "₹5,000");
  }

  /** The enterprise plan's quarterly price. */
  lemma PrintedEnterprisePrice()
    ensures FormatRupees(12000) == "₹12,000"
  {
    PrintsAs(12000, "12000", "₹12,000");
  }

  /** The savings line of an offer. */
  function SavingsText(s: Savings): (r: string)
    ensures r != ""
  {
    match s
    case AlwaysFree => "Always Free"
    case NoSavings => "No savings"
    case Save(k) => "Save " + FormatRupees(k)
  }

  /** The amount a "Save ₹..." line promises. */
  function SavedAmount(text: string): (r: Option<nat>) {
    if |text| >= 5 && text[..5] == "Save " then ParseRupees(text[5..]) else None
  }

  /** A savings line names an amount exactly when it is a saving, and then the amount saved. */
  lemma SavingsRoundTrip(s: Savings)
    ensures SavedAmount(SavingsText(s)) == if s.Save? then Some(s.amount) else None
  {
    if s.Save? {
      assert SavingsText(s)[5..] == FormatRupees(s.amount);
      PriceRoundTrip(s.amount);
    }
  }

  /** The interviews line of an offer: "6 mock interviews". */
  function InterviewsText(o: Offer): (r: string)
    ensures |r| > |o.kind|
  {
    NatToString(o.interviews) + " " + o.kind
  }

  /** The count an interviews line starts with. */
  function LeadingCount(s: string): (r: Option<nat>) {
    var n := DigitRun(s);
    if n == 0 then None else Some(ParseDigits(s[..n]))
  }

  /** The length of the run of digits a text starts with. */
  function DigitRun(s: string): (n: nat)
    ensures n <= |s| && AllDigits(s[..n])
    ensures n < |s| ==> !IsDigit(s[n])
    decreases |s|
  {
    if |s| == 0 || !IsDigit(s[0]) then 0
    else
      var k := DigitRun(s[1..]);
      assert s[..k + 1] == [s[0]] + s[1..][..k];
      k + 1
  }

  lemma DigitRunPrefix(s: string, n: nat)
    requires n < |s| && AllDigits(s[..n]) && !IsDigit(s[n])
    ensures DigitRun(s) == n
  {
    var k := DigitRun(s);
    assert forall i :: 0 <= i < n ==> s[..n][i] == s[i];
  }

  /** An interviews line reads back as the offer's count. */
  lemma InterviewsRoundTrip(o: Offer)
    ensures LeadingCount(InterviewsText(o)) == Some(o.interviews)
  {
    var d := NatToString(o.interviews);
    var t := InterviewsText(o);
    assert t[..|d|] == d;
    assert t[|d|] == ' ';
    DigitRunPrefix(t, |d|);
    ParseNatToString(o.interviews);
  }

  // ---------------------------------------------------------------------
  // The table's promises
  // ---------------------------------------------------------------------

  /** The quarterly saving is three monthly payments less the quarterly price. */
  predicate SavingAddsUp(card: PlanCard) {
    card.quarterly.savings.Save?
    && card.quarterly.savings.amount == 3 * card.monthly.price - card.quarterly.price
  }

  /**
   * Every paid plan's quarterly offer runs three months, holds three times the
   * monthly interviews, and saves what its banner says; the free plan's two offers are the same free one.
   */
  lemma QuarterlyOffersAddUp(p: Plan)
    ensures p != Free ==> SavingAddsUp(Card(p))
    ensures p != Free ==> Card(p).quarterly.months == 3 * Card(p).monthly.months
    ensures p != Free ==> Card(p).quarterly.interviews == 3 * Card(p).monthly.interviews
    ensures p == Free ==> OfferFor(p, Monthly) == OfferFor(p, Quarterly) && OfferFor(p, Monthly).price == 0
  {
  }

  /** The saving a card's quarterly banner names, read back from its text. */
  function BannerSaving(p: Plan): (r: Option<nat>)
    ensures p != Free ==> r == Some(3 * Card(p).monthly.price - Card(p).quarterly.price)
    ensures p == Free ==> r.None?
  {
    SavingsRoundTrip(Card(p).quarterly.savings);
    SavedAmount(SavingsText(Card(p).quarterly.savings))
  }

  /**
   * The "Save up to 20%" badge: no plan saves more than a fifth of three
   * monthly payments, and only enterprise saves exactly that.
   */
  lemma SaveUpToTwentyPercent(p: Plan)
    requires p != Free
    ensures var s := BannerSaving(p).value;
      5 * s <= 3 * Card(p).monthly.price && (5 * s == 3 * Card(p).monthly.price <==> p == Enterprise)
  {
  }

  /** Exactly one card, professional, carries the "Recommended" ribbon. */
  lemma OneRecommended()
    ensures Count(CardOrder, (p: Plan) => Card(p).recommended) == 1
    ensures forall p :: Card(p).recommended <==> p == Professional
  {
    var f := (p: Plan) => Card(p).recommended;
    CountCons(CardOrder, f);
    CountCons(CardOrder[1..], f);
    CountCons(CardOrder[2..], f);
    CountCons(CardOrder[3..], f);
    assert CardOrder[1..][1..] == CardOrder[2..] && CardOrder[2..][1..] == CardOrder[3..];
    assert CardOrder[3..][1..] == [];
  }

  /** The "Not included" heading and list appear when the list is non-empty. */
  predicate ShowsNotIncluded(p: Plan) {
    Card(p).notIncluded > 0
  }

  /** Only the enterprise card has nothing left out. */
  lemma NotIncludedHiddenOnlyForEnterprise(p: Plan)
    ensures !ShowsNotIncluded(p) <==> p == Enterprise
  {
  }

  // ---------------------------------------------------------------------
  // Page state
  // ---------------------------------------------------------------------

  datatype Page = Page(cycle: Cycle, selected: Plan)

  /** The page opens on the monthly tab with the professional plan chosen. */
  function Initial(): (pg: Page)
    ensures pg.cycle == Monthly && pg.selected == Professional
  {
    Page(Monthly, Professional)
  }

  /** A card's "Select Plan" button: that plan becomes the chosen one; the tab stays. */
  function SelectPlan(pg: Page, p: Plan): (r: Page)
    ensures r.selected == p && r.cycle == pg.cycle
  {
    pg.(selected := p)
  }

  /** The billing tabs: the cycle changes, the chosen plan stays. */
  function SetCycle(pg: Page, c: Cycle): (r: Page)
    ensures r.cycle == c && r.selected == pg.selected
  {
    pg.(cycle := c)
  }

  /** The caption of a card's button. */
  function ButtonLabel(pg: Page, p: Plan): (r: string)
    ensures r == "Selected" <==> pg.selected == p
  {
    if pg.selected == p then "Selected" else "Select Plan"
  }

  /** The button of the chosen card is filled; the others keep their plan's style. */
  function ButtonStyle(pg: Page, p: Plan): (r: ButtonVariant)
    ensures pg.selected == p ==> r == DefaultButton
    ensures pg.selected != p ==> r == Card(p).buttonVariant
    ensures r == DefaultButton <==> pg.selected == p || Card(p).buttonVariant == DefaultButton
  {
    if pg.selected == p then DefaultButton else Card(p).buttonVariant
  }

  predicate ReadsSelected(pg: Page, p: Plan) {
    ButtonLabel(pg, p) == "Selected"
  }

  /** In every state exactly one card reads "Selected", the chosen one. */
  lemma ExactlyOneSelected(pg: Page)
    ensures Count(CardOrder, (p: Plan) => ReadsSelected(pg, p)) == 1
    ensures forall p :: ReadsSelected(pg, p) <==> p == pg.selected
  {
    var f := (p: Plan) => ReadsSelected(pg, p);
    CountCons(CardOrder, f);
    CountCons(CardOrder[1..], f);
    CountCons(CardOrder[2..], f);
    CountCons(CardOrder[3..], f);
    assert CardOrder[1..][1..] == CardOrder[2..] && CardOrder[2..][1..] == CardOrder[3..];
    assert CardOrder[3..][1..] == [];
  }

  /** Selecting is idempotent, and the last selection wins. */
  lemma SelectLastWins(pg: Page, p: Plan, q: Plan)
    ensures SelectPlan(SelectPlan(pg, p), p) == SelectPlan(pg, p)
    ensures SelectPlan(SelectPlan(pg, p), q) == SelectPlan(pg, q)
  {
  }

  /** On opening, only the professional card has a filled button: the recommended plan is the one chosen. */
  lemma InitialButtons()
    ensures forall p :: ButtonStyle(Initial(), p) == DefaultButton <==> p == Professional
  {
  }

  /** The green savings banner of a card: on the quarterly tab, when the offer has savings text. */
  function SavingsBanner(pg: Page, p: Plan): (r: Option<string>)
    ensures r.Some? ==> r.value == SavingsText(Card(p).quarterly.savings)
    ensures r.Some? <==> pg.cycle == Quarterly && SavingsText(Card(p).quarterly.savings) != ""
  {
    var text := SavingsText(OfferFor(p, pg.cycle).savings);
    if pg.cycle == Quarterly && text != "" then Some(text) else None
  }

  /**
   * Every savings line is non-empty, so the banner shows on exactly the
   * quarterly tab, on every card: the free plan's reads "Always Free" and
   * the paid plans' name their saving.
   */
  lemma BannerExactlyOnQuarterly(pg: Page, p: Plan)
    ensures SavingsBanner(pg, p).Some? <==> pg.cycle == Quarterly
    ensures pg.cycle == Quarterly && p == Free ==> SavingsBanner(pg, p) == Some("Always Free")
    ensures pg.cycle == Quarterly && p != Free ==> SavedAmount(SavingsBanner(pg, p).value) == BannerSaving(p)
  {
  }

  /** The checkout line: the chosen plan's name, the cycle, and that plan's printed price for the cycle. */
  datatype Summary = Summary(planName: string, cycle: string, price: string)

  function Checkout(pg: Page): (s: Summary)
    ensures ParseRupees(s.price) == Some(OfferFor(pg.selected, pg.cycle).price)
    ensures s.planName == Card(pg.selected).name
    ensures s.cycle == CycleId(pg.cycle)
  {
    PriceRoundTrip(OfferFor(pg.selected, pg.cycle).price);
    Summary(Card(pg.selected).name, CycleId(pg.cycle), FormatRupees(OfferFor(pg.selected, pg.cycle).price))
  }

  /** After choosing a card and a tab, in either order, the summary quotes the price that card shows on that tab. */
  lemma CheckoutQuotesChosenCard(pg: Page, p: Plan, c: Cycle)
    ensures var r := SetCycle(SelectPlan(pg, p), c);
      Checkout(r).planName == Card(p).name && ParseRupees(Checkout(r).price) == Some(OfferFor(p, c).price)
    ensures Checkout(SetCycle(SelectPlan(pg, p), c)) == Checkout(SelectPlan(SetCycle(pg, c), p))
  {
  }

  /** On opening, the summary quotes the professional plan's monthly ₹2,000. */
  lemma InitialCheckout()
    ensures Checkout(Initial()) == Summary("Professional Plan", "monthly", "₹2,000")
  {
    PrintedProfessionalPrices();
  }
}

=== FILE: text.dfy ===
/**
 * The string operations the pages rely on: `toLowerCase`, `includes`,
 * `trim`, number-to-decimal conversion, `padStart(2, "0")`, the `MM:SS`
 * clock format, and the code-unit ordering used by `sort()` and by
 * ISO-date comparison.
 */
module Text {
  import opened Common

  // ---------------------------------------------------------------------
  // Case folding
  // ---------------------------------------------------------------------

  predicate IsUpperAscii(c: char) {
    'A' <= c <= 'Z'
  }

  /** `toLowerCase` on one character (ASCII letters only). */
  function LowerChar(c: char): (d: char)
    ensures !IsUpperAscii(d)
    ensures IsUpperAscii(c) ==> d as int == c as int + 32
    ensures !IsUpperAscii(c) ==> d == c
  {
    if IsUpperAscii(c) then (c as int + 32) as char else c
  }

  /** `toLowerCase`: same length, every upper-case ASCII letter replaced by its lower-case form. */
  function ToLower(s: string): (r: string)
    ensures |r| == |s|
    ensures forall i :: 0 <= i < |s| ==> r[i] == LowerChar(s[i])
    decreases |s|
  {
    if |s| == 0 then [] else [LowerChar(s[0])] + ToLower(s[1..])
  }

  /** Lower-casing twice is lower-casing once. */
  lemma ToLowerIdempotent(s: string)
    ensures ToLower(ToLower(s)) == ToLower(s)
  {
  }

  // ---------------------------------------------------------------------
  // Substring search
  // ---------------------------------------------------------------------

  /** `sub` occurs in `s` starting at position `i`. */
  ghost predicate OccursAt(s: string, sub: string, i: int) {
    0 <= i && i + |sub| <= |s| && s[i..i + |sub|] == sub
  }

  /** `s.includes(sub)`: some window of `s` equals `sub`. */
  function Includes(s: string, sub: string): (b: bool)
    ensures b <==> exists i :: OccursAt(s, sub, i)
    decreases |s|
  {
    if sub <= s then
      assert OccursAt(s, sub, 0);
      true
    else if |s| == 0 then
      false
    else
      var rest := Includes(s[1..], sub);
      IncludesStep(s, sub, rest);
      rest
  }

  /** An occurrence in a non-empty string that is not at the front is an occurrence in its tail. */
  lemma IncludesStep(s: string, sub: string, rest: bool)
    requires |s| > 0 && !(sub <= s)
    requires rest <==> exists i :: OccursAt(s[1..], sub, i)
    ensures rest <==> exists i :: OccursAt(s, sub, i)
  {
    forall i | OccursAt(s, sub, i)
      ensures OccursAt(s[1..], sub, i - 1)
    {
      assert i == 0 ==> sub <= s;
      assert s[1..][i - 1..i - 1 + |sub|] == s[i..i + |sub|];
    }
    forall i | OccursAt(s[1..], sub, i)
      ensures OccursAt(s, sub, i + 1)
    {
      assert s[i + 1..i + 1 + |sub|] == s[1..][i..i + |sub|];
    }
  }

  /** Every string includes the empty string, so an empty search keeps everything. */
  lemma IncludesEmpty(s: string)
    ensures Includes(s, "")
  {
    assert OccursAt(s, "", 0);
  }

  /** A string includes itself. */
  lemma IncludesSelf(s: string)
    ensures Includes(s, s)
  {
    assert OccursAt(s, s, 0);
  }

  /** A search text longer than the searched string never matches. */
  lemma IncludesTooLong(s: string, sub: string)
    requires |sub| > |s|
    ensures !Includes(s, sub)
  {
  }

  /** A string includes what it ends with. */
  lemma IncludesEnd(s: string, x: string)
    ensures Includes(s + x, x)
  {
    assert (s + x)[|s|..|s| + |x|] == x;
    assert OccursAt(s + x, x, |s|);
  }

  /** Appending to a string keeps what it already included. */
  lemma IncludesExtend(s: string, y: string, x: string)
    requires Includes(s, x)
    ensures Includes(s + y, x)
  {
    var i :| OccursAt(s, x, i);
    assert (s + y)[i..i + |x|] == s[i..i + |x|];
    assert OccursAt(s + y, x, i);
  }

  /** Case-insensitive containment, `s.toLowerCase().includes(q.toLowerCase())`. */
  predicate MatchesIgnoringCase(s: string, q: string) {
    Includes(ToLower(s), ToLower(q))
  }

  // ---------------------------------------------------------------------
  // Whitespace and trim
  // ---------------------------------------------------------------------

  /**
   * The characters `String.prototype.trim` removes: ECMAScript WhiteSpace
   * (tab, vertical tab, form feed, space, no-break space, byte-order mark and
   * the Unicode space separators) and LineTerminator.
   */
  predicate IsJsSpace(c: char) {
    var n := c as int;
    || n == 0x09 || n == 0x0B || n == 0x0C || n == 0x20 || n == 0xA0 || n == 0xFEFF
    || n == 0x1680 || (0x2000 <= n <= 0x200A) || n == 0x202F || n == 0x205F || n == 0x3000
    || n == 0x0A || n == 0x0D || n == 0x2028 || n == 0x2029
  }

  function TrimStart(s: string): (r: string)
    ensures |r| <= |s| && r == s[|s| - |r|..]
    ensures |r| > 0 ==> !IsJsSpace(r[0])
    ensures forall i :: 0 <= i < |s| - |r| ==> IsJsSpace(s[i])
    decreases |s|
  {
    if |s| > 0 && IsJsSpace(s[0]) then
      var r := TrimStart(s[1..]);
      assert s[1..][|s| - 1 - |r|..] == s[|s| - |r|..];
      r
    else s
  }

  function TrimEnd(s: string): (r: string)
    ensures |r| <= |s| && r == s[..|r|]
    ensures |r| > 0 ==> !IsJsSpace(r[|r| - 1])
    ensures forall i :: |r| <= i < |s| ==> IsJsSpace(s[i])
    decreases |s|
  {
    if |s| > 0 && IsJsSpace(s[|s| - 1]) then TrimEnd(s[..|s| - 1]) else s
  }

  /** `s.trim()`: the input without leading and trailing whitespace. */
  function Trim(s: string): (r: string)
    ensures |r| <= |s|
    ensures |r| > 0 ==> !IsJsSpace(r[0]) && !IsJsSpace(r[|r| - 1])
  {
    TrimEnd(TrimStart(s))
  }

  lemma {:induction false} TrimStartAllSpace(s: string)
    requires forall i :: 0 <= i < |s| ==> IsJsSpace(s[i])
    ensures TrimStart(s) == ""
    decreases |s|
  {
    if |s| > 0 {
      TrimStartAllSpace(s[1..]);
    }
  }

  /** `s.trim() === ""` holds exactly when every character of `s` is whitespace. */
  lemma TrimEmptyIff(s: string)
    ensures Trim(s) == "" <==> forall i :: 0 <= i < |s| ==> IsJsSpace(s[i])
  {
    var a := TrimStart(s);
    if forall i :: 0 <= i < |s| ==> IsJsSpace(s[i]) {
      TrimStartAllSpace(s);
    } else {
      var k :| 0 <= k < |s| && !IsJsSpace(s[k]);
      var j := TrimStartKeeps(s, k);
      TrimEndKeeps(a, j);
    }
  }

  /** A non-space character survives `TrimStart`, at the returned position. */
  lemma TrimStartKeeps(s: string, k: nat) returns (j: nat)
    requires k < |s| && !IsJsSpace(s[k])
    ensures j < |TrimStart(s)| && TrimStart(s)[j] == s[k]
  {
    var a := TrimStart(s);
    j := k - (|s| - |a|);
  }

  /** A non-space character keeps `TrimEnd` from cutting at or before it. */
  lemma TrimEndKeeps(a: string, j: nat)
    requires j < |a| && !IsJsSpace(a[j])
    ensures j < |TrimEnd(a)|
  {
  }

  // ---------------------------------------------------------------------
  // Decimal digits
  // ---------------------------------------------------------------------

  predicate IsDigit(c: char) {
    '0' <= c <= '9'
  }

  function DigitChar(d: nat): (c: char)
    requires d < 10
    ensures IsDigit(c)
    ensures c as int - '0' as int == d
  {
    ('0' as int + d) as char
  }

  function DigitValue(c: char): (d: nat)
    requires IsDigit(c)
    ensures d < 10
    ensures DigitChar(d) == c
  {
    c as int - '0' as int
  }

  predicate AllDigits(s: string) {
    forall i :: 0 <= i < |s| ==> IsDigit(s[i])
  }

  /** `n.toString()` for a non-negative integer: shortest decimal form, no leading zeros. */
  function NatToString(n: nat): (s: string)
    ensures |s| > 0 && AllDigits(s)
    ensures |s| == 1 <==> n < 10
    ensures |s| > 1 ==> s[0] != '0'
    decreases n
  {
    if n < 10 then [DigitChar(n)] else NatToString(n / 10) + [DigitChar(n % 10)]
  }

  /** Reads a string of decimal digits as a number (most significant digit first). */
  function ParseDigits(s: string): nat
    requires AllDigits(s)
    decreases |s|
  {
    if |s| == 0 then 0 else 10 * ParseDigits(s[..|s| - 1]) + DigitValue(s[|s| - 1])
  }

  /** Reading back the decimal form of `n` yields `n`. */
  lemma {:induction false} ParseNatToString(n: nat)
    ensures ParseDigits(NatToString(n)) == n
    decreases n
  {
    if n >= 10 {
      ParseNatToString(n / 10);
      var s := NatToString(n);
      assert s[..|s| - 1] == NatToString(n / 10);
    }
  }

  /** `n.toString()` for any integer: a leading minus sign for negative values. */
  function IntToString(n: int): (s: string)
    ensures n >= 0 ==> s == NatToString(n)
    ensures n < 0 ==> s == "-" + NatToString(-n)
  {
    if n < 0 then "-" + NatToString(-n) else NatToString(n)
  }

  // ---------------------------------------------------------------------
  // Two-digit clock format
  // ---------------------------------------------------------------------

  /** `padStart(2, "0")`: prefix zeros until the string has at least two characters. */
  function PadStart2(s: string): (r: string)
    ensures |r| == if |s| >= 2 then |s| else 2
    ensures r[|r| - |s|..] == s
    ensures forall i :: 0 <= i < |r| - |s| ==> r[i] == '0'
  {
    if |s| >= 2 then s else if |s| == 1 then "0" + s else "00"
  }

  /** Zero-padding a number keeps it a digit string with the same value. */
  lemma PadNatValue(n: nat)
    ensures AllDigits(PadStart2(NatToString(n)))
    ensures ParseDigits(PadStart2(NatToString(n))) == n
  {
    var s := NatToString(n);
    ParseNatToString(n);
    if |s| == 1 {
      var r := PadStart2(s);
      assert r == ['0', s[0]];
      assert r[..1] == ['0'];
    }
  }

  /** Numbers below 100 have at most two decimal digits. */
  lemma ShortNat(n: nat)
    requires n < 100
    ensures |NatToString(n)| <= 2
  {
    if n >= 10 {
      assert NatToString(n) == NatToString(n / 10) + [DigitChar(n % 10)];
    }
  }

  /** Whole minutes and the remaining seconds, each padded to two digits and joined by a colon. */
  function FormatMinSec(total: nat): string {
    PadStart2(NatToString(total / 60)) + ":" + PadStart2(NatToString(total % 60))
  }

  /** Below 100 minutes the clock is exactly five characters, `MM:SS`. */
  lemma FormatMinSecShape(total: nat)
    requires total < 6000
    ensures |FormatMinSec(total)| == 5 && FormatMinSec(total)[2] == ':'
  {
    MinutesBelow100(total);
    TwoPaddedFields(total / 60, total % 60);
  }

  lemma TwoPaddedFields(a: nat, b: nat)
    requires a < 100 && b < 100
    ensures var r := PadStart2(NatToString(a)) + ":" + PadStart2(NatToString(b));
      |r| == 5 && r[2] == ':'
  {
    PadShort(a);
    PadShort(b);
    ColonJoin(PadStart2(NatToString(a)), PadStart2(NatToString(b)));
  }

  lemma ColonJoin(x: string, y: string)
    requires |x| == 2 && |y| == 2
    ensures |x + ":" + y| == 5 && (x + ":" + y)[2] == ':'
  {
  }

  lemma MinutesBelow100(total: nat)
    requires total < 6000
    ensures total / 60 < 100
  {
  }

  lemma PadShort(n: nat)
    requires n < 100
    ensures |PadStart2(NatToString(n))| == 2
  {
    ShortNat(n);
  }

  /** Position of the first occurrence of `c` in `s`. */
  function IndexOf(s: string, c: char): (r: Option<nat>)
    ensures r.None? <==> c !in s
    ensures r.Some? ==> r.value < |s| && s[r.value] == c && c !in s[..r.value]
    decreases |s|
  {
    if |s| == 0 then None
    else if s[0] == c then Some(0)
    else
      var rest := IndexOf(s[1..], c);
      assert s == [s[0]] + s[1..];
      if rest.None? then None
      else
        assert s[..rest.value + 1] == [s[0]] + s[1..][..rest.value];
        Some(rest.value + 1)
  }

  /** In `m + [c] + rest` with no `c` inside `m`, the first `c` is the separator. */
  lemma {:induction false} IndexOfSeparator(m: string, c: char, rest: string)
    requires c !in m
    ensures IndexOf(m + [c] + rest, c) == Some(|m|)
    decreases |m|
  {
    if |m| > 0 {
      IndexOfSeparator(m[1..], c, rest);
      assert (m + [c] + rest)[1..] == m[1..] + [c] + rest;
    }
  }

  /**
   * Reads `MM:SS` back to a number of seconds: any number of digits on each
   * side of the colon, and a seconds field below 60.
   */
  function ParseMinSec(s: string): Option<nat> {
    match IndexOf(s, ':')
    case None => None
    case Some(k) => ReadFields(s[..k], s[k + 1..])
  }

  /** The two fields around the colon: non-empty digit runs, with the seconds below 60. */
  function ReadFields(mins: string, secs: string): Option<nat> {
    if |mins| > 0 && |secs| > 0 && AllDigits(mins) && AllDigits(secs) && ParseDigits(secs) < 60 then
      Some(60 * ParseDigits(mins) + ParseDigits(secs))
    else None
  }

  /**
   * Below 100 minutes the clock shows the whole minutes in its first two
   * characters and the remaining seconds in its last two.
   */
  lemma ClockFields(total: nat)
    requires total < 6000
    ensures var r := FormatMinSec(total);
      |r| == 5 && r[2] == ':' && AllDigits(r[..2]) && AllDigits(r[3..])
      && ParseDigits(r[..2]) == total / 60 && ParseDigits(r[3..]) == total % 60
  {
    var m := PadStart2(NatToString(total / 60));
    var sc := PadStart2(NatToString(total % 60));
    MinutesBelow100(total);
    PadShort(total / 60);
    PadShort(total % 60);
    PadNatValue(total / 60);
    PadNatValue(total % 60);
    SplitClock(m, sc);
  }

  lemma SplitClock(m: string, sc: string)
    requires |m| == 2 && |sc| == 2
    ensures var r := m + ":" + sc;
      |r| == 5 && r[2] == ':' && r[..2] == m && r[3..] == sc
  {
    var r := m + ":" + sc;
    assert r[..2] == m;
    assert r[3..] == sc;
  }

  /** The clock format is read back exactly, for every number of seconds. */
  lemma FormatMinSecRoundTrip(total: nat)
    ensures ParseMinSec(FormatMinSec(total)) == Some(total)
  {
    PaddedFieldsRoundTrip(total / 60, total % 60);
    assert 60 * (total / 60) + total % 60 == total;
  }

  /** Padded minutes and seconds joined by a colon read back as that many seconds. */
  lemma PaddedFieldsRoundTrip(mins: nat, secs: nat)
    requires secs < 60
    ensures ParseMinSec(PadStart2(NatToString(mins)) + ":" + PadStart2(NatToString(secs))) == Some(60 * mins + secs)
  {
    var m, sc := PadStart2(NatToString(mins)), PadStart2(NatToString(secs));
    assert |m| > 0 && AllDigits(m) && ParseDigits(m) == mins && ':' !in m by {
      PadNatValue(mins);
      NoColonInDigits(m);
    }
    assert |sc| > 0 && AllDigits(sc) && ParseDigits(sc) == secs by {
      PadNatValue(secs);
    }
    ParseFields(m, sc, mins, secs);
  }

  /** Two digit fields joined by a colon, seconds below 60, read back as minutes and seconds. */
  lemma ParseFields(m: string, sc: string, mins: nat, secs: nat)
    requires |m| > 0 && |sc| > 0 && AllDigits(m) && AllDigits(sc) && ':' !in m
    requires ParseDigits(m) == mins && ParseDigits(sc) == secs && secs < 60
    ensures ParseMinSec(m + ":" + sc) == Some(60 * mins + secs)
  {
    var s := m + ":" + sc;
    SplitAtSeparator(m, sc);
    ReadAtColon(s, |m|);
    assert s[..|m|] == m && s[|m| + 1..] == sc;
    ReadValidFields(m, sc);
  }

  /** Two non-empty digit fields, seconds below 60, read as that many minutes and seconds. */
  lemma ReadValidFields(m: string, sc: string)
    requires |m| > 0 && |sc| > 0 && AllDigits(m) && AllDigits(sc)
    requires ParseDigits(sc) < 60
    ensures ReadFields(m, sc) == Some(60 * ParseDigits(m) + ParseDigits(sc))
  {
  }

  /** Once the first colon is found, reading the clock is reading the fields around it. */
  lemma ReadAtColon(s: string, k: nat)
    requires IndexOf(s, ':') == Some(k)
    ensures ParseMinSec(s) == ReadFields(s[..k], s[k + 1..])
  {
  }

  lemma NoColonInDigits(m: string)
    requires AllDigits(m)
    ensures ':' !in m
  {
  }

  /** Splitting `m + [c] + rest` at its first `c` gives back `m` and `rest`. */
  lemma SplitAtChar(m: string, c: char, rest: string)
    requires c !in m
    ensures
      var s := m + [c] + rest;
      IndexOf(s, c) == Some(|m|) && s[..|m|] == m && s[|m| + 1..] == rest
  {
    IndexOfSeparator(m, c, rest);
  }

  /** Splitting `m:sc` at its first colon gives back `m` and `sc`. */
  lemma SplitAtSeparator(m: string, sc: string)
    requires ':' !in m
    ensures
      var s := m + ":" + sc;
      IndexOf(s, ':') == Some(|m|) && s[..|m|] == m && s[|m| + 1..] == sc
  {
    IndexOfSeparator(m, ':', sc);
    assert m + ":" + sc == m + [':'] + sc;
  }

  // ---------------------------------------------------------------------
  // Ordering
  // ---------------------------------------------------------------------

  /** Code-unit lexicographic order: `a` sorts strictly before `b`. */
  predicate LexLess(a: string, b: string)
    decreases |a|
  {
    if |b| == 0 then false
    else if |a| == 0 then true
    else if a[0] != b[0] then a[0] < b[0]
    else LexLess(a[1..], b[1..])
  }

  lemma {:induction false} LexLessIrreflexive(a: string)
    ensures !LexLess(a, a)
    decreases |a|
  {
    if |a| > 0 {
      LexLessIrreflexive(a[1..]);
    }
  }

  lemma {:induction false} LexLessTrichotomy(a: string, b: string)
    ensures a == b || LexLess(a, b) || LexLess(b, a)
    decreases |a|
  {
    if |a| > 0 && |b| > 0 && a[0] == b[0] {
      LexLessTrichotomy(a[1..], b[1..]);
      if a[1..] == b[1..] {
        assert a == [a[0]] + a[1..] && b == [b[0]] + b[1..];
      }
    }
  }

  lemma {:induction false} LexLessAsymmetric(a: string, b: string)
    requires LexLess(a, b)
    ensures !LexLess(b, a)
    decreases |a|
  {
    if |a| > 0 && a[0] == b[0] {
      LexLessAsymmetric(a[1..], b[1..]);
    }
  }

  lemma {:induction false} LexLessTransitive(a: string, b: string, c: string)
    requires LexLess(a, b) && LexLess(b, c)
    ensures LexLess(a, c)
    decreases |a|
  {
    if |a| > 0 && a[0] == b[0] && b[0] == c[0] {
      LexLessTransitive(a[1..], b[1..], c[1..]);
    }
  }

  /** Non-strict form: `a` sorts before `b` or equals it. */
  predicate LexLessEq(a: string, b: string) {
    a == b || LexLess(a, b)
  }

  /** Not sorting strictly before is sorting after or equal. */
  lemma NotLexLess(a: string, b: string)
    ensures !LexLess(a, b) <==> LexLessEq(b, a)
  {
    LexLessTrichotomy(a, b);
    if LexLess(b, a) {
      LexLessAsymmetric(b, a);
    }
    if a == b {
      LexLessIrreflexive(a);
    }
  }

  lemma LexLessEqTransitive(a: string, b: string, c: string)
    requires LexLessEq(a, b) && LexLessEq(b, c)
    ensures LexLessEq(a, c)
  {
    if LexLess(a, b) && LexLess(b, c) {
      LexLessTransitive(a, b, c);
    }
  }
}

=== FILE: tiers.dfy ===
/**
 * The subscription plans. Their lower-case ids ("free", "basic",
 * "professional", "enterprise") are what the registration form submits and
 * what the analysis panel and the personal trainer receive as their tier.
 */
module Tiers {
  import opened Common

  datatype Plan = Free | Basic | Professional | Enterprise

  function PlanId(p: Plan): (id: string)
    ensures |id| > 0
  {
    match p
    case Free => "free"
    case Basic => "basic"
    case Professional => "professional"
    case Enterprise => "enterprise"
  }

  /** Reads a plan id; any other string (another spelling, a typo, "") is not a plan. */
  function ParsePlan(s: string): (r: Option<Plan>)
    ensures r.Some? ==> PlanId(r.value) == s
  {
    if s == "free" then Some(Free)
    else if s == "basic" then Some(Basic)
    else if s == "professional" then Some(Professional)
    else if s == "enterprise" then Some(Enterprise)
    else None
  }

  /** Every plan's id reads back as that plan, so distinct plans have distinct ids. */
  lemma ParsePlanId(p: Plan)
    ensures ParsePlan(PlanId(p)) == Some(p)
  {
  }

  /** A string is a plan id exactly when it is one of the four. */
  lemma ParsePlanIff(s: string)
    ensures ParsePlan(s).Some? <==> s in ["free", "basic", "professional", "enterprise"]
  {
  }
}

=== FILE: trainer_chat.dfy ===
/**
 * The personal-trainer chat: the mock reply drawn from the tier's list, the
 * tier-specific greeting that opens the conversation, sending a message
 * (a user message, then exactly one assistant message), and the tier banner
 * and footer around the chat.
 *
 * The tier is the plain string the page works with (it hard-codes "basic").
 * The reply's random draw and whether the reply promise fails are parameters.
 */
module TrainerChat {
  import opened Common
  import opened Text
  import opened Tiers

  datatype Sender = User | Assistant

  datatype Message = Message(sender: Sender, content: string)

  /** The message list, the text box and the waiting indicator. */
  datatype Chat = Chat(messages: seq<Message>, input: string, loading: bool)

  /** The profile the greeting quotes. */
  datatype Profile = Profile(name: string, weakAreas: seq<string>, role: string, company: string)

  /** The page's hard-coded tier and profile. */
  const PageTier: string := "basic"
  const PageProfile: Profile :=
    Profile("Alex Johnson", ["Dynamic Programming", "System Design Scalability", "Concurrency"],
            "Software Engineer", "Google")

  // ---------------------------------------------------------------------
  // Replies
  // ---------------------------------------------------------------------

  /** The canned replies of `mockAIResponse`, one list per plan. */
  datatype ReplyTable = ReplyTable(free: seq<string>, basic: seq<string>, professional: seq<string>, enterprise: seq<string>)

  /** The page's table: three replies per plan. */
  const PageReplies: ReplyTable := ReplyTable(
    [ "I can provide basic guidance on that topic. For more detailed help, consider upgrading your plan.",
      "Here's a simple explanation. Upgrade to get more personalized advice.",
      "That's a common interview question. I can give you general tips, but for company-specific advice, you'll need a higher tier plan." ],
    [ "That's a great question about dynamic programming. Let's break it down step by step...",
      "When it comes to system design scalability, it's important to consider factors like load balancing and caching...",
      "Concurrency can be tricky. Have you looked into concepts like mutex and semaphores?" ],
    [ "Great question! Based on your recent mock interview performance, I'd recommend focusing on these specific aspects of dynamic programming...",
      "For your upcoming Google interview, their system design questions often focus on scalability. Let me provide some company-specific tips...",
      "I've analyzed your code solutions, and I notice you're having trouble with concurrency patterns. Let's work through some examples together..." ],
    [ "Based on your performance and the specific requirements for the Google SWE role you're targeting, here's a customized approach to dynamic programming questions...",
      "I've consulted with our Google interview specialists, and for your upcoming interview, you should prepare for these specific system design scenarios...",
      "Let me provide you with some insider knowledge about how Google evaluates concurrency solutions in their interviews..." ])

  /** Every plan has a reply to pick. */
  predicate ValidTable(t: ReplyTable) {
    |t.free| > 0 && |t.basic| > 0 && |t.professional| > 0 && |t.enterprise| > 0
  }

  lemma PageRepliesValid()
    ensures ValidTable(PageReplies)
    ensures |PageReplies.free| == |PageReplies.basic| == |PageReplies.professional| == |PageReplies.enterprise| == 3
  {
  }

  function PlanResponses(t: ReplyTable, p: Plan): seq<string> {
    match p
    case Free => t.free
    case Basic => t.basic
    case Professional => t.professional
    case Enterprise => t.enterprise
  }

  /** `tierResponses[tier] || tierResponses.basic`: a tier the table lacks gets the basic list. */
  function Responses(t: ReplyTable, tier: string): (r: seq<string>)
    requires ValidTable(t)
    ensures |r| > 0
    ensures ParsePlan(tier).Some? ==> r == PlanResponses(t, ParsePlan(tier).value)
    ensures ParsePlan(tier).None? ==> r == t.basic
  {
    match ParsePlan(tier)
    case Some(p) => PlanResponses(t, p)
    case None => t.basic
  }

  /** `mockAIResponse`: one entry of the tier's list, picked by the draw `roll` in [0, 1). */
  function MockReply(t: ReplyTable, tier: string, roll: real): (r: string)
    requires ValidTable(t) && 0.0 <= roll < 1.0
    ensures r in Responses(t, tier)
  {
    var rs := Responses(t, tier);
    rs[PickIndex(roll, |rs|)]
  }

  /** A tier the table does not know is answered exactly like "basic", draw for draw. */
  lemma UnknownTierRepliesLikeBasic(t: ReplyTable, tier: string, roll: real)
    requires ValidTable(t) && 0.0 <= roll < 1.0
    requires ParsePlan(tier).None?
    ensures MockReply(t, tier, roll) == MockReply(t, "basic", roll)
  {
  }

  /** Each of the tier's replies has a draw that picks it. */
  lemma EveryReplyReachable(t: ReplyTable, tier: string, k: nat)
    requires ValidTable(t) && k < |Responses(t, tier)|
    ensures MockReply(t, tier, k as real / |Responses(t, tier)| as real) == Responses(t, tier)[k]
  {
    PickIndexHits(k, |Responses(t, tier)|);
  }

  // ---------------------------------------------------------------------
  // Greeting
  // ---------------------------------------------------------------------

  /** `parts.join(sep)`. */
  function Join(parts: seq<string>, sep: string): (r: string)
    ensures |parts| == 0 ==> r == ""
    ensures |parts| == 1 ==> r == parts[0]
    decreases |parts|
  {
    if |parts| == 0 then ""
    else if |parts| == 1 then parts[0]
    else Join(parts[..|parts| - 1], sep) + sep + parts[|parts| - 1]
  }

  /** The joined text holds every part and `|parts| - 1` separators. */
  lemma {:induction false} JoinLength(parts: seq<string>, sep: string)
    requires |parts| > 0
    ensures |Join(parts, sep)| == TotalLength(parts) + (|parts| - 1) * |sep|
    decreases |parts|
  {
    if |parts| > 1 {
      var n, init, last := |parts|, parts[..|parts| - 1], parts[|parts| - 1];
      JoinLength(init, sep);
      TotalLengthSnoc(init, last);
      assert init + [last] == parts;
      assert (n - 2) * |sep| + |sep| == (n - 1) * |sep|;
      assert |Join(parts, sep)| == |Join(init, sep)| + |sep| + |last|;
    }
  }

  function TotalLength(parts: seq<string>): nat
    decreases |parts|
  {
    if |parts| == 0 then 0 else |parts[0]| + TotalLength(parts[1..])
  }

  lemma {:induction false} TotalLengthSnoc(parts: seq<string>, x: string)
    ensures TotalLength(parts + [x]) == TotalLength(parts) + |x|
    decreases |parts|
  {
    if |parts| > 0 {
      assert (parts + [x])[1..] == parts[1..] + [x];
      TotalLengthSnoc(parts[1..], x);
    }
  }

  /** `${weakAreas[0]}`: the first weak area, or "undefined" when there is none. */
  function FirstWeakArea(u: Profile): string {
    if |u.weakAreas| > 0 then u.weakAreas[0] else "undefined"
  }

  const Hello: string := "Hello "
  const TrainerIntro: string := "! I'm your personal interview trainer. "
  // Each longer sentence is its fixed opening words joined with the rest of the sentence.
  const GenericSuffix: string := "How can I help " + "with your interview preparation today?"
  const FreeSuffix: string :=
    "I can provide basic guidance " + "on interview preparation. For more personalized assistance, consider upgrading your plan."
  const AreasIntro: string := "I've analyzed your profile " + "and noticed that you have some areas to improve, particularly in "
  const BasicClose: string := ". How can I help you prepare for your upcoming interview?"
  const ProfessionalAsk: string := ". How can I help you prepare for your upcoming "
  const PlanIntro: string := "I've created a personalized " + "preparation plan for your upcoming "
  const InterviewAt: string := " interview at "
  const FocusOn: string := ". Based on your recent mock interviews, we should focus on "
  const StartThere: string := " first. Would you like to start there?"

  function GreetingPrefix(u: Profile): (r: string)
    ensures |r| > |u.name|
  {
    Hello + u.name + TrainerIntro
  }

  /**
   * The tier's sentence after the common opening. A tier the switch does not know
   * gets the generic sentence and free gets the fixed upgrade hint; basic and
   * professional quote the weak areas, professional and enterprise name the target
   * role and company, and enterprise names the first weak area as the place to start.
   */
  function GreetingSuffix(tier: string, u: Profile): (r: string)
    ensures |r| > 0
    ensures ParsePlan(tier).None? ==> r == GenericSuffix
    ensures ParsePlan(tier) == Some(Free) ==> r == FreeSuffix
    ensures ParsePlan(tier) == Some(Basic) || ParsePlan(tier) == Some(Professional) ==>
              Includes(r, Join(u.weakAreas, ", "))
    ensures ParsePlan(tier) == Some(Professional) || ParsePlan(tier) == Some(Enterprise) ==>
              Includes(r, u.role) && Includes(r, u.company)
    ensures ParsePlan(tier) == Some(Enterprise) ==> Includes(r, FirstWeakArea(u))
  {
    var areas := Join(u.weakAreas, ", ");
    match ParsePlan(tier)
    case None => GenericSuffix
    case Some(Free) => FreeSuffix
    case Some(Basic) =>
      IncludesEnd(AreasIntro, areas);
      IncludesExtend(AreasIntro + areas, BasicClose, areas);
      AreasIntro + areas + BasicClose
    case Some(Professional) =>
      ProfessionalCarries(areas, u.role, u.company);
      AreasIntro + areas + ProfessionalAsk + u.role + InterviewAt + u.company + "?"
    case Some(Enterprise) =>
      EnterpriseCarries(u.role, u.company, FirstWeakArea(u));
      PlanIntro + u.role + InterviewAt + u.company + FocusOn + FirstWeakArea(u) + StartThere
  }

  /** The professional sentence quotes the areas and names the role and company. */
  lemma ProfessionalCarries(areas: string, role: string, company: string)
    ensures var r := AreasIntro + areas + ProfessionalAsk + role + InterviewAt + company + "?";
            Includes(r, areas) && Includes(r, role) && Includes(r, company)
  {
    var s1 := AreasIntro + areas;
    var s2 := s1 + ProfessionalAsk + role;
    var s3 := s2 + InterviewAt + company;
    IncludesEnd(AreasIntro, areas);
    IncludesEnd(s1 + ProfessionalAsk, role);
    IncludesEnd(s2 + InterviewAt, company);
    IncludesExtend(s1, ProfessionalAsk, areas);
    IncludesExtend(s1 + ProfessionalAsk, role, areas);
    IncludesExtend(s2, InterviewAt, areas);
    IncludesExtend(s2, InterviewAt, role);
    IncludesExtend(s2 + InterviewAt, company, areas);
    IncludesExtend(s2 + InterviewAt, company, role);
    IncludesExtend(s3, "?", areas);
    IncludesExtend(s3, "?", role);
    IncludesExtend(s3, "?", company);
  }

  /** The enterprise sentence names the role, the company and the first weak area. */
  lemma EnterpriseCarries(role: string, company: string, first: string)
    ensures var r := PlanIntro + role + InterviewAt + company + FocusOn + first + StartThere;
            Includes(r, role) && Includes(r, company) && Includes(r, first)
  {
    var s1 := PlanIntro + role;
    var s2 := s1 + InterviewAt + company;
    var s3 := s2 + FocusOn + first;
    IncludesEnd(PlanIntro, role);
    IncludesEnd(s1 + InterviewAt, company);
    IncludesEnd(s2 + FocusOn, first);
    IncludesExtend(s1, InterviewAt, role);
    IncludesExtend(s1 + InterviewAt, company, role);
    IncludesExtend(s2, FocusOn, role);
    IncludesExtend(s2, FocusOn, company);
    IncludesExtend(s2 + FocusOn, first, role);
    IncludesExtend(s2 + FocusOn, first, company);
    IncludesExtend(s3, StartThere, role);
    IncludesExtend(s3, StartThere, company);
    IncludesExtend(s3, StartThere, first);
  }

  /** The opening assistant message: the greeting by name, then the tier's sentence. */
  function Greeting(tier: string, u: Profile): (r: string)
    ensures |r| > |GreetingPrefix(u)|
    ensures r[..|GreetingPrefix(u)|] == GreetingPrefix(u)
    ensures r[|GreetingPrefix(u)|..] == GreetingSuffix(tier, u)
  {
    GreetingPrefix(u) + GreetingSuffix(tier, u)
  }

  /** The first six characters of each tier's sentence. */
  function Opening(p: Option<Plan>): (o: string)
    ensures |o| == 6
  {
    match p
    case None => "How ca"
    case Some(Free) => "I can "
    case Some(Basic) | Some(Professional) => "I've a"
    case Some(Enterprise) => "I've c"
  }

  /** Every tier's sentence begins with its opening. */
  lemma SuffixOpening(tier: string, u: Profile)
    ensures |GreetingSuffix(tier, u)| >= 6
    ensures GreetingSuffix(tier, u)[..6] == Opening(ParsePlan(tier))
  {
    match ParsePlan(tier)
    case None =>
      assert GenericSuffix[..6] == "How ca";
    case Some(Free) =>
      assert FreeSuffix[..6] == "I can ";
    case Some(Basic) =>
      BasicOpening(Join(u.weakAreas, ", "));
    case Some(Professional) =>
      ProfessionalOpening(Join(u.weakAreas, ", "), u.role, u.company);
    case Some(Enterprise) =>
      EnterpriseOpening(u.role, u.company, FirstWeakArea(u));
  }

  lemma BasicOpening(areas: string)
    ensures var r := AreasIntro + areas + BasicClose; |r| >= 6 && r[..6] == "I've a"
  {
    assert AreasIntro[..6] == "I've a";
    KeepsOpening(AreasIntro, areas, "I've a");
    KeepsOpening(AreasIntro + areas, BasicClose, "I've a");
  }

  lemma ProfessionalOpening(areas: string, role: string, company: string)
    ensures var r := AreasIntro + areas + ProfessionalAsk + role + InterviewAt + company + "?";
            |r| >= 6 && r[..6] == "I've a"
  {
    var o := "I've a";
    assert AreasIntro[..6] == o;
    var x1 := AreasIntro + areas;
    var x2 := x1 + ProfessionalAsk;
    var x3 := x2 + role;
    var x4 := x3 + InterviewAt;
    var x5 := x4 + company;
    KeepsOpening(AreasIntro, areas, o);
    KeepsOpening(x1, ProfessionalAsk, o);
    KeepsOpening(x2, role, o);
    KeepsOpening(x3, InterviewAt, o);
    KeepsOpening(x4, company, o);
    KeepsOpening(x5, "?", o);
  }

  lemma EnterpriseOpening(role: string, company: string, first: string)
    ensures var r := PlanIntro + role + InterviewAt + company + FocusOn + first + StartThere;
            |r| >= 6 && r[..6] == "I've c"
  {
    var o := "I've c";
    assert PlanIntro[..6] == o;
    var x1 := PlanIntro + role;
    var x2 := x1 + InterviewAt;
    var x3 := x2 + company;
    var x4 := x3 + FocusOn;
    var x5 := x4 + first;
    KeepsOpening(PlanIntro, role, o);
    KeepsOpening(x1, InterviewAt, o);
    KeepsOpening(x2, company, o);
    KeepsOpening(x3, FocusOn, o);
    KeepsOpening(x4, first, o);
    KeepsOpening(x5, StartThere, o);
  }

  /** Whatever follows a sentence's opening words leaves them in place. */
  lemma KeepsOpening(intro: string, rest: string, o: string)
    requires |o| <= |intro| && intro[..|o|] == o
    ensures |intro + rest| >= |o| && (intro + rest)[..|o|] == o
  {
    assert (intro + rest)[..|o|] == intro[..|o|];
  }

  /**
   * Whatever the profile holds, the tier's sentence tells the tiers apart: unknown,
   * free, basic, professional and enterprise each open the chat differently.
   */
  lemma SuffixSeparatesTiers(t1: string, t2: string, u: Profile)
    requires ParsePlan(t1) != ParsePlan(t2)
    ensures GreetingSuffix(t1, u) != GreetingSuffix(t2, u)
  {
    var p1, p2 := ParsePlan(t1), ParsePlan(t2);
    if (p1 == Some(Basic) || p1 == Some(Professional)) && (p2 == Some(Basic) || p2 == Some(Professional)) {
      BasicShorterThanProfessional(Join(u.weakAreas, ", "), u.role, u.company);
    } else {
      SuffixOpening(t1, u);
      SuffixOpening(t2, u);
      assert Opening(p1) != Opening(p2);
    }
  }

  /** Same opening, same areas: the professional sentence always runs longer than basic's. */
  lemma BasicShorterThanProfessional(areas: string, role: string, company: string)
    ensures |AreasIntro + areas + BasicClose| < |AreasIntro + areas + ProfessionalAsk + role + InterviewAt + company + "?"|
  {
    assert |BasicClose| == |ProfessionalAsk| + 10;
    assert |InterviewAt| == 14;
  }

  /** Two tiers that greet a profile alike are the same tier, or both unknown to the switch. */
  lemma GreetingIdentifiesTier(t1: string, t2: string, u: Profile)
    requires Greeting(t1, u) == Greeting(t2, u)
    ensures ParsePlan(t1) == ParsePlan(t2)
    ensures ParsePlan(t1).Some? ==> t1 == t2
  {
    if ParsePlan(t1) != ParsePlan(t2) {
      SuffixSeparatesTiers(t1, t2, u);
    }
  }

  /** The chat as it opens: one assistant greeting, an empty box, not waiting. */
  function Opened(tier: string, u: Profile): (c: Chat)
    ensures |c.messages| == 1 && c.messages[0].sender == Assistant
    ensures c.messages[0].content == Greeting(tier, u)
    ensures c.input == "" && !c.loading
  {
    Chat([Message(Assistant, Greeting(tier, u))], "", false)
  }

  // ---------------------------------------------------------------------
  // Sending
  // ---------------------------------------------------------------------

  /** How the reply promise settles: with the draw that picked the reply, or by throwing. */
  datatype Outcome = Replied(roll: real) | Failed

  predicate ValidOutcome(o: Outcome) {
    o.Replied? ==> 0.0 <= o.roll < 1.0
  }

  const ErrorReply: string := "I'm sorry, I encountered an error. Please try again."

  /** The assistant's answer to a send: an entry of the tier's reply list, or the apology. */
  function ReplyText(replies: seq<string>, o: Outcome): (r: string)
    requires |replies| > 0 && ValidOutcome(o)
    ensures o.Replied? ==> r in replies
    ensures o.Failed? ==> r == ErrorReply
  {
    match o
    case Replied(roll) => replies[PickIndex(roll, |replies|)]
    case Failed => ErrorReply
  }

  /** With the tier's list, a successful reply is exactly the mock reply for that draw. */
  lemma ReplyIsMockReply(t: ReplyTable, tier: string, roll: real)
    requires ValidTable(t) && 0.0 <= roll < 1.0
    ensures ReplyText(Responses(t, tier), Replied(roll)) == MockReply(t, tier, roll)
  {
  }

  /** A text box holding only whitespace, for which `trim()` gives "". */
  predicate Blank(s: string) {
    forall i :: 0 <= i < |s| ==> IsJsSpace(s[i])
  }

  /** The synchronous half of `sendMessage`: the user message is listed, the box cleared, waiting begins. */
  function Submit(c: Chat): (r: Chat)
    ensures Blank(c.input) ==> r == c
    ensures !Blank(c.input) ==>
              r.messages == c.messages + [Message(User, c.input)] && r.input == "" && r.loading
  {
    TrimEmptyIff(c.input);
    if Trim(c.input) == "" then c
    else Chat(c.messages + [Message(User, c.input)], "", true)
  }

  /** The awaited half: exactly one assistant message, the reply or the apology, and waiting ends. */
  function Settle(c: Chat, replies: seq<string>, o: Outcome): (r: Chat)
    requires |replies| > 0 && ValidOutcome(o)
    ensures r.messages == c.messages + [Message(Assistant, ReplyText(replies, o))]
    ensures r.input == c.input && !r.loading
  {
    Chat(c.messages + [Message(Assistant, ReplyText(replies, o))], c.input, false)
  }

  /**
   * `sendMessage`: nothing happens for a blank box; otherwise the user's
   * text and then one assistant message are appended, the box is cleared
   * and the waiting indicator is off again.
   */
  function Send(c: Chat, replies: seq<string>, o: Outcome): (r: Chat)
    requires |replies| > 0 && ValidOutcome(o)
    ensures Blank(c.input) ==> r == c
    ensures !Blank(c.input) ==>
              r.messages == c.messages + [Message(User, c.input), Message(Assistant, ReplyText(replies, o))]
    ensures !Blank(c.input) ==> r.input == "" && !r.loading
  {
    if Blank(c.input) then c else Settle(Submit(c), replies, o)
  }

  /** One round of typing: the text typed into the box, then the send and how its reply settles. */
  datatype Turn = Turn(typed: string, outcome: Outcome)

  predicate ValidTurns(turns: seq<Turn>) {
    forall i :: 0 <= i < |turns| ==> ValidOutcome(turns[i].outcome)
  }

  /** The chat after a series of turns. */
  function Converse(c: Chat, replies: seq<string>, turns: seq<Turn>): (r: Chat)
    requires |replies| > 0 && ValidTurns(turns)
    decreases |turns|
  {
    if |turns| == 0 then c
    else
      var next := Send(c.(input := turns[0].typed), replies, turns[0].outcome);
      assert ValidTurns(turns[1..]) by {
        forall i | 0 <= i < |turns[1..]|
          ensures ValidOutcome(turns[1..][i].outcome)
        {
          assert turns[1..][i] == turns[i + 1];
        }
      }
      Converse(next, replies, turns[1..])
  }

  /** The list opens with the assistant and then alternates user, assistant, user, assistant. */
  predicate Alternates(ms: seq<Message>) {
    |ms| % 2 == 1
    && forall i :: 0 <= i < |ms| ==> ms[i].sender == (if i % 2 == 0 then Assistant else User)
  }

  predicate IsSent(t: Turn) {
    !Blank(t.typed)
  }

  /**
   * However the user types, the conversation alternates and every non-blank
   * send got exactly one reply: the list holds the greeting plus two
   * messages per non-blank send.
   */
  lemma {:induction false} ConversationAlternates(c: Chat, replies: seq<string>, turns: seq<Turn>)
    requires |replies| > 0 && ValidTurns(turns) && Alternates(c.messages)
    ensures Alternates(Converse(c, replies, turns).messages)
    ensures |Converse(c, replies, turns).messages| == |c.messages| + 2 * Count(turns, IsSent)
    decreases |turns|
  {
    if |turns| > 0 {
      var next := Send(c.(input := turns[0].typed), replies, turns[0].outcome);
      assert ValidTurns(turns[1..]) by {
        forall i | 0 <= i < |turns[1..]|
          ensures ValidOutcome(turns[1..][i].outcome)
        {
          assert turns[1..][i] == turns[i + 1];
        }
      }
      SendAlternates(c.(input := turns[0].typed), replies, turns[0].outcome);
      ConversationAlternates(next, replies, turns[1..]);
      CountCons(turns, IsSent);
    }
  }

  lemma SendAlternates(c: Chat, replies: seq<string>, o: Outcome)
    requires |replies| > 0 && ValidOutcome(o) && Alternates(c.messages)
    ensures Alternates(Send(c, replies, o).messages)
  {
    if !Blank(c.input) {
      AlternatesAppend(c.messages, Message(User, c.input), Message(Assistant, ReplyText(replies, o)));
    }
  }

  lemma AlternatesAppend(ms: seq<Message>, a: Message, b: Message)
    requires Alternates(ms) && a.sender == User && b.sender == Assistant
    ensures Alternates(ms + [a, b])
  {
    var r := ms + [a, b];
    forall i | 0 <= i < |r|
      ensures r[i].sender == (if i % 2 == 0 then Assistant else User)
    {
      if i < |ms| {
        assert r[i] == ms[i];
      } else if i == |ms| {
        assert r[i] == a;
      } else {
        assert r[i] == b;
      }
    }
  }

  /** Every assistant message after the greeting is an entry of the reply list or the apology. */
  lemma {:induction false} RepliesFromList(c: Chat, replies: seq<string>, turns: seq<Turn>)
    requires |replies| > 0 && ValidTurns(turns) && Alternates(c.messages)
    requires FromList(c.messages, replies)
    ensures FromList(Converse(c, replies, turns).messages, replies)
    decreases |turns|
  {
    if |turns| > 0 {
      var c1 := c.(input := turns[0].typed);
      var next := Send(c1, replies, turns[0].outcome);
      assert ValidTurns(turns[1..]) by {
        forall i | 0 <= i < |turns[1..]|
          ensures ValidOutcome(turns[1..][i].outcome)
        {
          assert turns[1..][i] == turns[i + 1];
        }
      }
      SendAlternates(c1, replies, turns[0].outcome);
      if !Blank(c1.input) {
        RepliesAppend(c.messages, replies, Message(User, c1.input), Message(Assistant, ReplyText(replies, turns[0].outcome)));
      }
      RepliesFromList(next, replies, turns[1..]);
    }
  }

  /** The reply-list property of a message list: every even position after the greeting. */
  predicate FromList(ms: seq<Message>, replies: seq<string>) {
    forall i :: 1 <= i < |ms| && i % 2 == 0 ==> ms[i].content in replies || ms[i].content == ErrorReply
  }

  lemma RepliesAppend(ms: seq<Message>, replies: seq<string>, a: Message, b: Message)
    requires FromList(ms, replies) && |ms| % 2 == 1
    requires b.content in replies || b.content == ErrorReply
    ensures FromList(ms + [a, b], replies)
  {
    var r := ms + [a, b];
    forall i | 1 <= i < |r| && i % 2 == 0
      ensures r[i].content in replies || r[i].content == ErrorReply
    {
      if i < |ms| {
        assert r[i] == ms[i];
      } else {
        assert r[i] == b;
      }
    }
  }

  // ---------------------------------------------------------------------
  // Around the chat
  // ---------------------------------------------------------------------

  /** `renderTierSpecificUI`. */
  datatype Banner =
    | UpgradeAlert                                  // free: the limitations alert with an upgrade link
    | PlanBar(badge: string, upgradeLink: bool, dashboardLink: bool, requestTrainer: bool)

  function TierBanner(tier: string): (r: Option<Banner>)
    ensures r.None? <==> ParsePlan(tier).None?
    ensures r == Some(UpgradeAlert) <==> tier == "free"
    ensures r.Some? && r.value.PlanBar? ==> (r.value.upgradeLink <==> tier == "basic")
    ensures r.Some? && r.value.PlanBar? ==> (r.value.dashboardLink <==> tier == "professional" || tier == "enterprise")
    ensures r.Some? && r.value.PlanBar? ==> (r.value.requestTrainer <==> tier == "enterprise")
  {
    match ParsePlan(tier)
    case None => None
    case Some(Free) => Some(UpgradeAlert)
    case Some(Basic) => Some(PlanBar("Basic Plan", true, false, false))
    case Some(Professional) => Some(PlanBar("Professional Plan", false, true, false))
    case Some(Enterprise) => Some(PlanBar("Enterprise Plan", false, true, true))
  }

  /** Whether a banner links to the subscription page: the alert's link, or basic's upgrade button. */
  predicate LinksToSubscription(b: Banner) {
    b.UpgradeAlert? || b.upgradeLink
  }

  /** The two lower plans are pointed at the subscription page; the two upper ones at the trainer dashboard. */
  lemma UpgradeLinkBelowProfessional(tier: string)
    ensures (TierBanner(tier).Some? && LinksToSubscription(TierBanner(tier).value)) <==> tier == "free" || tier == "basic"
    ensures (TierBanner(tier).Some? && TierBanner(tier).value.PlanBar? && TierBanner(tier).value.dashboardLink)
            <==> tier == "professional" || tier == "enterprise"
  {
  }

  /** The "Upgrade for Personalized Topics" footer of the topics card. */
  predicate ShowsTopicsUpgrade(tier: string) {
    tier == "free"
  }

  /** The topics card's upgrade footer appears exactly where the banner is the free plan's alert. */
  lemma TopicsUpgradeMatchesAlert(tier: string)
    ensures ShowsTopicsUpgrade(tier) <==> TierBanner(tier) == Some(UpgradeAlert)
  {
  }

  /** Three parts, as in the page's weak areas, join with two separators. */
  lemma JoinThree(a: string, b: string, c: string, sep: string)
    ensures Join([a, b, c], sep) == a + sep + b + sep + c
  {
    assert [a, b, c][..2] == [a, b];
    assert [a, b][..1] == [a];
  }
}

=== FILE: trainer_dashboard.dfy ===
/**
 * The personal-trainer dashboard: the improvement label and tint of each
 * skill score, the badge of an action item, and the icon of a shared
 * resource.
 */
module TrainerDashboard {
  import opened Common
  import opened Text

  datatype Skill = Skill(name: string, score: int, previousScore: int)

  datatype ActionItem = ActionItem(id: nat, title: string, description: string, dueDate: string, completed: bool)

  /** The page's skill scores. */
  const Skills: seq<Skill> := [
    Skill("Technical Knowledge", 68, 62),
    Skill("Communication", 85, 80),
    Skill("Problem Solving", 75, 70),
    Skill("System Design", 60, 55),
    Skill("Behavioral", 80, 78)
  ]

  // ---------------------------------------------------------------------
  // Improvement label
  // ---------------------------------------------------------------------

  /** `calculateImprovement`: the difference with a percent sign, and a plus sign only when it is positive. */
  function CalculateImprovement(current: int, previous: int): (r: string)
    ensures |r| >= 2 && r[|r| - 1] == '%'
  {
    var d := current - previous;
    if d > 0 then "+" + IntToString(d) + "%" else IntToString(d) + "%"
  }

  /** Reads an improvement label back: an optional sign, decimal digits, then `%`. */
  function ParseImprovement(s: string): (r: Option<int>)
  {
    if |s| < 2 || s[|s| - 1] != '%' then None
    else
      var body := s[..|s| - 1];
      if body[0] == '+' || body[0] == '-' then
        var digits := body[1..];
        if |digits| == 0 || !AllDigits(digits) then None
        else
          var v: int := ParseDigits(digits);
          if body[0] == '+' then Some(v) else Some(-v)
      else if AllDigits(body) then Some(ParseDigits(body))
      else None
  }

  /** The label shows the exact difference: reading it back gives `current - previous`. */
  lemma ImprovementRoundTrip(current: int, previous: int)
    ensures ParseImprovement(CalculateImprovement(current, previous)) == Some(current - previous)
  {
    var d := current - previous;
    if d > 0 {
      ParseSigned('+', d);
    } else if d < 0 {
      ParseSigned('-', -d);
    } else {
      ParseUnsigned(0);
    }
  }

  lemma ParseSigned(sign: char, n: nat)
    requires sign == '+' || sign == '-'
    ensures ParseImprovement([sign] + NatToString(n) + "%") == Some(if sign == '+' then n as int else -(n as int))
  {
    var digits := NatToString(n);
    var s := [sign] + digits + "%";
    assert s[..|s| - 1] == [sign] + digits;
    assert ([sign] + digits)[1..] == digits;
    ParseNatToString(n);
  }

  lemma ParseUnsigned(n: nat)
    ensures ParseImprovement(NatToString(n) + "%") == Some(n)
  {
    var digits := NatToString(n);
    var s := digits + "%";
    assert s[..|s| - 1] == digits;
    assert IsDigit(digits[0]);
    ParseNatToString(n);
  }

  /** The first character says which way the score went; equal scores read "0%". */
  lemma ImprovementSign(current: int, previous: int)
    ensures CalculateImprovement(current, previous)[0] == '+' <==> current > previous
    ensures CalculateImprovement(current, previous)[0] == '-' <==> current < previous
    ensures current == previous ==> CalculateImprovement(current, previous) == "0%"
  {
    var d := current - previous;
    if d >= 0 {
      var s := NatToString(d);
      assert IsDigit(s[0]);
    }
    if d == 0 {
      assert NatToString(0) == "0";
    }
  }

  datatype Tint = Green | Red

  /** The badge is green for a rise and red otherwise, including no change. */
  function ImprovementTint(s: Skill): (t: Tint)
    ensures t == Green <==> s.score > s.previousScore
  {
    if s.score > s.previousScore then Green else Red
  }

  /** A green badge is exactly one whose label carries a plus sign; an unchanged score reads "0%" on red. */
  lemma TintMatchesLabel(s: Skill)
    ensures ImprovementTint(s) == Green <==> CalculateImprovement(s.score, s.previousScore)[0] == '+'
    ensures s.score == s.previousScore ==>
              ImprovementTint(s) == Red && CalculateImprovement(s.score, s.previousScore) == "0%"
  {
    ImprovementSign(s.score, s.previousScore);
  }

  /** Every skill on the page rose, so every badge is green and reads its rise. */
  lemma PageSkillsAllRose()
    ensures forall i :: 0 <= i < |Skills| ==> ImprovementTint(Skills[i]) == Green
    ensures forall i :: 0 <= i < |Skills| ==>
              ParseImprovement(CalculateImprovement(Skills[i].score, Skills[i].previousScore))
              == Some(Skills[i].score - Skills[i].previousScore)
  {
    forall i | 0 <= i < |Skills|
      ensures ParseImprovement(CalculateImprovement(Skills[i].score, Skills[i].previousScore))
              == Some(Skills[i].score - Skills[i].previousScore)
    {
      ImprovementRoundTrip(Skills[i].score, Skills[i].previousScore);
    }
  }

  // ---------------------------------------------------------------------
  // Action items
  // ---------------------------------------------------------------------

  const DuePrefix: string := "Due: "

  /**
   * The badge of an action item: "Completed", or "Due: " and the due date as
   * the browser's locale prints it (`formattedDue`).
   */
  function ActionBadge(item: ActionItem, formattedDue: string): (r: string)
    ensures r == "Completed" <==> item.completed
    ensures !item.completed ==> |r| >= |DuePrefix| && r[..|DuePrefix|] == DuePrefix
  {
    if item.completed then "Completed"
    else
      var r := DuePrefix + formattedDue;
      assert r[0] == 'D';
      r
  }

  /** The due date a "Due: ..." badge shows. */
  function BadgeDueDate(badge: string): (r: Option<string>)
    ensures r.Some? <==> |badge| >= |DuePrefix| && badge[..|DuePrefix|] == DuePrefix
  {
    if |badge| >= |DuePrefix| && badge[..|DuePrefix|] == DuePrefix then Some(badge[|DuePrefix|..]) else None
  }

  /** A pending item's badge shows its printed due date and nothing else; a completed item's shows none. */
  lemma BadgeShowsDueDate(item: ActionItem, formattedDue: string)
    ensures !item.completed ==> BadgeDueDate(ActionBadge(item, formattedDue)) == Some(formattedDue)
    ensures item.completed ==> BadgeDueDate(ActionBadge(item, formattedDue)).None?
  {
    if !item.completed {
      assert (DuePrefix + formattedDue)[|DuePrefix|..] == formattedDue;
    } else {
      assert "Completed"[0] != DuePrefix[0];
    }
  }

  // ---------------------------------------------------------------------
  // Resources
  // ---------------------------------------------------------------------

  datatype Icon = RedFile | BlueVideo | GreenFile

  /** The three independent `type === ...` checks in front of a resource title. */
  function ResourceIcons(kind: string): (r: seq<Icon>)
    ensures |r| <= 1
    ensures |r| == 1 <==> kind == "PDF" || kind == "Video Course" || kind == "Document"
  {
    (if kind == "PDF" then [RedFile] else [])
    + (if kind == "Video Course" then [BlueVideo] else [])
    + (if kind == "Document" then [GreenFile] else [])
  }

  /** Each known type gets its own icon; the comparison is case-sensitive, so "pdf" gets none. */
  lemma KnownResourceIcons()
    ensures ResourceIcons("PDF") == [RedFile] && ResourceIcons("Document") == [GreenFile]
    ensures ResourceIcons("Video Course") == [BlueVideo]
    ensures ResourceIcons("pdf") == []
  {
  }
}

=== FILE: training.dfy ===
/**
 * The training-module page: lesson completion counts folded over the
 * module's sections, the completion percentage, the "next lesson" search,
 * the quiz average and the minutes-to-hours labels of the performance tab.
 */
module Training {
  import opened Common
  import opened Text

  datatype Lesson = Lesson(id: string, title: string, completed: bool)

  datatype Section = Section(id: string, lessons: seq<Lesson>)

  /** A lesson together with the section it belongs to. */
  datatype Placed = Placed(sectionId: string, lesson: Lesson)

  /** What `findNextLesson` returns. */
  datatype NextLesson = NextLesson(sectionId: string, lessonId: string, title: string)

  predicate IsCompleted(l: Lesson) {
    l.completed
  }

  predicate PlacedCompleted(p: Placed) {
    p.lesson.completed
  }

  function PlaceAll(sectionId: string, lessons: seq<Lesson>): (r: seq<Placed>)
    ensures |r| == |lessons|
    ensures forall i :: 0 <= i < |r| ==> r[i] == Placed(sectionId, lessons[i])
  {
    seq(|lessons|, i requires 0 <= i < |lessons| => Placed(sectionId, lessons[i]))
  }

  /** Every lesson of the module in reading order: section by section, lesson by lesson. */
  function AllLessons(sections: seq<Section>): seq<Placed>
    decreases |sections|
  {
    if |sections| == 0 then []
    else PlaceAll(sections[0].id, sections[0].lessons) + AllLessons(sections[1..])
  }

  /** Reading order of the first sections, extended by one more section. */
  lemma AllLessonsSnoc(sections: seq<Section>, k: nat)
    requires k < |sections|
    ensures AllLessons(sections[..k + 1]) == AllLessons(sections[..k]) + PlaceAll(sections[k].id, sections[k].lessons)
    decreases k
  {
    if k > 0 {
      AllLessonsSnoc(sections[1..], k - 1);
      assert sections[..k + 1][1..] == sections[1..][..k];
      assert sections[..k][1..] == sections[1..][..k - 1];
    } else {
      assert sections[..1][1..] == [];
    }
  }

  /** `completedLessons`: per-section counts of completed lessons, summed. */
  function CompletedLessons(sections: seq<Section>): (n: nat)
    ensures n == Count(AllLessons(sections), PlacedCompleted)
    decreases |sections|
  {
    if |sections| == 0 then 0
    else
      var here := Count(sections[0].lessons, IsCompleted);
      var rest := CompletedLessons(sections[1..]);
      CountPlaced(sections[0].id, sections[0].lessons);
      CountConcat(PlaceAll(sections[0].id, sections[0].lessons), AllLessons(sections[1..]), PlacedCompleted);
      here + rest
  }

  lemma {:induction false} CountPlaced(sectionId: string, lessons: seq<Lesson>)
    ensures Count(PlaceAll(sectionId, lessons), PlacedCompleted) == Count(lessons, IsCompleted)
    decreases |lessons|
  {
    if |lessons| > 0 {
      var placed := PlaceAll(sectionId, lessons);
      CountPlaced(sectionId, lessons[1..]);
      assert placed[1..] == PlaceAll(sectionId, lessons[1..]);
      CountCons(placed, PlacedCompleted);
      CountCons(lessons, IsCompleted);
    }
  }

  /** `totalLessons`: per-section lesson counts, summed. */
  function TotalLessons(sections: seq<Section>): (n: nat)
    ensures n == |AllLessons(sections)|
    decreases |sections|
  {
    if |sections| == 0 then 0
    else |sections[0].lessons| + TotalLessons(sections[1..])
  }

  /** Every lesson of the module is completed. */
  predicate AllDone(sections: seq<Section>) {
    forall i :: 0 <= i < |AllLessons(sections)| ==> AllLessons(sections)[i].lesson.completed
  }

  /** Completed lessons never outnumber lessons, and match them exactly when every lesson is done. */
  lemma {:induction false} CompletedAtMostTotal(sections: seq<Section>)
    ensures CompletedLessons(sections) <= TotalLessons(sections)
    ensures CompletedLessons(sections) == TotalLessons(sections) <==> AllDone(sections)
  {
    var all := AllLessons(sections);
    assert CompletedLessons(sections) == Count(all, PlacedCompleted);
    assert TotalLessons(sections) == |all|;
    AllDoneIff(all);
  }

  lemma {:induction false} AllDoneIff(all: seq<Placed>)
    ensures Count(all, PlacedCompleted) == |all| <==> forall i :: 0 <= i < |all| ==> all[i].lesson.completed
  {
    var n := Count(all, PlacedCompleted);
    if n == |all| {
      forall i | 0 <= i < |all|
        ensures all[i].lesson.completed
      {
        assert PlacedCompleted(all[i]);
      }
    }
    if forall i :: 0 <= i < |all| ==> all[i].lesson.completed {
      assert forall i :: 0 <= i < |all| ==> PlacedCompleted(all[i]);
    }
  }

  /** `completionPercentage`; NaN (`None`) for a module without lessons. */
  function CompletionPercentage(sections: seq<Section>): (r: Option<int>)
    ensures r.None? <==> TotalLessons(sections) == 0
    ensures r.Some? ==> 0 <= r.value <= 100
    ensures r.Some? ==>
              2 * TotalLessons(sections) * r.value
              <= 200 * CompletedLessons(sections) + TotalLessons(sections)
              < 2 * TotalLessons(sections) * (r.value + 1)
  {
    CompletedAtMostTotal(sections);
    RoundedPercent(CompletedLessons(sections), TotalLessons(sections))
  }

  /** Position `k` in reading order holds the first lesson not yet completed. */
  predicate FirstIncompleteAt(sections: seq<Section>, k: int) {
    0 <= k < |AllLessons(sections)|
    && !AllLessons(sections)[k].lesson.completed
    && forall j :: 0 <= j < k ==> AllLessons(sections)[j].lesson.completed
  }

  function Describe(p: Placed): NextLesson {
    NextLesson(p.sectionId, p.lesson.id, p.lesson.title)
  }

  /**
   * `findNextLesson`: scans sections, then lessons, and stops at the first
   * lesson not completed. It finds none exactly when the completed count
   * equals the total, which is when the page says "All lessons completed!".
   */
  method FindNextLesson(sections: seq<Section>) returns (r: Option<NextLesson>)
    ensures r.None? <==> CompletedLessons(sections) == TotalLessons(sections)
    ensures r.Some? ==> exists k :: FirstIncompleteAt(sections, k) && r.value == Describe(AllLessons(sections)[k])
  {
    var si := 0;
    while si < |sections|
      invariant 0 <= si <= |sections|
      invariant AllDone(sections[..si])
    {
      var section := sections[si];
      var li := 0;
      while li < |section.lessons|
        invariant 0 <= li <= |section.lessons|
        invariant forall j :: 0 <= j < li ==> section.lessons[j].completed
      {
        var lesson := section.lessons[li];
        if !lesson.completed {
          var k := FoundAt(sections, si, li);
          r := Some(NextLesson(section.id, lesson.id, lesson.title));
          return;
        }
        li := li + 1;
      }
      AllDoneExtend(sections, si);
      si := si + 1;
    }
    assert sections[..si] == sections;
    CompletedAtMostTotal(sections);
    r := None;
  }

  /** A fully completed next section extends the completed prefix. */
  lemma AllDoneExtend(sections: seq<Section>, si: nat)
    requires si < |sections|
    requires AllDone(sections[..si])
    requires forall j :: 0 <= j < |sections[si].lessons| ==> sections[si].lessons[j].completed
    ensures AllDone(sections[..si + 1])
  {
    AllLessonsSnoc(sections, si);
    var before := AllLessons(sections[..si]);
    var here := PlaceAll(sections[si].id, sections[si].lessons);
    var both: seq<Placed> := before + here;
    forall j | 0 <= j < |both|
      ensures both[j].lesson.completed
    {
      if j >= |before| {
        assert both[j] == here[j - |before|];
      }
    }
  }

  /**
   * If the earlier sections and the earlier lessons of section `si` are all
   * complete and lesson `li` is not, it is the first incomplete lesson in
   * reading order.
   */
  lemma FoundAt(sections: seq<Section>, si: nat, li: nat) returns (k: nat)
    requires si < |sections| && li < |sections[si].lessons|
    requires AllDone(sections[..si])
    requires forall j :: 0 <= j < li ==> sections[si].lessons[j].completed
    requires !sections[si].lessons[li].completed
    ensures CompletedLessons(sections) != TotalLessons(sections)
    ensures FirstIncompleteAt(sections, k)
    ensures Describe(AllLessons(sections)[k]) == NextLesson(sections[si].id, sections[si].lessons[li].id, sections[si].lessons[li].title)
  {
    var before := AllLessons(sections[..si]);
    var here := PlaceAll(sections[si].id, sections[si].lessons);
    AllLessonsSnoc(sections, si);
    AllLessonsPrefix(sections, si + 1);
    var all := AllLessons(sections);
    k := |before| + li;
    assert (before + here)[k] == here[li];
    assert all[..|before + here|] == before + here;
    assert all[k] == Placed(sections[si].id, sections[si].lessons[li]);
    forall j | 0 <= j < k
      ensures all[j].lesson.completed
    {
      assert all[j] == (before + here)[j];
    }
    CompletedAtMostTotal(sections);
  }

  /** The lessons of the first `k` sections come first in reading order. */
  lemma {:induction false} AllLessonsPrefix(sections: seq<Section>, k: nat)
    requires k <= |sections|
    ensures |AllLessons(sections[..k])| <= |AllLessons(sections)|
    ensures AllLessons(sections)[..|AllLessons(sections[..k])|] == AllLessons(sections[..k])
    decreases k
  {
    if k > 0 {
      AllLessonsPrefix(sections[1..], k - 1);
      assert sections[..k][1..] == sections[1..][..k - 1];
      assert sections[..k][0] == sections[0];
    } else {
      assert sections[..0] == [];
    }
  }

  // ---------------------------------------------------------------------
  // Performance tab
  // ---------------------------------------------------------------------

  /** The "Average Score" figure: `Math.round(sum / length)`; NaN (`None`) without quizzes. */
  function QuizAverage(scores: seq<int>): (r: Option<int>)
    ensures r.None? <==> |scores| == 0
    ensures r.Some? ==> 2 * |scores| * r.value <= 2 * Sum(scores) + |scores| < 2 * |scores| * (r.value + 1)
  {
    if |scores| == 0 then None else Some(RoundDiv(Sum(scores), |scores|))
  }

  /** The average lies between any lower and upper bound of the individual scores. */
  lemma QuizAverageBetween(scores: seq<int>, lo: int, hi: int)
    requires |scores| > 0
    requires forall i :: 0 <= i < |scores| ==> lo <= scores[i] <= hi
    ensures lo <= QuizAverage(scores).value <= hi
  {
    SumBounds(scores, lo, hi);
    RoundDivBetween(Sum(scores), |scores|, lo, hi);
  }

  /** `Math.round(minutes / 60 * 10)`: the time in tenths of an hour, to the nearest tenth, ties up. */
  function HoursTenths(minutes: nat): (t: nat)
    ensures 6 * t - 3 <= minutes < 6 * t + 3
  {
    RoundDiv(minutes, 6)
  }

  /** The hours label: the rounded tenths of an hour, printed as a decimal. */
  function HoursLabel(minutes: nat): (r: string)
    ensures ParseTenths(r) == Some(HoursTenths(minutes))
    ensures '.' in r <==> HoursTenths(minutes) % 10 != 0
  {
    TenthsReadBack(HoursTenths(minutes));
    TenthsText(HoursTenths(minutes))
  }

  /** How JavaScript prints `t / 10`: no fractional part for a whole number, otherwise one decimal. */
  function TenthsText(t: nat): string {
    if t % 10 == 0 then NatToString(t / 10)
    else NatToString(t / 10) + "." + [DigitChar(t % 10)]
  }

  /** A printed number of tenths reads back as itself, with a decimal point exactly when it has a fraction. */
  lemma TenthsReadBack(t: nat)
    ensures ParseTenths(TenthsText(t)) == Some(t)
    ensures '.' in TenthsText(t) <==> t % 10 != 0
  {
    var w := NatToString(t / 10);
    ParseNatToString(t / 10);
    NoDotInDigits(w);
    if t % 10 != 0 {
      var d := DigitChar(t % 10);
      assert TenthsText(t) == w + ['.'] + [d];
      SplitAtChar(w, '.', [d]);
    }
  }

  /** Reads a label such as "3.5" or "7" back into tenths. */
  function ParseTenths(s: string): Option<nat> {
    match IndexOf(s, '.')
    case None =>
      if |s| > 0 && AllDigits(s) then Some(10 * ParseDigits(s)) else None
    case Some(k) =>
      var whole := s[..k];
      var frac := s[k + 1..];
      if |whole| > 0 && AllDigits(whole) && |frac| == 1 && IsDigit(frac[0]) then
        Some(10 * ParseDigits(whole) + DigitValue(frac[0]))
      else None
  }

  /** The hours label reads back as the rounded number of tenths. */
  lemma HoursLabelRoundTrip(minutes: nat)
    ensures ParseTenths(HoursLabel(minutes)) == Some(HoursTenths(minutes))
  {
  }

  lemma NoDotInDigits(m: string)
    requires AllDigits(m)
    ensures '.' !in m
  {
  }

  // ---------------------------------------------------------------------
  // Figures shown on the page
  // ---------------------------------------------------------------------

  const QuizScores: seq<int> := [85, 92, 78, 88]

  /** The page's quiz scores average to 86 (343 / 4 = 85.75). */
  lemma QuizScoresAverage()
    ensures QuizAverage(QuizScores) == Some(86)
  {
  }

  /** The time-spent labels: 420 minutes is "7" hours, 45 is "0.8", 210 is "3.5" and 165 is "2.8". */
  lemma TimeSpentLabels()
    ensures HoursLabel(420) == "7"
    ensures HoursLabel(45) == "0.8"
    ensures HoursLabel(210) == "3.5"
    ensures HoursLabel(165) == "2.8"
  {
    assert HoursTenths(420) == 70 && TenthsText(70) == "7";
    assert HoursTenths(45) == 8 && TenthsText(8) == "0.8";
    assert HoursTenths(210) == 35 && TenthsText(35) == "3.5";
    assert HoursTenths(165) == 28 && TenthsText(28) == "2.8";
  }
}
